=== FILE: README.md ===
# Storefront order workflow — a Dafny model

This project models a small storefront's order workflow. A customer fills a cart and checks
out with a bank transfer. Four backend edge functions carry the order through its life:

- `create-order` validates the cart against the catalogue and the inventory, prices it and
  writes the order with its item snapshots;
- `upload-payment-proof` stores the transfer receipt and records its public URL on the order;
- `track-order` finds an order by its tracking code;
- `cancel-order` gives the stock back and deletes a pending order.

It also models the client code around them:

- the storefront page: the cart, the category and search filters, and the pager;
- the cart drawer and the product detail modal;
- the checkout page: its session-storage resume, shipping estimate, submit, upload and cancel;
- the bank-account carousel;
- the Venezuelan states and cities table;
- the storage image URL builders.

The model is organised like this:

- **Values.** Every table row is a `datatype` (`records.dfy`). Money is integer cents. An empty
  string stands for a missing (falsy) text field.
- **Backend.** The backend is one `class Backend` whose table fields the handlers reassign.
- **Handlers.** Each handler is a pure guard function (`…Screen`) and a pure effect function
  (`Commit`, `Cancellation`, `Uploading`, `Track`). A method runs the handler on the backend,
  and its `ensures` ties the new tables to those functions.
- **Failures and generated values.** Backend calls that may fail are boolean fault
  parameters. Database-generated ids, tracking codes and timestamps are inputs.
- **Client state.** The client pages are classes whose fields are the React state. The replies
  of the edge functions are parameters of their methods.

Behaviour of the code worth knowing:

- **No stock is taken at creation.** `create-order` only checks the stock and never decrements
  it. `cancel-order` still adds the order's quantities back, so a create followed by a cancel
  raises the stock (`Lifecycle.CreateThenCancelInflates`).
- **The server total has no tax.** The server's `total_amount` is the subtotal plus shipping.
  The checkout page shows the subtotal plus 19% IVA plus shipping (`Checkout.Summary`).
- **The checkout page never gets an order created.** The page's order body carries no
  `payment_proof_url`, and `create-order` demands one, so every submit is refused with 400
  before any table is read (`Checkout.CheckoutNeverCreates`).
- **The first upload after a submit is refused.** The `create-order` reply has no
  `order_token`, so the page stores the string "undefined" as the token. The upload right after
  a submit is refused for a missing token, and it passes after a reload
  (`Checkout.UploadAfterSubmit`).
- **The modal keeps its quantity.** The product modal keeps its quantity from one product to
  the next (`ProductDetail.QuantityCarriesOver`). Its stepper bounds a single addition, not
  what the cart holds (`ProductDetail.CartCanExceedStock`).
- **A failed clean-up leaves an order without items.** When the items insert fails,
  `create-order` deletes the new order row but ignores the delete's own error, so that row can
  stay with no items (`CreateOrder.Commit`).
- **A "/" in the file extension strands the proof.** `upload-payment-proof` takes everything
  after the file name's last "." as the extension, "/" included. `cancel-order` removes the
  object named by the last two "/"-pieces of the URL, so for a name such as "a.png/x" it
  removes a different path and the stored proof stays (`Lifecycle.SlashedNameStrandsProof`).
- **The carousel never shows its load error.** The carousel's load-failure notice is never
  shown (`Carousel.FailureNeverShown`).

## Model

| member | source | states |
|---|---|---|
| Records.MethodGate | supabase/functions/create-order/index.ts:28-33 | exactly POST passes; OPTIONS gets the preflight, any other method 405 "Method not allowed" |
| Records.MaybeSingle | supabase/functions/track-order/index.ts:59-63 | no row is not-found, one row is found (that row), more rows is a query error |
| Records.OrdersWithId | supabase/functions/cancel-order/index.ts:70-74 | the result holds exactly the orders with that id |
| Records.DeleteOrder | supabase/functions/cancel-order/index.ts:192-196 | the table after the delete holds exactly the orders with another id |
| Records.DeleteAppendedOrder | supabase/functions/create-order/index.ts:306-309 | deleting the order just appended under a fresh id gives back the table as it was |
| Records.ItemsOfOrder | supabase/functions/cancel-order/index.ts:129-133 | the result holds exactly the item rows of that order |
| Records.DeleteItemsOf | supabase/functions/cancel-order/index.ts:173-177 | the table after the delete holds exactly the items of other orders |
| Records.ResolveCaller | supabase/functions/cancel-order/index.ts:59-68 | a user is resolved iff the header starts with "Bearer " and its token is known, and then it is that token's user |
| Records.Backend.constructor | supabase/functions/create-order/index.ts:43 | a backend with the given catalogue, inventory and rules, and no orders, items or proofs |
| Records.PublicUrl | supabase/functions/upload-payment-proof/index.ts:142-146 | the public URL starts with the project URL and ends with "/" and the object path |
| Text.FormatCents | supabase/functions/create-order/index.ts:246 | `toFixed(2)` of an amount in cents: a minus sign exactly for a negative amount, then digits reading as the whole units, a point, and two digits reading as the hundredths |
| CreateOrder.CheckRequest | supabase/functions/create-order/index.ts:60-97 | the request passes iff the six customer fields, the proof URL and a non-empty cart are present; otherwise 400, with the missing-fields message first |
| CreateOrder.Prepare | supabase/functions/create-order/index.ts:26-97 | OPTIONS is the preflight and methods other than POST get 405; a POST is refused exactly as the request check says; a pass means a POST with a complete request |
| CreateOrder.ProductIds | supabase/functions/create-order/index.ts:99 | the ids of the cart lines, position by position |
| CreateOrder.Requested | supabase/functions/create-order/index.ts:101-104 | exactly the catalogue rows whose id is among the requested ids |
| CreateOrder.InactiveNames | supabase/functions/create-order/index.ts:133-138 | empty iff every found product is active; every inactive product's name is listed |
| CreateOrder.LastWithId | supabase/functions/create-order/index.ts:202-207 | the product map yields a row with that id iff one was found |
| CreateOrder.FirstWithId | supabase/functions/create-order/index.ts:177 | `find` yields a found row with that id iff one exists |
| CreateOrder.Shortages | supabase/functions/create-order/index.ts:173-185 | at most one entry per line, each with less available than requested |
| CreateOrder.ShortageOf | supabase/functions/create-order/index.ts:175-183 | a line gives an entry iff it asks for more than is on hand; the entry carries the requested quantity, the stock on hand and the name of the first found row with that id, or no name |
| CreateOrder.ShortagesExactly | supabase/functions/create-order/index.ts:173-185 | every short line is reported, and every report is a short line's |
| CreateOrder.ShortagesCount | supabase/functions/create-order/index.ts:173-185 | there are exactly as many reports as short lines |
| CreateOrder.ShortagesInLineOrder | supabase/functions/create-order/index.ts:173-185 | a short line's report sits at the position given by the number of short lines before it, so the reports come in line order |
| CreateOrder.NoShortagesIff | supabase/functions/create-order/index.ts:173-200 | no stock error is reported iff every line's quantity is covered by the inventory (a missing row counts as 0) |
| CreateOrder.Screen | supabase/functions/create-order/index.ts:99-200 | the cart passes iff all its products exist, all are active, the inventory query succeeds and the stock covers it; a refusal is 500 only when the inventory query fails, otherwise 400 |
| CreateOrder.ScreenSteps | supabase/functions/create-order/index.ts:99-200 | the reply of each failing step in turn: missing products, inactive products named, inventory query failure, the shortage list; a pass prices the cart |
| CreateOrder.CollectShortages | supabase/functions/create-order/index.ts:173-185 | the loop collects exactly the shortage list, empty iff the cart is in stock |
| CreateOrder.Lines | supabase/functions/create-order/index.ts:206-222 | each line's subtotal is its unit price times its quantity |
| CreateOrder.LinesWhenAllFound | supabase/functions/create-order/index.ts:206-222 | with every product found, one line per cart line, carrying that line's product and quantity |
| CreateOrder.BuildLines | supabase/functions/create-order/index.ts:202-222 | the loop builds the line snapshots and their sum as the subtotal |
| CreateOrder.MatchingRules | supabase/functions/create-order/index.ts:224-231 | exactly the active rules for that country, state and city |
| CreateOrder.RuleFor | supabase/functions/create-order/index.ts:224-235 | a rule is used iff the query succeeds with exactly one match, and it is an active rule for that destination |
| CreateOrder.ShippingCases | supabase/functions/create-order/index.ts:237-248 | no rule: "Envío por confirmar" and nothing charged; a free rule: "Envío gratis"; otherwise the base cost with the "Costo de envío: $" message |
| CreateOrder.Quote | supabase/functions/create-order/index.ts:237-250 | no rule: the pending message at cost 0; a free rule: the free message at cost 0; a paid rule: "Costo de envío: $" followed by the cost written with two decimals, at the rule's base cost |
| CreateOrder.Priced | supabase/functions/create-order/index.ts:202-265 | the subtotal is the sum of the line subtotals, the total is subtotal plus the quoted shipping cost, the notes end with the shipping message, and the caller fills the user id |
| CreateOrder.Evaluate | supabase/functions/create-order/index.ts:99-250 | a failing product query gives 500 "Error validating products"; the cart is accepted iff no query fails and every catalogue check passes |
| CreateOrder.ShippingNotes | supabase/functions/create-order/index.ts:263-265 | the notes are the cédula, state and city lines, then a "Dirección" line when the address is given, then the shipping message |
| CreateOrder.DecideOrder | supabase/functions/create-order/index.ts:45-250 | the handler's validation steps compute the plan `Prepare` defines |
| CreateOrder.EvaluateCart | supabase/functions/create-order/index.ts:99-250 | the catalogue and stock steps compute the plan `Evaluate` defines |
| CreateOrder.PriceCart | supabase/functions/create-order/index.ts:202-265 | the pricing steps compute the draft `Priced` defines |
| CreateOrder.ExistenceCheck | supabase/functions/create-order/index.ts:120 | on a table keyed by id, the length comparison passes iff every line names an existing product and no product is on two lines |
| CreateOrder.AcceptedIff | supabase/functions/create-order/index.ts:45-250 | an order is accepted iff it is a POST with every required field, both queries succeed, and every line is for an existing, active, in-stock product on one line |
| CreateOrder.AcceptedPricing | supabase/functions/create-order/index.ts:202-250 | an accepted order is priced line by line at the catalogue price, with total = subtotal + shipping and the caller as user |
| CreateOrder.PricedFromRows | supabase/functions/create-order/index.ts:202-222 | once the checks pass, every line is priced from its active catalogue row |
| CreateOrder.CallerOnlyFillsUserId | supabase/functions/create-order/index.ts:252-261 | the caller never changes whether or how an order is accepted or refused; it only fills `user_id` |
| CreateOrder.Stamp | supabase/functions/create-order/index.ts:297-300 | each line becomes one item row of the new order with the line's snapshot |
| CreateOrder.NewOrder | supabase/functions/create-order/index.ts:267-281 | the new row carries the generated id, code and time, status pending, method "transfer", the priced total and notes, the proof URL and the customer's contact fields |
| CreateOrder.Commit | supabase/functions/create-order/index.ts:267-340 | success iff the plan was accepted and both inserts succeed; then the order and its stamped items are appended; a failed order insert writes nothing; a failed items insert answers 500 "Error creating order items" and deletes the new order again, which stays when that delete fails; any failure leaves the item table as it was |
| CreateOrder.CreateOrderHandler | supabase/functions/create-order/index.ts:26-357 | the handler leaves the catalogue, inventory, rules and proofs alone and writes what `Commit(Prepare(…))` says |
| CreateOrder.WriteOrder | supabase/functions/create-order/index.ts:267-340 | the writes change only orders and items, as `Commit` says |
| CreateOrder.AllOrNothing | supabase/functions/create-order/index.ts:267-340 | success iff the plan is accepted and both inserts succeed; a failure leaves the items (and, after the compensating delete, the orders) unchanged; success appends one pending order and its items |
| CancelOrder.CancelAllowedIff | supabase/functions/cancel-order/index.ts:31-127 | cancellation proceeds iff it is a POST naming the single pending order, and the caller is anonymous, the order is a guest order or the caller owns it |
| CancelOrder.ForbiddenOnlyForOtherUser | supabase/functions/cancel-order/index.ts:116-127 | 403 is answered iff an identified caller cancels another user's pending order |
| CancelOrder.CancelScreen | supabase/functions/cancel-order/index.ts:14-127 | OPTIONS is the preflight, other non-POST methods get 405, a missing id 400, a failed query or several rows 500 "Error fetching order", no row 404, an order not pending 400; a pass names a pending order of the table with that id |
| CancelOrder.RestoreStep | supabase/functions/cancel-order/index.ts:148-171 | one step never adds or removes inventory rows, touches only the item's product, and adds the quantity unless its read or update fails |
| CancelOrder.Restored | supabase/functions/cancel-order/index.ts:148-171 | the whole loop never adds or removes inventory rows |
| CancelOrder.RestoredElsewhere | supabase/functions/cancel-order/index.ts:148-171 | products that are not in the order keep their stock |
| CancelOrder.RestoredExactly | supabase/functions/cancel-order/index.ts:148-171 | without read or update failures, every product with a row gets back the total quantity the items held |
| CancelOrder.RestoreStock | supabase/functions/cancel-order/index.ts:148-171 | the loop sets the inventory to `Restored(old inventory, items)` and changes nothing else |
| CancelOrder.LastTwo | supabase/functions/cancel-order/index.ts:214 | `slice(-2)`: the last two pieces, or all of them when there are fewer |
| CancelOrder.ProofPath | supabase/functions/cancel-order/index.ts:214 | a URL without "/" is its own object path |
| CancelOrder.Cancellation | supabase/functions/cancel-order/index.ts:129-239 | success iff the guards pass and the items query and both deletes succeed; a refusal by the guards changes nothing; a failed items query answers 500 "Error fetching order items" and changes nothing; a failed item delete answers 500 "Error deleting order items"; a failed order delete answers 500 "Error deleting order" with the items already deleted; no failure touches the orders or the stored proofs |
| CancelOrder.Removal | supabase/functions/cancel-order/index.ts:173-239 | success iff both deletes succeed; the inventory is never touched here; a failed item delete answers 500 "Error deleting order items" and changes nothing; a failed order delete answers 500 "Error deleting order" with the order's items deleted and nothing else changed |
| CancelOrder.CancelOrderHandler | supabase/functions/cancel-order/index.ts:13-257 | the handler leaves the catalogue and rules alone and writes what `Cancellation(CancelScreen(…))` says |
| CancelOrder.CarryOut | supabase/functions/cancel-order/index.ts:129-239 | the mutations after the guards, in order, as `Cancellation` says |
| CancelOrder.Remove | supabase/functions/cancel-order/index.ts:173-239 | the two deletes and the proof removal, in order, leaving the tables `Removal` gives |
| CancelOrder.NoMutationBeforeRestore | supabase/functions/cancel-order/index.ts:103-146 | a refused request, or one whose items cannot be read, changes nothing and is not a success |
| CancelOrder.CancelSuccess | supabase/functions/cancel-order/index.ts:173-239 | success iff the guards, the item query and both deletes succeed; then the order and its items are gone, all other rows kept, stock restored |
| CancelOrder.RestoreNotRolledBack | supabase/functions/cancel-order/index.ts:173-190 | a failed item delete answers 500 with the stock already restored and the order still there |
| CancelOrder.ProofRemovalFailureIgnored | supabase/functions/cancel-order/index.ts:211-226 | a failed blob removal changes neither the reply nor the tables; only the blob stays |
| CancelOrder.CancelRemovesProofObject | supabase/functions/cancel-order/index.ts:211-226 | after a successful cancel of an order with a proof URL, the bucket loses exactly the object at the URL's last two segments, unless that removal fails |
| CancelOrder.CancelRestoresQuantities | supabase/functions/cancel-order/index.ts:148-239 | a clean cancellation adds back to each product exactly the quantity the order held |
| UploadProof.FileExtension | supabase/functions/upload-payment-proof/index.ts:108 | the extension is non-empty, has no "." and no upper-case letter |
| UploadProof.ExtensionAfterLastDot | supabase/functions/upload-payment-proof/index.ts:108 | the extension of `base.ext` is `ext` in lower case, whatever the base |
| UploadProof.ExtensionOfUndotted | supabase/functions/upload-payment-proof/index.ts:108 | a name with no "." is its own extension, in lower case |
| UploadProof.ExtensionOfTrailingDot | supabase/functions/upload-payment-proof/index.ts:108 | a name ending in "." gets the default "jpg" |
| UploadProof.ProofObjectPathInjective | supabase/functions/upload-payment-proof/index.ts:109 | two tracking codes never share an object path for the same extension |
| UploadProof.ProofObjectPath | supabase/functions/upload-payment-proof/index.ts:109 | the path is the folder, "/", the tracking code, "." and the extension, piece by piece |
| UploadProof.UploadScreen | supabase/functions/upload-payment-proof/index.ts:16-106 | OPTIONS is the preflight and other non-POST methods get 405; with all three fields, a failed query or several rows get 500 "Error fetching order" and no row 404 "Order not found"; a pass means a POST with all three fields and exactly one order with that id, and it yields that order |
| UploadProof.MissingFieldRefused | supabase/functions/upload-payment-proof/index.ts:54-72 | a request missing the order id, the file data or the file name gets 400 "Missing order_id, file_data, or file_name" |
| UploadProof.Uploading | supabase/functions/upload-payment-proof/index.ts:108-186 | a refused request changes nothing; success iff the guards pass and decode, upload and update succeed; a failure keeps the orders; a stored upload adds exactly its object path |
| UploadProof.SetProofUrl | supabase/functions/upload-payment-proof/index.ts:153-156 | every order with that id gets the URL; every other row is unchanged |
| UploadProof.UploadProofHandler | supabase/functions/upload-payment-proof/index.ts:15-204 | the handler changes only orders and proofs, as `Uploading(UploadScreen(…))` says |
| UploadProof.NothingWrittenForUnknownOrder | supabase/functions/upload-payment-proof/index.ts:74-106 | an unknown order gets 404 with no write to storage or orders |
| UploadProof.FailedUploadKeepsOrder | supabase/functions/upload-payment-proof/index.ts:116-171 | a failure never changes the order; one before the upload leaves the bucket as well |
| UploadProof.SuccessSetsOnlyProofUrl | supabase/functions/upload-payment-proof/index.ts:120-186 | success stores the file at the order's path and sets that order's `payment_proof_url` to its public URL, changing nothing else |
| UploadProof.ReuploadOverwrites | supabase/functions/upload-payment-proof/index.ts:120-125 | a second upload with the same extension overwrites the same object and gives the same URL |
| TrackOrder.OrdersWithCode | supabase/functions/track-order/index.ts:59-63 | exactly the orders with that tracking code |
| TrackOrder.Project | supabase/functions/track-order/index.ts:118-122 | one shown item per row, with its name, quantity and price |
| TrackOrder.LookupKey | supabase/functions/track-order/index.ts:46-62 | the key is no longer than the code, empty iff the code is blank, and already upper case |
| TrackOrder.FindByKey | supabase/functions/track-order/index.ts:59-130 | success iff no query fails and exactly one order has the key; no such order gives 404; a success shows that order's status, total, time and items |
| TrackOrder.Track | supabase/functions/track-order/index.ts:14-130 | OPTIONS is the preflight, other non-POST methods get 405, a missing, non-text or blank code 400; a success shows the code's lookup key |
| TrackOrder.OnlyPostTracks | supabase/functions/track-order/index.ts:14-44 | any method but POST and OPTIONS gets 405 |
| TrackOrder.BlankCodeRefused | supabase/functions/track-order/index.ts:46-57 | a missing, non-text or blank code gets 400 "tracking_code is required" |
| TrackOrder.LookupKeyLoose | supabase/functions/track-order/index.ts:62 | surrounding white space and letter case do not change the lookup key |
| TrackOrder.CodeReadLoosely | supabase/functions/track-order/index.ts:46-130 | a code typed in another case or with white space around it gets the same reply |
| TrackOrder.FindsTheOrder | supabase/functions/track-order/index.ts:59-130 | the one order with the key is returned with its code, status, date, total and its items in order |
| TrackOrder.UnknownCodeNotFound | supabase/functions/track-order/index.ts:59-90 | a code no order has gets 404 "Order not found" |
| Lifecycle.ProofPathRoundTrip | supabase/functions/cancel-order/index.ts:214 | when the tracking code and the extension hold no "/", the path cancel-order cuts from the public URL is the path upload-payment-proof stored under |
| Lifecycle.SlashedNameStrandsProof | supabase/functions/cancel-order/index.ts:214 | for the file name "a.png/x" the extension is "png/x" and the path cut from the URL differs from the stored path, so the stored proof is not the object removed |
| Lifecycle.CancelRemovesUploadedProof | supabase/functions/cancel-order/index.ts:211-226 | when the tracking code and the file's extension hold no "/", cancelling an order removes the very object its upload stored |
| Lifecycle.CommitAppends | supabase/functions/create-order/index.ts:267-304 | a clean create appends the order row and its item snapshots |
| Lifecycle.NewOrderItems | supabase/functions/cancel-order/index.ts:129-133 | the items read back for a new order are exactly its snapshots |
| Lifecycle.CreateThenCancelAddsStock | supabase/functions/cancel-order/index.ts:148-171 | a create then a cancel leaves each product's stock raised by the quantity the order held |
| Lifecycle.CreateThenCancelInflates | supabase/functions/create-order/index.ts:173-200 | for a one-line order of n > 0 units, create then cancel leaves n more units than before |
| Lifecycle.NewOrderFoundByCode | supabase/functions/track-order/index.ts:59-63 | a fresh tracking code finds the new order alone |
| Lifecycle.TrackAfterCreate | supabase/functions/track-order/index.ts:59-130 | right after a create, tracking by the code finds the pending order with its total and one item per line |
| Lifecycle.ShownSnapshots | supabase/functions/track-order/index.ts:118-122 | each stamped row is shown as its line's name, quantity and price |
| Cart.CartTotalAppend | src/components/Cart.tsx:19 | the total of two carts end to end is the sum of their totals |
| Cart.CartTotal | src/components/Cart.tsx:19 | an empty cart totals zero; with no negative price or quantity the total is not negative |
| Cart.Decremented | src/components/Cart.tsx:63 | minus gives one less, never below 1 |
| Cart.Incremented | src/components/Cart.tsx:70 | plus always gives more, with no upper bound |
| Cart.StepperRoundTrip | src/components/Cart.tsx:63-70 | minus undoes plus on any quantity of at least 1 |
| Cart.Drawer | src/components/Cart.tsx:21-106 | hidden iff closed; the footer with the cart total shows iff the cart has lines, the empty notice iff it has none |
| Storefront.Bumped | src/App.tsx:114-118 | every line of the product gets the extra units; other lines are kept |
| Storefront.WithAdded | src/App.tsx:111-123 | the product has a line afterwards; without one before, the cart gains one line at the end holding the product and the quantity; other products' lines stay where they were |
| Storefront.WithQuantity | src/App.tsx:125-131 | every line of the product gets the new quantity; other lines are kept |
| Storefront.Without | src/App.tsx:133-135 | exactly the lines of other products |
| Storefront.AddedQuantities | src/App.tsx:111-123 | adding keeps one line per product, adds the units to that product only, and raises the item count by as many |
| Storefront.RemoveUndoesAdd | src/App.tsx:111-135 | removing a product after adding to it is removing it from the cart as it was |
| Storefront.RemovedQuantities | src/App.tsx:133-135 | removing drops all the product's units and no others, keeping one line per product |
| Storefront.UpdatedQuantities | src/App.tsx:125-131 | setting a quantity changes that product's count only, keeping one line per product |
| Storefront.Listed | src/App.tsx:85-87 | a product is listed iff it is in the selected category (none or empty selects all) and the search is empty or, ignoring case, in its name or description |
| Storefront.NoFilterListsAll | src/App.tsx:85-87 | with no category and no search every product is listed, in order |
| Storefront.SearchIgnoresCase | src/App.tsx:87 | searches differing only in letter case list the same products |
| Storefront.TotalPages | src/App.tsx:89 | the smallest page count whose pages of ten hold every listed product |
| Storefront.Slice | src/App.tsx:92 | never longer than the input or than end - start; within bounds it is the slice; from a non-negative start it reads the input from that start |
| Storefront.PageOf | src/App.tsx:89-92 | at most ten products, each the listed product at its page offset; a full page holds ten |
| Storefront.EveryProductOnItsPage | src/App.tsx:89-92 | the i-th listed product is on page i/10 + 1, at place i mod 10, and that page is within the count |
| Storefront.PageSizes | src/App.tsx:89-92 | a page within the count shows 1 to 10 products; a later page shows none |
| Storefront.PageWindow | src/App.tsx:247-257 | min(total, 7) consecutive page numbers within 1..total, including the current page when it is within the count |
| Storefront.StepsStayInRange | src/App.tsx:238-275 | the previous and next buttons lead to a page within the count, one step away or the same at the ends |
| Storefront.PreviousPage | src/App.tsx:238 | one page back, never below page 1 |
| Storefront.NextPage | src/App.tsx:275 | one page on, never past the page count |
| Storefront.StorefrontPage.constructor | src/App.tsx:21-31 | an empty cart on page 1 with no category and no search |
| Storefront.StorefrontPage.AddToCart | src/App.tsx:111-123 | the cart becomes `WithAdded`, still one line per product; the listing controls are kept |
| Storefront.StorefrontPage.UpdateQuantity | src/App.tsx:125-131 | the cart becomes `WithQuantity`; the listing controls are kept |
| Storefront.StorefrontPage.RemoveItem | src/App.tsx:133-135 | the cart becomes `Without`; the listing controls are kept |
| Storefront.StorefrontPage.CheckoutSucceeded | src/App.tsx:159-163 | the cart is emptied and the item count is 0 |
| Storefront.StorefrontPage.ChangeCategory | src/App.tsx:99-103 | the category is set and the page goes back to 1 |
| Storefront.StorefrontPage.ChangeSearch | src/App.tsx:105-109 | the search is set and the page goes back to 1 |
| Storefront.StorefrontPage.ChangePage | src/App.tsx:94-97 | the current page is set; nothing else changes |
| Storefront.TotalItems | src/App.tsx:165 | the sum of the quantities: 0 for an empty cart, at least the number of lines when each holds a unit |
| Storefront.StorefrontPage.CartCount | src/App.tsx:165 | the units in the cart: 0 for an empty cart, at least one per line when every line holds a unit |
| Storefront.StorefrontPage.Shown | src/App.tsx:85-92 | at most ten products, each a loaded product in the selected category that matches the search |
| ProductDetail.StockCount | src/components/ProductDetailModal.tsx:18 | the row's quantity, or 0 without a row; positive iff in stock |
| ProductDetail.MaxQuantity | src/components/ProductDetailModal.tsx:19 | the stock capped at 99, and at least 1 when in stock |
| ProductDetail.Raised | src/components/ProductDetailModal.tsx:94 | one more, but never past the maximum |
| ProductDetail.StepperBounds | src/components/ProductDetailModal.tsx:87-94 | from an allowed quantity, both buttons stay within 1..max, and minus undoes plus below the bound |
| ProductDetail.Added | src/components/ProductDetailModal.tsx:21-26 | a line is handed to the store iff the product is in stock, with the chosen quantity |
| ProductDetail.CartCanExceedStock | src/components/ProductDetailModal.tsx:17-26 | with the whole stock already in the cart, one more unit can still be added |
| ProductDetail.ProductModal.constructor | src/components/ProductDetailModal.tsx:13 | no product shown and quantity 1 |
| ProductDetail.ProductModal.Show | src/components/ProductDetailModal.tsx:12-15 | the product is shown and the quantity is kept |
| ProductDetail.ProductModal.Close | src/components/ProductDetailModal.tsx:15 | nothing is shown and the quantity is kept |
| ProductDetail.ProductModal.Decrease | src/components/ProductDetailModal.tsx:87 | the quantity is `Decremented` and stays within the maximum |
| ProductDetail.ProductModal.Increase | src/components/ProductDetailModal.tsx:94 | the quantity is `Raised` and never exceeds the maximum |
| ProductDetail.ProductModal.AddToCart | src/components/ProductDetailModal.tsx:21-26 | hands over `Added` and closes only when in stock |
| ProductDetail.QuantityCarriesOver | src/components/ProductDetailModal.tsx:13 | 5 units chosen for a product with stock 10 are added as 5 for a product with stock 2, above its maximum |
| Carousel.NextIndex | src/components/BankAccountsCarousel.tsx:81-83 | within range, the next index is (i + 1) mod n |
| Carousel.PreviousIndex | src/components/BankAccountsCarousel.tsx:77-79 | within range, the previous index is (i + n − 1) mod n |
| Carousel.ArrowsUndo | src/components/BankAccountsCarousel.tsx:77-83 | the two arrows undo each other |
| Carousel.AdvancedGoesRound | src/components/BankAccountsCarousel.tsx:81-83 | k presses of next move k places round the ring; n presses come back to the start |
| Carousel.NumberLabel | src/components/BankAccountsCarousel.tsx:167 | the phone label iff the lower-cased bank name contains "pago", else the account label |
| Carousel.PagoAnywhere | src/components/BankAccountsCarousel.tsx:167 | a bank name with "pago" anywhere, in any case, gets the phone label |
| Carousel.AccountsCarousel.constructor | src/components/BankAccountsCarousel.tsx:17-20 | no accounts, index 0, loading, no error |
| Carousel.AccountsCarousel.Load | src/components/BankAccountsCarousel.tsx:27-43 | the active accounts on success, the failure message on error, and loading ends either way |
| Carousel.AccountsCarousel.GoToPrevious | src/components/BankAccountsCarousel.tsx:77-79 | the index becomes `PreviousIndex`; nothing else changes |
| Carousel.AccountsCarousel.GoToNext | src/components/BankAccountsCarousel.tsx:81-83 | the index becomes `NextIndex`; nothing else changes |
| Carousel.AccountsCarousel.SelectDot | src/components/BankAccountsCarousel.tsx:207 | the index becomes the dot's; nothing else changes |
| Carousel.AccountsCarousel.Render | src/components/BankAccountsCarousel.tsx:45-69 | a shown account is one of the list, with its number label; a notice is shown only with a non-empty list |
| Carousel.FailureNeverShown | src/components/BankAccountsCarousel.tsx:36-55 | after a failed load the component renders nothing |
| ImageUrl.IsStorageUrl | src/lib/imageOptimization.ts:7-9 | true iff the storage marker occurs in the URL |
| ImageUrl.OptimizedUrl | src/lib/imageOptimization.ts:11-27 | "" for "", the URL itself when it is not a storage URL, else the URL with the resize query |
| ImageUrl.QueryInjective | src/lib/imageOptimization.ts:15-21 | the query gives back the width, the height and the (non-zero) quality |
| ImageUrl.OptimizedUrlKeepsSize | src/lib/imageOptimization.ts:11-27 | for a storage URL, equal optimized URLs mean equal sizes, and the URL is the part before "?" |
| ImageUrl.Entries | src/lib/imageOptimization.ts:33-34 | one entry per size, in order |
| ImageUrl.SrcSet | src/lib/imageOptimization.ts:29-39 | "" for "", the URL itself when it is not a storage URL |
| ImageUrl.SrcSetEntries | src/lib/imageOptimization.ts:32-35 | for a storage URL one size gives its entry, and each further size adds ", " and its entry |
| Venezuela.CitiesByState | src/data/venezuelaData.ts:68-70 | exactly the cities of that state code |
| Venezuela.NameOfCode | src/pages/Checkout.tsx:169 | a name is found iff a state has that code, and it is that state's name |
| Venezuela.CodeOfName | src/pages/Checkout.tsx:112 | a code is found iff a state has that name, and it is that state's code |
| Venezuela.StatesUnique | src/data/venezuelaData.ts:11-36 | no two states share a code or a name |
| Venezuela.CodeNameRoundTrip | src/data/venezuelaData.ts:11-36 | in a table with unique codes and names, code → name → code round-trips |
| Venezuela.StateLookupRoundTrip | src/data/venezuelaData.ts:11-36 | every state of the table round-trips between its code and its name |
| Venezuela.StateNamed | src/data/venezuelaData.ts:11-36 | every state has a non-empty name |
| Venezuela.CitiesHaveStates | src/data/venezuelaData.ts:38-66 | every city's state code is a listed state |
| Venezuela.NoCitiesListed | src/data/venezuelaData.ts:38-66 | Amazonas and Distrito Capital have no cities |
| Venezuela.FalconCities | src/data/venezuelaData.ts:39-42 | Falcón's cities are the first four rows, in order |
| Checkout.Resumed | src/pages/Checkout.tsx:55-84 | the three ids come back together or not at all; each flag only when stored as "true" |
| Checkout.CleanedUp | src/pages/Checkout.tsx:459-465 | the session without the five checkout keys, the rest kept |
| Checkout.NothingResumedAfterCleanup | src/pages/Checkout.tsx:55-465 | after the clean-up a reload resumes nothing |
| Checkout.ReloadAfterSubmit | src/pages/Checkout.tsx:300-303 | a reload after a submit resumes the order, with the token "undefined" |
| Checkout.Submitted | src/pages/Checkout.tsx:300-303 | the session gains the order id, "undefined" as token, the tracking code and the created flag; every other key keeps its value |
| Checkout.ShippingCharge | src/pages/Checkout.tsx:50 | 0 with no estimate or a free one, else the estimate's cost |
| Checkout.Summary | src/pages/Checkout.tsx:48-51 | total = subtotal × 1.19 + shipping, so it exceeds the server's subtotal + shipping by 19% of the subtotal |
| Checkout.ClientShipping | src/pages/Checkout.tsx:92-208 | no estimate iff the state code is unknown or no city is chosen |
| Checkout.EstimateMatchesServer | src/pages/Checkout.tsx:167-208 | the page charges what `create-order` would charge for that destination, with matching pending and free messages |
| Checkout.CartLines | src/pages/Checkout.tsx:247-250 | one cart line per item, with its product id and quantity |
| Checkout.Payload | src/pages/Checkout.tsx:235-251 | a non-empty name, country Venezuela, no proof URL, the form's contact fields, the state's name when the code is known (else empty), one cart line per item |
| Checkout.CheckoutNeverCreates | src/pages/Checkout.tsx:235-251 | `create-order` refuses every body the page sends with 400 — missing fields, else the missing proof URL — and writes nothing |
| Checkout.ErrorText | src/pages/Checkout.tsx:281-290 | the reply's error when it has one, else the fallback |
| Checkout.UploadGuard | src/pages/Checkout.tsx:336-362 | the upload passes iff id, token, tracking code and file are all present; the first missing one names the error |
| Checkout.UploadBody | src/pages/Checkout.tsx:381-386 | the order id, the file's name and its data |
| Checkout.UploadAfterSubmit | src/pages/Checkout.tsx:296-348 | right after a submit the upload is refused for the missing token; after a reload it passes |
| Checkout.GuardedUploadHasFields | src/pages/Checkout.tsx:381-386 | an upload the page lets through passes the function's field check and is refused only for an unknown order |
| Checkout.ScreenOf | src/pages/Checkout.tsx:521-645 | which screen shows, by the precedence of the early returns, each as an iff |
| Checkout.CheckoutPage.constructor | src/pages/Checkout.tsx:55-84 | mounting resumes what the session holds, with an empty form |
| Checkout.CheckoutPage.ChooseState | src/pages/Checkout.tsx:210-213 | a new state clears the city and the estimate |
| Checkout.CheckoutPage.ChooseCity | src/pages/Checkout.tsx:92-98 | the city is set and the estimate is recomputed |
| Checkout.CheckoutPage.ChooseFile | src/pages/Checkout.tsx:215-225 | the chosen file is kept; nothing else changes |
| Checkout.CheckoutPage.Submit | src/pages/Checkout.tsx:227-320 | on success the order is held with an empty token, stored in the session, and the cart is cleared; on failure only the error is set |
| Checkout.CheckoutPage.Upload | src/pages/Checkout.tsx:322-436 | a guard or read failure or a refused upload sets only the error; success marks the proof uploaded in state and session |
| Checkout.CheckoutPage.CancelAndLeave | src/pages/Checkout.tsx:467-514 | only a cancelled order clears the session and leaves the page; otherwise the error is shown |
| Checkout.CheckoutPage.BackToStore | src/pages/Checkout.tsx:516-519 | the session is cleaned up and the page is left |

## Left out

- Transport: HTTP, JSON parsing, the CORS headers and the environment-variable check are not modelled. The catch-all 500 for an exception is modelled only where an exception can arise in the model: a failed base64 decode in `upload-payment-proof` answers 500 "Internal server error". The reply's `details` field with the exception message is not modelled.
- Network, clocks and generated values: database-generated ids, tracking codes and `created_at` are inputs. Whether a backend call fails is a boolean input.
- `atob` decoding and the browser `FileReader`: the file is stored as the base64 text it arrives as. A decode failure is a fault input, and the reader's result is an input of `Upload`.
- Concurrency: two requests are never interleaved. So the race between two creates checking the same stock, and between two cancels, is not modelled.
- Floating point: money is integer cents. `toFixed(2)` is formatting of cents. The client's 19% IVA is a `real`, not a binary float.
- Profile load and save on the checkout page (`loadUserProfile`, `saveUserProfile`), the guest flag and the loading and uploading flags are not modelled. Neither are the copy-to-clipboard button, its timer, the proof preview image and the navigation itself: leaving is a flag.
- The storefront's data fetch (`fetchData`), the featured products, the modal and checkout-type modals, and the other components are not part of this model.
- Text is ASCII-cased: `toLowerCase`/`toUpperCase` map only A–Z, and `trim` strips a fixed set of white-space characters.
- Checkout.CheckoutPage.Submit: requires that the reply is not the CORS preflight, which a POST never receives. The same holds for Upload and CancelAndLeave.
- Storefront.StorefrontPage.ChangePage: requires a page of at least 1. Every pager button passes one, as `PageWindow` and `StepsStayInRange` show, though `handlePageChange` itself takes any number.
- Carousel.AccountsCarousel.Load: requires the index to be 0, as it is when the component mounts; the load runs only then.
- TrackOrder.FindByKey: shows the item rows in table order. `track-order` asks the database to sort them by `created_at` (supabase/functions/track-order/index.ts:96), which item rows do not carry in this model. The items insert does not set `created_at` (supabase/functions/create-order/index.ts:302-304), so the rows of one order get the column default and may tie, and then their order is unspecified.
- Lifecycle.TrackAfterCreate: states the items in the order the lines were built, for the same reason. When the creation times of the rows tie, the source promises only the same rows in some order.

=== FILE: cancel_order.dfy ===
/** The `cancel-order` edge function: a guard sequence on a pending order, then the
    stock of its items is put back row by row, its items and the order row are
    deleted, and its payment proof is removed from the bucket. */
module CancelOrder {
  import opened Text
  import opened Records

  /** The request body; an empty `orderId` is a missing one. */
  datatype CancelRequest = CancelRequest(orderId: OrderId)

  /** Failures of the inventory round trips, by the position of the item in the loop. */
  datatype RestoreFaults = RestoreFaults(readFails: set<nat>, updateFails: set<nat>)

  /** Which backend calls fail (`true`: the call returns an error). */
  datatype CancelFaults = CancelFaults(
    orderQuery: bool,
    itemsQuery: bool,
    restore: RestoreFaults,
    deleteItems: bool,
    deleteOrder: bool,
    removeProof: bool)

  const CancelledMessage: string := "Order cancelled successfully and stock restored"

  // ---------------------------------------------------------------- guards

  /** The guards, in order; `Ok(order)` is the pending order the caller may cancel. */
  function CancelScreen(m: HttpMethod, req: CancelRequest, orders: seq<Order>, caller: Option<UserId>,
                        orderQueryFails: bool): (r: Reply<Order>)
    ensures r.Preflight? <==> m == Options
    ensures m != Options && m != Post ==> r == Fail(405, "Method not allowed", NoDetails)
    ensures m == Post && req.orderId == "" ==> r == Fail(400, "Missing order_id", NoDetails)
    ensures m == Post && req.orderId != "" && (orderQueryFails || |OrdersWithId(orders, req.orderId)| > 1) ==>
      r == Fail(500, "Error fetching order", NoDetails)
    ensures m == Post && req.orderId != "" && !orderQueryFails && OrdersWithId(orders, req.orderId) == [] ==>
      r == Fail(404, "Order not found", NoDetails)
    ensures m == Post && req.orderId != "" && !orderQueryFails && |OrdersWithId(orders, req.orderId)| == 1
            && OrdersWithId(orders, req.orderId)[0].status != Pending ==>
      r == Fail(400, "Order cannot be cancelled - it is not in pending status", NoDetails)
    ensures r.Ok? ==> r.value in orders && r.value.id == req.orderId && r.value.status == Pending
  {
    match MethodGate<Order>(m)
    case Some(early) => early
    case None =>
      if req.orderId == "" then Fail(400, "Missing order_id", NoDetails)
      else if orderQueryFails then Fail(500, "Error fetching order", NoDetails)
      else
        var rows := OrdersWithId(orders, req.orderId);
        match MaybeSingle(rows)
        case LookupError => Fail(500, "Error fetching order", NoDetails)
        case NotFound => Fail(404, "Order not found", NoDetails)
        case Found(o) =>
          assert o in rows by { assert o == rows[0]; }
          if o.status != Pending then
            Fail(400, "Order cannot be cancelled - it is not in pending status", NoDetails)
          else if caller.Some? && o.userId.Some? && caller.value != o.userId.value then
            Fail(403, "Unauthorized - order does not belong to this user", NoDetails)
          else Ok(o)
  }

  /** The guards let a request through exactly when it is a POST naming the one pending
      order with that id, and the caller is anonymous, the order is a guest order, or
      the order belongs to the caller. */
  lemma CancelAllowedIff(m: HttpMethod, req: CancelRequest, orders: seq<Order>, caller: Option<UserId>,
                         orderQueryFails: bool)
    ensures CancelScreen(m, req, orders, caller, orderQueryFails).Ok? <==>
      m == Post && req.orderId != "" && !orderQueryFails
      && |OrdersWithId(orders, req.orderId)| == 1
      && var o := OrdersWithId(orders, req.orderId)[0];
         o.status == Pending && (caller.None? || o.userId.None? || caller == o.userId)
  {
    var rows := OrdersWithId(orders, req.orderId);
    if |rows| == 1 {
      assert rows[0] in rows;
    }
  }

  /** 403 is answered only to an identified caller cancelling another user's pending order. */
  lemma ForbiddenOnlyForOtherUser(m: HttpMethod, req: CancelRequest, orders: seq<Order>, caller: Option<UserId>,
                                  orderQueryFails: bool)
    ensures var r := CancelScreen(m, req, orders, caller, orderQueryFails);
      r.Fail? && r.status == 403 <==>
        m == Post && req.orderId != "" && !orderQueryFails
        && |OrdersWithId(orders, req.orderId)| == 1
        && var o := OrdersWithId(orders, req.orderId)[0];
           o.status == Pending && caller.Some? && o.userId.Some? && caller != o.userId
  {
  }

  // ---------------------------------------------------------------- stock restoration

  /** One turn of the restoration loop for the item at position `i`: a failed read skips
      the item, a failed update is only logged, and an update matches no row when the
      product has no inventory row. */
  function RestoreStep(inv: map<ProductId, int>, item: OrderItem, i: nat, f: RestoreFaults): (r: map<ProductId, int>)
    ensures r.Keys == inv.Keys
    ensures forall p :: p in inv && p != item.productId ==> r[p] == inv[p]
    ensures item.productId in inv ==>
      r[item.productId] == inv[item.productId] + (if i in f.readFails || i in f.updateFails then 0 else item.quantity)
  {
    if i in f.readFails || i in f.updateFails || item.productId !in inv then inv
    else inv[item.productId := inv[item.productId] + item.quantity]
  }

  /** The inventory after the loop has run over `items`: it never adds or removes
      inventory rows. */
  function Restored(inv: map<ProductId, int>, items: seq<OrderItem>, f: RestoreFaults): (r: map<ProductId, int>)
    ensures r.Keys == inv.Keys
  {
    if |items| == 0 then inv
    else RestoreStep(Restored(inv, items[..|items| - 1], f), items[|items| - 1], |items| - 1, f)
  }

  /** Total quantity of product `p` among `items`. */
  function SumQty(items: seq<OrderItem>, p: ProductId): int
  {
    if |items| == 0 then 0
    else SumQty(items[..|items| - 1], p) + (if items[|items| - 1].productId == p then items[|items| - 1].quantity else 0)
  }

  /** Products that are not in the order keep their stock. */
  lemma {:induction false} RestoredElsewhere(inv: map<ProductId, int>, items: seq<OrderItem>, f: RestoreFaults,
                                             p: ProductId)
    requires p in inv
    requires forall i :: 0 <= i < |items| ==> items[i].productId != p
    ensures p in Restored(inv, items, f) && Restored(inv, items, f)[p] == inv[p]
    decreases |items|
  {
    if |items| > 0 {
      RestoredElsewhere(inv, items[..|items| - 1], f, p);
    }
  }

  /** Without read or update failures, every product with an inventory row gets back
      exactly the quantity the order holds of it. */
  lemma {:induction false} RestoredExactly(inv: map<ProductId, int>, items: seq<OrderItem>, f: RestoreFaults,
                                           p: ProductId)
    requires f.readFails == {} && f.updateFails == {}
    requires p in inv
    ensures p in Restored(inv, items, f) && Restored(inv, items, f)[p] == inv[p] + SumQty(items, p)
    decreases |items|
  {
    if |items| > 0 {
      RestoredExactly(inv, items[..|items| - 1], f, p);
    }
  }

  /** The restoration loop on the backend's inventory. */
  method RestoreStock(db: Backend, items: seq<OrderItem>, f: RestoreFaults)
    modifies db
    ensures db.inventory == Restored(old(db.inventory), items, f)
    ensures db.products == old(db.products) && db.shippingRules == old(db.shippingRules)
    ensures db.orders == old(db.orders) && db.orderItems == old(db.orderItems) && db.proofs == old(db.proofs)
  {
    var i := 0;
    while i < |items|
      invariant 0 <= i <= |items|
      invariant db.inventory == Restored(old(db.inventory), items[..i], f)
      invariant db.products == old(db.products) && db.shippingRules == old(db.shippingRules)
      invariant db.orders == old(db.orders) && db.orderItems == old(db.orderItems) && db.proofs == old(db.proofs)
    {
      var item := items[i];
      if i !in f.readFails {
        var current := if item.productId in db.inventory then db.inventory[item.productId] else 0;
        var newQuantity := current + item.quantity;
        if i !in f.updateFails && item.productId in db.inventory {
          db.inventory := db.inventory[item.productId := newQuantity];
        }
      }
      assert items[..i + 1][..i] == items[..i];
      i := i + 1;
    }
    assert items[..i] == items;
  }

  // ---------------------------------------------------------------- proof path

  /** `slice(-2)`: the last two elements, or all of them when there are fewer. */
  function LastTwo(parts: seq<string>): (r: seq<string>)
    ensures |parts| < 2 ==> r == parts
    ensures |parts| >= 2 ==> r == [parts[|parts| - 2], parts[|parts| - 1]]
  {
    if |parts| <= 2 then parts else parts[|parts| - 2..]
  }

  /** The bucket path of a proof, taken from its public URL: the last two
      "/"-separated segments, joined by "/". */
  function ProofPath(url: string): (path: string)
    ensures Free(url, '/') ==> path == url
  {
    var parts := Split(url, '/');
    assert Free(url, '/') ==> parts == [url] by {
      if Free(url, '/') {
        SplitFree(url, '/');
      }
    }
    Join(LastTwo(parts), "/")
  }

  // ---------------------------------------------------------------- the handler

  /** The tables the handler can change. */
  datatype Tables = Tables(
    inventory: map<ProductId, int>,
    orders: seq<Order>,
    orderItems: seq<OrderItem>,
    proofs: map<string, StoredFile>)

  datatype CancelOutcome = CancelOutcome(reply: Reply<string>, tables: Tables)

  /** What follows the guards: restore the stock of the order's items, then the
      deletions of `Removal`. */
  function Cancellation(screen: Reply<Order>, id: OrderId, f: CancelFaults, t: Tables): (out: CancelOutcome)
    ensures out.reply.Ok? <==> screen.Ok? && !f.itemsQuery && !f.deleteItems && !f.deleteOrder
    ensures !screen.Ok? ==> out.tables == t && out.reply.Preflight? == screen.Preflight?
    ensures !out.reply.Ok? ==> out.tables.orders == t.orders && out.tables.proofs == t.proofs
    ensures screen.Ok? && f.itemsQuery ==> out == CancelOutcome(Fail(500, "Error fetching order items", NoDetails), t)
    ensures screen.Ok? && !f.itemsQuery && f.deleteItems ==>
      out.reply == Fail(500, "Error deleting order items", NoDetails)
    ensures screen.Ok? && !f.itemsQuery && !f.deleteItems && f.deleteOrder ==>
      out.reply == Fail(500, "Error deleting order", NoDetails)
      && out.tables.orderItems == DeleteItemsOf(t.orderItems, id)
  {
    match screen
    case Preflight => CancelOutcome(Preflight, t)
    case Fail(status, error, details) => CancelOutcome(Fail(status, error, details), t)
    case Ok(o) =>
      if f.itemsQuery then CancelOutcome(Fail(500, "Error fetching order items", NoDetails), t)
      else Removal(o, id, f, t.(inventory := Restored(t.inventory, ItemsOfOrder(t.orderItems, id), f.restore)))
  }

  /** Once the stock is back: delete the items, delete the order, then remove the proof
      (whose failure is only logged). */
  function Removal(o: Order, id: OrderId, f: CancelFaults, t: Tables): (out: CancelOutcome)
    ensures out.reply.Ok? <==> !f.deleteItems && !f.deleteOrder
    ensures out.tables.inventory == t.inventory
    ensures f.deleteItems ==> out == CancelOutcome(Fail(500, "Error deleting order items", NoDetails), t)
    ensures !f.deleteItems && f.deleteOrder ==>
      out == CancelOutcome(Fail(500, "Error deleting order", NoDetails), t.(orderItems := DeleteItemsOf(t.orderItems, id)))
    ensures !out.reply.Ok? ==> out.tables.orders == t.orders && out.tables.proofs == t.proofs
  {
    if f.deleteItems then CancelOutcome(Fail(500, "Error deleting order items", NoDetails), t)
    else
      var items := DeleteItemsOf(t.orderItems, id);
      if f.deleteOrder then CancelOutcome(Fail(500, "Error deleting order", NoDetails), t.(orderItems := items))
      else
        var proofs :=
          if o.paymentProofUrl.Some? && o.paymentProofUrl.value != "" && !f.removeProof
          then t.proofs - {ProofPath(o.paymentProofUrl.value)}
          else t.proofs;
        CancelOutcome(Ok(CancelledMessage), Tables(t.inventory, DeleteOrder(t.orders, id), items, proofs))
  }

  method CancelOrderHandler(db: Backend, m: HttpMethod, req: CancelRequest, authHeader: Option<string>,
                            sessions: map<string, UserId>, f: CancelFaults)
    returns (r: Reply<string>)
    modifies db
    ensures db.products == old(db.products) && db.shippingRules == old(db.shippingRules)
    ensures CancelOutcome(r, Tables(db.inventory, db.orders, db.orderItems, db.proofs))
      == Cancellation(CancelScreen(m, req, old(db.orders), ResolveCaller(authHeader, sessions), f.orderQuery),
                      req.orderId, f, Tables(old(db.inventory), old(db.orders), old(db.orderItems), old(db.proofs)))
  {
    var screen := CancelScreen(m, req, db.orders, ResolveCaller(authHeader, sessions), f.orderQuery);
    if !screen.Ok? {
      r := if screen.Preflight? then Preflight else Fail(screen.status, screen.error, screen.details);
      return;
    }
    r := CarryOut(db, screen.value, req.orderId, f);
  }

  /** The mutations, in the handler's order, once the guards have passed. */
  method CarryOut(db: Backend, order: Order, id: OrderId, f: CancelFaults) returns (r: Reply<string>)
    modifies db
    ensures db.products == old(db.products) && db.shippingRules == old(db.shippingRules)
    ensures CancelOutcome(r, Tables(db.inventory, db.orders, db.orderItems, db.proofs))
      == Cancellation(Ok(order), id, f, Tables(old(db.inventory), old(db.orders), old(db.orderItems), old(db.proofs)))
  {
    if f.itemsQuery {
      return Fail(500, "Error fetching order items", NoDetails);
    }
    RestoreStock(db, ItemsOfOrder(db.orderItems, id), f.restore);
    r := Remove(db, order, id, f);
  }

  /** The deletions and the proof removal, once the stock is back. */
  method Remove(db: Backend, order: Order, id: OrderId, f: CancelFaults) returns (r: Reply<string>)
    modifies db
    ensures db.products == old(db.products) && db.shippingRules == old(db.shippingRules)
    ensures CancelOutcome(r, Tables(db.inventory, db.orders, db.orderItems, db.proofs))
      == Removal(order, id, f, Tables(old(db.inventory), old(db.orders), old(db.orderItems), old(db.proofs)))
  {
    if f.deleteItems {
      return Fail(500, "Error deleting order items", NoDetails);
    }
    db.orderItems := DeleteItemsOf(db.orderItems, id);
    if f.deleteOrder {
      return Fail(500, "Error deleting order", NoDetails);
    }
    db.orders := DeleteOrder(db.orders, id);
    if order.paymentProofUrl.Some? && order.paymentProofUrl.value != "" && !f.removeProof {
      db.proofs := db.proofs - {ProofPath(order.paymentProofUrl.value)};
    }
    r := Ok(CancelledMessage);
  }

  // ---------------------------------------------------------------- properties of the outcome

  /** Nothing is changed by a request the guards turn away or whose items cannot be read. */
  lemma NoMutationBeforeRestore(screen: Reply<Order>, id: OrderId, f: CancelFaults, t: Tables)
    requires !screen.Ok? || f.itemsQuery
    ensures Cancellation(screen, id, f, t).tables == t
    ensures !Cancellation(screen, id, f, t).reply.Ok?
  {
  }

  /** Success is reported only once the order row is deleted: the reply is a success
      exactly when the guards pass and the item query and both deletes succeed, and then
      neither the order nor any of its items is left, every other row is kept, and the
      stock is restored. */
  lemma CancelSuccess(screen: Reply<Order>, id: OrderId, f: CancelFaults, t: Tables)
    ensures var out := Cancellation(screen, id, f, t);
      out.reply.Ok? <==> screen.Ok? && !f.itemsQuery && !f.deleteItems && !f.deleteOrder
    ensures var out := Cancellation(screen, id, f, t);
      out.reply.Ok? ==>
        && (forall o :: o in out.tables.orders <==> o in t.orders && o.id != id)
        && (forall x :: x in out.tables.orderItems <==> x in t.orderItems && x.orderId != id)
        && out.tables.inventory == Restored(t.inventory, ItemsOfOrder(t.orderItems, id), f.restore)
  {
  }

  /** The stock is put back before the items are deleted, so a failed item delete
      answers 500 with the stock already restored and the order still in place. */
  lemma RestoreNotRolledBack(screen: Reply<Order>, id: OrderId, f: CancelFaults, t: Tables)
    requires screen.Ok? && !f.itemsQuery && f.deleteItems
    ensures var out := Cancellation(screen, id, f, t);
      && out.reply == Fail(500, "Error deleting order items", NoDetails)
      && out.tables.inventory == Restored(t.inventory, ItemsOfOrder(t.orderItems, id), f.restore)
      && out.tables.orders == t.orders && out.tables.orderItems == t.orderItems
  {
  }

  /** The proof blob is the only thing a failed blob removal leaves behind: the reply
      and the tables are those of a removal that succeeded. */
  lemma ProofRemovalFailureIgnored(screen: Reply<Order>, id: OrderId, f: CancelFaults, t: Tables)
    ensures var a := Cancellation(screen, id, f.(removeProof := false), t);
      var b := Cancellation(screen, id, f.(removeProof := true), t);
      && a.reply == b.reply
      && a.tables.(proofs := t.proofs) == b.tables.(proofs := t.proofs)
      && b.tables.proofs == t.proofs
  {
  }

  /** After a successful cancellation the object named by the order's proof URL is
      gone from the bucket, unless its removal failed; every other object stays. */
  lemma CancelRemovesProofObject(o: Order, id: OrderId, f: CancelFaults, t: Tables, url: string)
    requires !f.itemsQuery && !f.deleteItems && !f.deleteOrder
    requires o.paymentProofUrl == Some(url) && url != ""
    ensures var proofs := Cancellation(Ok(o), id, f, t).tables.proofs;
      proofs == if f.removeProof then t.proofs else t.proofs - {ProofPath(url)}
  {
  }

  /** With no failures, a successful cancellation returns to every product with an
      inventory row exactly the quantity the order held of it. */
  lemma CancelRestoresQuantities(screen: Reply<Order>, id: OrderId, f: CancelFaults, t: Tables, p: ProductId)
    requires screen.Ok? && !f.itemsQuery && !f.deleteItems && !f.deleteOrder
    requires f.restore.readFails == {} && f.restore.updateFails == {}
    requires p in t.inventory
    ensures var inv := Cancellation(screen, id, f, t).tables.inventory;
      p in inv && inv[p] == t.inventory[p] + SumQty(ItemsOfOrder(t.orderItems, id), p)
  {
    RestoredExactly(t.inventory, ItemsOfOrder(t.orderItems, id), f.restore, p);
  }
}

=== FILE: carousel.dfy ===
/** The carousel of bank accounts shown beside the proof upload: a cyclic index over
    the active accounts, moved by the arrows and the dots, and the label of the
    account number. */
module Carousel {
  import opened Text
  import opened Records

  /** A row of `bank_accounts`; an empty string is a missing optional field. */
  datatype BankAccount = BankAccount(
    id: string,
    accountLabel: string,
    bankName: string,
    accountHolder: string,
    accountNumber: string,
    documentId: string,
    accountType: string,
    notes: string)

  // ---------------------------------------------------------------- the index

  /** `goToNext`: the last account wraps round to the first. */
  function NextIndex(i: int, n: int): (r: int)
    ensures 0 <= i < n ==> 0 <= r < n && r == (i + 1) % n
  {
    if i == n - 1 then 0 else i + 1
  }

  /** `goToPrevious`: the first account wraps round to the last. */
  function PreviousIndex(i: int, n: int): (r: int)
    ensures 0 <= i < n ==> 0 <= r < n && r == (i + n - 1) % n
  {
    if i == 0 then n - 1 else i - 1
  }

  /** The two arrows undo each other. */
  lemma ArrowsUndo(i: int, n: int)
    requires 0 <= i < n
    ensures PreviousIndex(NextIndex(i, n), n) == i
    ensures NextIndex(PreviousIndex(i, n), n) == i
  {
  }

  /** The index after `k` presses of the next arrow. */
  function Advanced(i: int, n: int, k: nat): int
  {
    if k == 0 then i else NextIndex(Advanced(i, n, k - 1), n)
  }

  /** Pressing next `k` times, for at most one full round, moves `k` places round the
      ring; after a full round the carousel is back where it started. */
  lemma {:induction false} AdvancedGoesRound(i: int, n: int, k: nat)
    requires 0 <= i < n && k <= n
    ensures Advanced(i, n, k) == if i + k < n then i + k else i + k - n
    ensures k == n ==> Advanced(i, n, k) == i
  {
    if k > 0 {
      AdvancedGoesRound(i, n, k - 1);
    }
  }

  // ---------------------------------------------------------------- the number label

  const PhoneLabel: string := "Número de Teléfono"
  const AccountLabel: string := "Número de Cuenta"
  const MobilePayment: string := "pago"

  /** The label of the account number: a phone number for mobile-payment accounts. */
  function NumberLabel(bankName: string): (r: string)
    ensures r == PhoneLabel <==> Contains(ToLower(bankName), MobilePayment)
    ensures r == PhoneLabel || r == AccountLabel
  {
    if Contains(ToLower(bankName), MobilePayment) then PhoneLabel else AccountLabel
  }

  /** A bank name with "pago" anywhere in it, in any letter case, gets the phone label. */
  lemma PagoAnywhere(before: string, word: string, after: string)
    requires ToLower(word) == MobilePayment
    ensures NumberLabel(before + word + after) == PhoneLabel
  {
    var name := before + word + after;
    var lower := ToLower(name);
    assert lower[|before|..|before| + |word|] == ToLower(word) by {
      forall i | 0 <= i < |word|
        ensures lower[|before|..|before| + |word|][i] == ToLower(word)[i]
      {
        assert name[|before| + i] == word[i];
      }
    }
    ContainsAtPosition(lower, MobilePayment, |before|);
  }

  // ---------------------------------------------------------------- the component

  /** What the component renders. */
  datatype View = Loading | Nothing | Notice(message: string) | Showing(account: BankAccount, numberLabel: string)

  const LoadFailure: string := "No se pudieron cargar las cuentas bancarias"

  class AccountsCarousel {
    var accounts: seq<BankAccount>
    var currentIndex: int
    var loading: bool
    var error: Option<string>

    predicate Valid()
      reads this
    {
      0 <= currentIndex && (|accounts| > 0 ==> currentIndex < |accounts|)
    }

    constructor ()
      ensures Valid() && accounts == [] && currentIndex == 0 && loading && error == None
    {
      accounts := [];
      currentIndex := 0;
      loading := true;
      error := None;
    }

    /** `loadBankAccounts`, with the active accounts in sort order, or `None` when the
        query fails. */
    method Load(rows: Option<seq<BankAccount>>)
      requires Valid() && currentIndex == 0
      modifies this
      ensures Valid() && !loading && currentIndex == 0
      ensures accounts == (if rows.Some? then rows.value else old(accounts))
      ensures error == (if rows.Some? then old(error) else Some(LoadFailure))
    {
      if rows.Some? {
        accounts := rows.value;
      } else {
        error := Some(LoadFailure);
      }
      loading := false;
    }

    method GoToPrevious()
      requires Valid() && |accounts| > 0
      modifies this
      ensures Valid()
      ensures currentIndex == PreviousIndex(old(currentIndex), |accounts|)
      ensures accounts == old(accounts) && loading == old(loading) && error == old(error)
    {
      currentIndex := PreviousIndex(currentIndex, |accounts|);
    }

    method GoToNext()
      requires Valid() && |accounts| > 0
      modifies this
      ensures Valid()
      ensures currentIndex == NextIndex(old(currentIndex), |accounts|)
      ensures accounts == old(accounts) && loading == old(loading) && error == old(error)
    {
      currentIndex := NextIndex(currentIndex, |accounts|);
    }

    /** A dot: there is one per account. */
    method SelectDot(index: int)
      requires Valid() && 0 <= index < |accounts|
      modifies this
      ensures Valid()
      ensures currentIndex == index
      ensures accounts == old(accounts) && loading == old(loading) && error == old(error)
    {
      currentIndex := index;
    }

    /** The render, by the precedence of its early returns: the failure notice comes
        after the check for an empty list. */
    function Render(): (v: View)
      requires Valid()
      reads this
      ensures v.Showing? ==> v.account in accounts && v.numberLabel == NumberLabel(v.account.bankName)
      ensures v.Showing? ==> v.account == accounts[currentIndex]
      ensures v.Notice? ==> |accounts| > 0
    {
      if loading then Loading
      else if |accounts| == 0 then Nothing
      else if error.Some? then Notice(error.value)
      else Showing(accounts[currentIndex], NumberLabel(accounts[currentIndex].bankName))
    }
  }

  /** A failed load leaves the list empty, so the failure message is never shown. */
  method FailureNeverShown() returns (v: View)
    ensures v == Nothing
  {
    var c := new AccountsCarousel();
    c.Load(None);
    v := c.Render();
  }
}

=== FILE: cart.dfy ===
/** The cart drawer: the line type the storefront and the checkout share, the cart
    total, the quantity steppers and what the drawer shows. */
module Cart {
  import opened Records

  /** One line of the cart: a product and how many of it. */
  datatype CartItem = CartItem(product: Product, quantity: int)

  /** Σ price × quantity over the lines: nothing for an empty cart, and never negative
      when no price or quantity is. */
  function CartTotal(items: seq<CartItem>): (total: Cents)
    ensures |items| == 0 ==> total == 0
    ensures (forall i :: 0 <= i < |items| ==> items[i].product.price >= 0 && items[i].quantity >= 0) ==> total >= 0
  {
    if |items| == 0 then 0
    else
      var init := items[..|items| - 1];
      assert forall i :: 0 <= i < |init| ==> init[i] == items[i];
      CartTotal(init) + items[|items| - 1].product.price * items[|items| - 1].quantity
  }

  /** The total of two carts laid end to end is the sum of their totals. */
  lemma {:induction false} CartTotalAppend(a: seq<CartItem>, b: seq<CartItem>)
    ensures CartTotal(a + b) == CartTotal(a) + CartTotal(b)
    decreases |b|
  {
    if |b| == 0 {
      assert a + b == a;
    } else {
      assert (a + b)[..|a + b| - 1] == a + b[..|b| - 1];
      CartTotalAppend(a, b[..|b| - 1]);
    }
  }

  /** The total of a single line. */
  lemma CartTotalOne(item: CartItem)
    ensures CartTotal([item]) == item.product.price * item.quantity
  {
  }

  /** The quantity the minus button asks for. */
  function Decremented(quantity: int): (r: int)
    ensures r >= 1
    ensures quantity > 1 ==> r == quantity - 1
    ensures quantity <= 1 ==> r == 1
  {
    if 1 >= quantity - 1 then 1 else quantity - 1
  }

  /** The quantity the plus button asks for: no upper bound. */
  function Incremented(quantity: int): (r: int)
    ensures r > quantity
  {
    quantity + 1
  }

  /** Minus undoes plus on any quantity the cart holds. */
  lemma StepperRoundTrip(quantity: int)
    requires quantity >= 1
    ensures Decremented(Incremented(quantity)) == quantity
  {
  }

  /** What the drawer shows: nothing while closed; otherwise the lines, with the
      "empty cart" notice or the footer with the total and the checkout button. */
  datatype Panel = Hidden | Shown(emptyNotice: bool, footerTotal: Option<Cents>)

  function Drawer(isOpen: bool, items: seq<CartItem>): (r: Panel)
    ensures r.Hidden? <==> !isOpen
    ensures r.Shown? ==> (r.footerTotal.Some? <==> |items| > 0) && (r.emptyNotice <==> |items| == 0)
    ensures r.Shown? && r.footerTotal.Some? ==> r.footerTotal.value == CartTotal(items)
  {
    if !isOpen then Hidden
    else Shown(|items| == 0, if |items| > 0 then Some(CartTotal(items)) else None)
  }
}

=== FILE: checkout.dfy ===
/** The checkout page: the order form and its shipping estimate, the request it sends
    to `create-order`, the proof upload that follows, and the session storage that
    lets a reload resume an order.  The backend's replies are parameters of the
    page's methods. */
module Checkout {
  import opened Text
  import opened Records
  import opened Cart
  import V = Venezuela
  import opened CreateOrder
  import opened UploadProof

  // ---------------------------------------------------------------- session storage

  const OrderIdKey: string := "checkout_order_id"
  const OrderTokenKey: string := "checkout_order_token"
  const TrackingCodeKey: string := "checkout_tracking_code"
  const OrderCreatedKey: string := "checkout_order_created"
  const ProofUploadedKey: string := "checkout_proof_uploaded"

  /** What session storage keeps when it is given `undefined`. */
  const Undefined: string := "undefined"

  /** The order the page works on; an empty string is an unset (falsy) value. */
  datatype Progress = Progress(
    orderId: OrderId,
    orderToken: string,
    trackingCode: string,
    orderCreated: bool,
    proofUploaded: bool)

  const Fresh: Progress := Progress("", "", "", false, false)

  /** The key holds a non-empty (truthy) value. */
  predicate Saved(session: map<string, string>, key: string) {
    key in session && session[key] != ""
  }

  /** The key holds exactly "true". */
  predicate SavedTrue(session: map<string, string>, key: string) {
    key in session && session[key] == "true"
  }

  /** The mount effect: the three ids come back together or not at all, and each flag
      only along with them and only when it was stored as "true". */
  function Resumed(session: map<string, string>): (r: Progress)
    ensures r.orderId != "" <==>
      Saved(session, OrderIdKey) && Saved(session, OrderTokenKey) && Saved(session, TrackingCodeKey)
    ensures r.orderId != "" ==>
      r.orderId == session[OrderIdKey] && r.orderToken == session[OrderTokenKey]
      && r.trackingCode == session[TrackingCodeKey]
    ensures r.orderId == "" ==> r == Fresh
    ensures r.orderCreated <==> r.orderId != "" && SavedTrue(session, OrderCreatedKey)
    ensures r.proofUploaded <==> r.orderId != "" && SavedTrue(session, ProofUploadedKey)
  {
    if Saved(session, OrderIdKey) && Saved(session, OrderTokenKey) && Saved(session, TrackingCodeKey) then
      Progress(session[OrderIdKey], session[OrderTokenKey], session[TrackingCodeKey],
               SavedTrue(session, OrderCreatedKey), SavedTrue(session, ProofUploadedKey))
    else Fresh
  }

  const CheckoutKeys: set<string> := {OrderIdKey, OrderTokenKey, TrackingCodeKey, OrderCreatedKey, ProofUploadedKey}

  /** `cleanupCheckout` */
  function CleanedUp(session: map<string, string>): (r: map<string, string>)
    ensures forall k :: k in r <==> k in session && k !in CheckoutKeys
    ensures forall k :: k in r ==> r[k] == session[k]
  {
    session - CheckoutKeys
  }

  /** After the clean-up a reload finds no order to resume. */
  lemma NothingResumedAfterCleanup(session: map<string, string>)
    ensures Resumed(CleanedUp(session)) == Fresh
  {
    assert OrderIdKey in CheckoutKeys;
  }

  /** What a successful submit stores: the reply of `create-order` carries no order
      token, so the token key holds the text "undefined". */
  function Submitted(session: map<string, string>, c: Created): (r: map<string, string>)
    ensures r.Keys == session.Keys + {OrderIdKey, OrderTokenKey, TrackingCodeKey, OrderCreatedKey}
    ensures r[OrderIdKey] == c.orderId && r[OrderTokenKey] == Undefined
    ensures r[TrackingCodeKey] == c.trackingCode && r[OrderCreatedKey] == "true"
    ensures forall k :: (k in session && k != OrderIdKey && k != OrderTokenKey
                         && k != TrackingCodeKey && k != OrderCreatedKey) ==> r[k] == session[k]
  {
    session[OrderIdKey := c.orderId][OrderTokenKey := Undefined][TrackingCodeKey := c.trackingCode]
           [OrderCreatedKey := "true"]
  }

  /** A reload after a successful submit resumes the order, with "undefined" as its
      token. */
  lemma ReloadAfterSubmit(session: map<string, string>, c: Created)
    requires c.orderId != "" && c.trackingCode != ""
    ensures Resumed(Submitted(session, c))
      == Progress(c.orderId, Undefined, c.trackingCode, true, SavedTrue(session, ProofUploadedKey))
  {
  }

  // ---------------------------------------------------------------- totals and shipping

  /** The shipping estimate shown for the chosen destination. */
  datatype ShippingInfo = ShippingInfo(isFree: bool, cost: Cents, message: string)

  /** What the estimate adds to the total. */
  function ShippingCharge(info: Option<ShippingInfo>): (r: Cents)
    ensures info.None? || info.value.isFree ==> r == 0
    ensures info.Some? && !info.value.isFree ==> r == info.value.cost
  {
    if info.None? || info.value.isFree then 0 else info.value.cost
  }

  /** The summary's figures; the tax is computed as a fraction of a cent. */
  datatype Totals = Totals(subtotal: Cents, iva: real, shipping: Cents, total: real)

  const IvaRate: real := 0.19

  /** The order summary: the cart, 19% IVA on it, and the shipping estimate. */
  function Summary(items: seq<CartItem>, info: Option<ShippingInfo>): (r: Totals)
    ensures r.subtotal == CartTotal(items) && r.shipping == ShippingCharge(info)
    ensures r.iva == IvaRate * r.subtotal as real
    ensures r.total == (r.subtotal as real) * 1.19 + r.shipping as real
    ensures r.total - (r.subtotal + r.shipping) as real == IvaRate * r.subtotal as real
  {
    var subtotal := CartTotal(items);
    var iva := subtotal as real * IvaRate;
    var shipping := ShippingCharge(info);
    Totals(subtotal, iva, shipping, subtotal as real + iva + shipping as real)
  }

  /** The country every order from this page is for. */
  const ClientCountry: string := "Venezuela"
  const DistanceNote: string := " (puede variar según la distancia)"

  /** `calculateShipping`, for the state code and city chosen in the form; `failed`:
      the rule query fails.  No estimate without a known state and a city. */
  function ClientShipping(stateCode: string, city: string, rules: seq<ShippingRule>, failed: bool)
    : (r: Option<ShippingInfo>)
    ensures r.None? <==> V.NameOfCode(V.States, stateCode).None? || city == ""
  {
    match V.NameOfCode(V.States, stateCode)
    case None => None
    case Some(name) =>
      if city == "" then None
      else if failed then Some(ShippingInfo(false, 0, ShippingPending))
      else match MaybeSingle(MatchingRules(rules, ClientCountry, name, city))
        case Found(rule) =>
          if rule.isFree then Some(ShippingInfo(true, rule.baseCost, ShippingFree))
          else Some(ShippingInfo(false, rule.baseCost, "$" + FormatCents(rule.baseCost) + DistanceNote))
        case _ => Some(ShippingInfo(false, 0, ShippingPending))
  }

  /** For the destination the form sends, the page's estimate charges what
      `create-order` charges, and both call the shipping free, or to be confirmed, in
      the same cases. */
  lemma EstimateMatchesServer(stateCode: string, rules: seq<ShippingRule>, failed: bool, req: CheckoutRequest)
    requires V.NameOfCode(V.States, stateCode) == Some(req.state)
    requires req.country == ClientCountry && req.city != ""
    ensures var info := ClientShipping(stateCode, req.city, rules, failed);
      var q := Quote(RuleFor(rules, req, failed));
      && info.Some?
      && ShippingCharge(info) == q.cost
      && (info.value.message == ShippingPending <==> q.message == ShippingPending)
      && (info.value.isFree <==> q.message == ShippingFree)
  {
    ShippingCases(rules, req, failed);
    var info := ClientShipping(stateCode, req.city, rules, failed);
    assert info.value.message != ShippingPending ==> info.value.message[0] != ShippingPending[0] || info.value.isFree;
  }

  // ---------------------------------------------------------------- the order request

  /** The form's fields; `stateCode` is a code of the states table. */
  datatype Form = Form(
    firstName: string,
    lastName: string,
    cedula: string,
    email: string,
    phone: string,
    stateCode: string,
    city: string,
    address: string)

  const EmptyForm: Form := Form("", "", "", "", "", "", "", "")

  function CartLines(items: seq<CartItem>): (r: seq<CartLine>)
    ensures |r| == |items|
    ensures forall i :: 0 <= i < |items| ==> r[i] == CartLine(items[i].product.id, items[i].quantity)
  {
    if |items| == 0 then [] else [CartLine(items[0].product.id, items[0].quantity)] + CartLines(items[1..])
  }

  /** The body `handleSubmitOrder` posts.  It has no payment proof URL. */
  function Payload(form: Form, items: seq<CartItem>): (r: CheckoutRequest)
    ensures r.customerName != "" && r.country == ClientCountry && r.paymentProofUrl == ""
    ensures r.customerEmail == form.email && r.customerPhone == form.phone && r.cedula == form.cedula
    ensures r.city == form.city && r.address == form.address
    ensures V.NameOfCode(V.States, form.stateCode).Some? ==> V.State(form.stateCode, r.state) in V.States
    ensures V.NameOfCode(V.States, form.stateCode).None? ==> r.state == ""
    ensures r.items.Some? && |r.items.value| == |items|
    ensures forall i :: 0 <= i < |items| ==>
      r.items.value[i].productId == items[i].product.id && r.items.value[i].quantity == items[i].quantity
  {
    var name := V.NameOfCode(V.States, form.stateCode);
    CheckoutRequest(form.firstName + " " + form.lastName, form.email, form.phone, ClientCountry,
                    if name.Some? then name.value else "", form.city, form.address, form.cedula,
                    Some(CartLines(items)), "")
  }


  /** `create-order` refuses every body the page sends, before it reads any table: the
      name is never empty, so the refusal is for a missing e-mail, state, city or
      cédula, and otherwise for the missing proof URL.  Nothing is written. */
  lemma CheckoutNeverCreates(form: Form, items: seq<CartItem>, products: seq<Product>,
                             inv: map<ProductId, int>, rules: seq<ShippingRule>, caller: Option<UserId>,
                             f: CreateFaults, gen: NewOrderValues, orders: seq<Order>,
                             orderItems: seq<OrderItem>)
    ensures var req := Payload(form, items);
      var complete := form.email != "" && form.cedula != "" && form.city != ""
                      && V.NameOfCode(V.States, form.stateCode).Some?;
      var message := if complete then ProofFirstMessage else MissingFieldsMessage;
      && req.customerName != ""
      && Prepare(Post, req, products, inv, rules, caller, f) == Fail(400, message, NoDetails)
      && Commit(Prepare(Post, req, products, inv, rules, caller, f), req, gen, f, orders, orderItems)
         == Outcome(Fail(400, message, NoDetails), orders, orderItems)
  {
    var req := Payload(form, items);
    assert |req.customerName| > 0;
    var name := V.NameOfCode(V.States, form.stateCode);
    if name.Some? {
      assert V.State(form.stateCode, name.value) in V.States;
      V.StateNamed(V.State(form.stateCode, name.value));
    }
  }

  /** What the page shows for a failed call: the reply's error, or its own fallback. */
  function ErrorText(error: string, fallback: string): (r: string)
    ensures r != ""  <== fallback != ""
    ensures error != "" ==> r == error
  {
    if error == "" then fallback else error
  }

  const CreateFallback: string := "Error al crear la orden"
  const UploadFallback: string := "Error al subir el comprobante"
  const CancelFallback: string := "Error al cancelar la orden"
  const ReadFailure: string := "Error al leer el archivo"

  // ---------------------------------------------------------------- the proof upload

  /** The file chosen in the proof input. */
  datatype ProofFile = ProofFile(name: string)

  const NoOrderIdMessage: string :=
    "Error: No se encontró el ID del pedido. Por favor, intenta crear el pedido nuevamente."
  const NoTokenMessage: string :=
    "Error: No se encontró el token de la orden. Por favor, intenta crear el pedido nuevamente."
  const NoTrackingMessage: string :=
    "Error: No se encontró el código de seguimiento. Por favor, intenta crear el pedido nuevamente."
  const NoFileMessage: string := "Debes seleccionar una imagen del comprobante"

  /** The checks `handleUploadProof` makes before reading the file, in order;
      `None` lets the upload go ahead. */
  function UploadGuard(p: Progress, file: Option<ProofFile>): (r: Option<string>)
    ensures r.None? <==> p.orderId != "" && p.orderToken != "" && p.trackingCode != "" && file.Some?
    ensures p.orderId == "" ==> r == Some(NoOrderIdMessage)
    ensures p.orderId != "" && p.orderToken == "" ==> r == Some(NoTokenMessage)
    ensures p.orderId != "" && p.orderToken != "" && p.trackingCode == "" ==> r == Some(NoTrackingMessage)
    ensures p.orderId != "" && p.orderToken != "" && p.trackingCode != "" && file.None? ==> r == Some(NoFileMessage)
  {
    if p.orderId == "" then Some(NoOrderIdMessage)
    else if p.orderToken == "" then Some(NoTokenMessage)
    else if p.trackingCode == "" then Some(NoTrackingMessage)
    else if file.None? then Some(NoFileMessage)
    else None
  }

  /** Right after a successful submit the page holds no token, so the upload always
      stops at the token check; after a reload the token is "undefined", which passes. */
  lemma UploadAfterSubmit(session: map<string, string>, c: Created, file: ProofFile)
    requires c.orderId != "" && c.trackingCode != ""
    ensures UploadGuard(Progress(c.orderId, "", c.trackingCode, true, false), Some(file)) == Some(NoTokenMessage)
    ensures UploadGuard(Resumed(Submitted(session, c)), Some(file)) == None
  {
    ReloadAfterSubmit(session, c);
  }

  /** The body `handleUploadProof` posts; the order token is sent along but the
      function never reads it. */
  function UploadBody(p: Progress, file: ProofFile, data: string): (r: UploadRequest)
    ensures r.orderId == p.orderId && r.fileName == file.name && r.fileData == data
  {
    UploadRequest(p.orderId, file.name, data)
  }

  /** An upload that passed the page's checks, of a named, non-empty file, gets past the
      function's field check: it is refused only for the order it names. */
  lemma GuardedUploadHasFields(p: Progress, file: ProofFile, data: string, orders: seq<Order>)
    requires UploadGuard(p, Some(file)).None? && file.name != "" && data != ""
    ensures var r := UploadScreen(Post, UploadBody(p, file, data), orders, false);
      r.Ok? || (r.Fail? && r.status != 400)
    ensures OrdersWithId(orders, p.orderId) == [] ==>
      UploadScreen(Post, UploadBody(p, file, data), orders, false) == Fail(404, "Order not found", NoDetails)
  {
  }

  // ---------------------------------------------------------------- what is shown

  datatype Screen = EmptyCart | MissingTracking | ProofReceived | AwaitingProof | OrderForm

  /** Which screen the page renders, by the precedence of its early returns. */
  function ScreenOf(cartEmpty: bool, p: Progress): (s: Screen)
    ensures s == OrderForm <==> !cartEmpty && !p.orderCreated && !p.proofUploaded
    ensures s == AwaitingProof <==> p.orderCreated && !p.proofUploaded
    ensures s == EmptyCart <==> cartEmpty && !p.orderCreated && !p.proofUploaded
    ensures s == ProofReceived <==> p.proofUploaded && p.trackingCode != ""
    ensures s == MissingTracking <==> p.proofUploaded && p.trackingCode == ""
  {
    if cartEmpty && !p.orderCreated && !p.proofUploaded then EmptyCart
    else if p.proofUploaded then (if p.trackingCode == "" then MissingTracking else ProofReceived)
    else if p.orderCreated then AwaitingProof
    else OrderForm
  }

  // ---------------------------------------------------------------- the page

  class CheckoutPage {
    /** The cart handed to the page; `onClearCart` empties it. */
    var items: seq<CartItem>
    var form: Form
    var shipping: Option<ShippingInfo>
    var proofFile: Option<ProofFile>
    var progress: Progress
    var error: Option<string>
    var session: map<string, string>
    /** The page has navigated back to the store. */
    var leftPage: bool

    /** Mounting the page resumes what session storage holds. */
    constructor (items: seq<CartItem>, session: map<string, string>)
      ensures this.items == items && this.session == session && progress == Resumed(session)
      ensures form == EmptyForm && shipping == None && proofFile == None && error == None && !leftPage
    {
      this.items := items;
      this.session := session;
      progress := Resumed(session);
      form := EmptyForm;
      shipping := None;
      proofFile := None;
      error := None;
      leftPage := false;
    }

    /** `handleStateChange`: a new state clears the city and the estimate. */
    method ChooseState(code: string)
      modifies this
      ensures form == old(form).(stateCode := code, city := "") && shipping == None
      ensures items == old(items) && proofFile == old(proofFile) && progress == old(progress)
      ensures error == old(error) && session == old(session) && leftPage == old(leftPage)
    {
      form := form.(stateCode := code, city := "");
      shipping := None;
    }

    /** Choosing a city re-runs the estimate for the chosen state. */
    method ChooseCity(city: string, rules: seq<ShippingRule>, failed: bool)
      modifies this
      ensures form == old(form).(city := city)
      ensures shipping == ClientShipping(form.stateCode, city, rules, failed)
      ensures items == old(items) && proofFile == old(proofFile) && progress == old(progress)
      ensures error == old(error) && session == old(session) && leftPage == old(leftPage)
    {
      form := form.(city := city);
      shipping := ClientShipping(form.stateCode, city, rules, failed);
    }

    /** `handleFileChange` with a file selected. */
    method ChooseFile(file: ProofFile)
      modifies this
      ensures proofFile == Some(file)
      ensures items == old(items) && form == old(form) && shipping == old(shipping)
      ensures progress == old(progress) && error == old(error) && session == old(session)
      ensures leftPage == old(leftPage)
    {
      proofFile := Some(file);
    }

    /** `handleSubmitOrder`, given the reply to `Payload(form, items)`.  A POST is never
        answered with the preflight. */
    method Submit(reply: Reply<Created>)
      requires !reply.Preflight?
      modifies this
      ensures reply.Ok? ==>
        && progress == Progress(reply.value.orderId, "", reply.value.trackingCode, true, old(progress.proofUploaded))
        && session == Submitted(old(session), reply.value)
        && items == [] && error == None
      ensures reply.Fail? ==>
        && error == Some(ErrorText(reply.error, CreateFallback))
        && progress == old(progress) && session == old(session) && items == old(items)
      ensures form == old(form) && shipping == old(shipping) && proofFile == old(proofFile)
      ensures leftPage == old(leftPage)
    {
      error := None;
      if reply.Fail? {
        error := Some(ErrorText(reply.error, CreateFallback));
        return;
      }
      var c := reply.value;
      progress := progress.(orderId := c.orderId, orderToken := "", trackingCode := c.trackingCode,
                            orderCreated := true);
      session := Submitted(session, c);
      items := [];
    }

    /** `handleUploadProof`: the checks, then reading the file (`read` is `None` when
        the reader fails, else the base64 data), then the reply of the function to
        `UploadBody(progress, file, data)`. */
    method Upload(read: Option<string>, reply: Reply<string>)
      requires !reply.Preflight?
      modifies this
      ensures UploadGuard(old(progress), old(proofFile)).Some? ==>
        error == UploadGuard(old(progress), old(proofFile))
        && progress == old(progress) && session == old(session) && proofFile == old(proofFile)
      ensures UploadGuard(old(progress), old(proofFile)).None? && read.None? ==>
        error == Some(ReadFailure)
        && progress == old(progress) && session == old(session) && proofFile == old(proofFile)
      ensures UploadGuard(old(progress), old(proofFile)).None? && read.Some? && reply.Fail? ==>
        error == Some(ErrorText(reply.error, UploadFallback))
        && progress == old(progress) && session == old(session) && proofFile == old(proofFile)
      ensures UploadGuard(old(progress), old(proofFile)).None? && read.Some? && reply.Ok? ==>
        error == None && proofFile == None
        && progress == old(progress).(proofUploaded := true)
        && session == old(session)[ProofUploadedKey := "true"]
      ensures items == old(items) && form == old(form) && shipping == old(shipping)
      ensures leftPage == old(leftPage)
    {
      error := None;
      var refusal := UploadGuard(progress, proofFile);
      if refusal.Some? {
        error := refusal;
        return;
      }
      if read.None? {
        error := Some(ReadFailure);
        return;
      }
      if reply.Fail? {
        error := Some(ErrorText(reply.error, UploadFallback));
        return;
      }
      error := None;
      proofFile := None;
      progress := progress.(proofUploaded := true);
      session := session[ProofUploadedKey := "true"];
    }

    /** `handleCancelOrderAndBack`, given the reply of `cancel-order` for the page's order
        id: only a cancelled order clears the session and leaves the page. */
    method CancelAndLeave(reply: Reply<string>)
      requires !reply.Preflight?
      modifies this
      ensures reply.Ok? ==> session == CleanedUp(old(session)) && leftPage && error == None
      ensures reply.Fail? ==>
        error == Some(ErrorText(reply.error, CancelFallback))
        && session == old(session) && leftPage == old(leftPage)
      ensures items == old(items) && form == old(form) && shipping == old(shipping)
      ensures proofFile == old(proofFile) && progress == old(progress)
    {
      error := None;
      if reply.Fail? {
        error := Some(ErrorText(reply.error, CancelFallback));
        return;
      }
      session := CleanedUp(session);
      leftPage := true;
    }

    /** `handleBackToStore`, and `handleCopyTracking` once its delay has passed. */
    method BackToStore()
      modifies this
      ensures session == CleanedUp(old(session)) && leftPage
      ensures items == old(items) && form == old(form) && shipping == old(shipping)
      ensures proofFile == old(proofFile) && progress == old(progress) && error == old(error)
    {
      session := CleanedUp(session);
      leftPage := true;
    }
  }
}

=== FILE: create_order.dfy ===
/** The `create-order` edge function: validates a checkout request against the
    catalogue and the stock, prices it, and writes the order and its item snapshots.
    `Prepare` is the decision the handler takes before it writes anything;
    `CreateOrderHandler` performs it against the backend. */
module CreateOrder {
  import opened Text
  import opened Records

  /** One line of the cart the client sends. */
  datatype CartLine = CartLine(productId: ProductId, quantity: int)

  /** The request body.  `items` is `None` when the field is missing or not an array;
      an empty string is a missing text field. */
  datatype CheckoutRequest = CheckoutRequest(
    customerName: string,
    customerEmail: string,
    customerPhone: string,
    country: string,
    state: string,
    city: string,
    address: string,
    cedula: string,
    items: Option<seq<CartLine>>,
    paymentProofUrl: string)

  /** Which backend calls fail (`true`: the call returns an error). */
  datatype CreateFaults = CreateFaults(
    productsQuery: bool,
    inventoryQuery: bool,
    shippingQuery: bool,
    orderInsert: bool,
    itemsInsert: bool,
    compensationDelete: bool)

  /** The values the database generates for a new order row. */
  datatype NewOrderValues = NewOrderValues(orderId: OrderId, trackingCode: string, createdAt: nat)

  /** The payload of a successful reply. */
  datatype Created = Created(
    trackingCode: string,
    orderId: OrderId,
    subtotal: Cents,
    shippingCost: Cents,
    totalAmount: Cents)

  /** An order line before it is stamped with the order id. */
  datatype Line = Line(
    productId: ProductId,
    productName: string,
    productSku: string,
    productPrice: Cents,
    quantity: int,
    subtotal: Cents)

  /** Everything the handler has decided when it starts writing. */
  datatype Draft = Draft(
    lines: seq<Line>,
    subtotal: Cents,
    shippingCost: Cents,
    totalAmount: Cents,
    notes: string,
    userId: Option<UserId>)

  datatype ShippingQuote = ShippingQuote(cost: Cents, message: string)

  // ---------------------------------------------------------------- request

  const MissingFieldsMessage: string := "Missing required customer fields"
  const ProofFirstMessage: string := "Debes subir el comprobante antes de confirmar"
  const EmptyCartMessage: string := "Cart is empty"

  predicate MissingCustomerField(req: CheckoutRequest) {
    req.customerName == "" || req.customerEmail == "" || req.country == ""
    || req.state == "" || req.city == "" || req.cedula == ""
  }

  /** The request-level checks, in the order the handler makes them; `None` lets the
      request through to the catalogue checks. */
  function CheckRequest(req: CheckoutRequest): (r: Option<Reply<Draft>>)
    ensures r.None? <==>
      !MissingCustomerField(req) && req.paymentProofUrl != ""
      && req.items.Some? && |req.items.value| > 0
    ensures r.Some? ==> r.value.Fail? && r.value.status == 400 && r.value.details == NoDetails
    ensures MissingCustomerField(req) ==> r == Some(Fail(400, MissingFieldsMessage, NoDetails))
    ensures !MissingCustomerField(req) && req.paymentProofUrl == "" ==>
      r == Some(Fail(400, ProofFirstMessage, NoDetails))
    ensures !MissingCustomerField(req) && req.paymentProofUrl != "" && (req.items.None? || |req.items.value| == 0) ==>
      r == Some(Fail(400, EmptyCartMessage, NoDetails))
  {
    if MissingCustomerField(req) then Some(Fail(400, MissingFieldsMessage, NoDetails))
    else if req.paymentProofUrl == "" then Some(Fail(400, ProofFirstMessage, NoDetails))
    else if req.items.None? || |req.items.value| == 0 then Some(Fail(400, EmptyCartMessage, NoDetails))
    else None
  }

  // ---------------------------------------------------------------- catalogue

  function ProductIds(items: seq<CartLine>): (ids: seq<ProductId>)
    ensures |ids| == |items|
    ensures forall i :: 0 <= i < |items| ==> ids[i] == items[i].productId
  {
    if |items| == 0 then [] else [items[0].productId] + ProductIds(items[1..])
  }

  /** The `products` rows whose id is one of `ids`, in table order (an `in` query). */
  function Requested(products: seq<Product>, ids: seq<ProductId>): (r: seq<Product>)
    ensures forall p :: p in r <==> p in products && p.id in ids
    ensures |r| <= |products|
  {
    if |products| == 0 then []
    else (if products[0].id in ids then [products[0]] else []) + Requested(products[1..], ids)
  }

  /** `id` is the primary key of `products`. */
  predicate UniqueIds(products: seq<Product>) {
    forall i, j :: 0 <= i < j < |products| ==> products[i].id != products[j].id
  }

  predicate Distinct(ids: seq<ProductId>) {
    forall i, j :: 0 <= i < j < |ids| ==> ids[i] != ids[j]
  }

  /** The ids present in the table. */
  function TableIds(products: seq<Product>): (r: set<ProductId>)
    ensures forall p :: p in products ==> p.id in r
    ensures forall id :: id in r ==> exists p :: p in products && p.id == id
  {
    if |products| == 0 then {} else {products[0].id} + TableIds(products[1..])
  }

  function IdSet(ids: seq<ProductId>): (r: set<ProductId>)
    ensures forall x :: x in r <==> x in ids
  {
    if |ids| == 0 then {} else IdSet(ids[..|ids| - 1]) + {ids[|ids| - 1]}
  }

  /** Names of the inactive products among `found`. */
  function InactiveNames(found: seq<Product>): (names: seq<string>)
    ensures |names| <= |found|
    ensures names == [] <==> forall p :: p in found ==> p.isActive
    ensures forall p :: p in found && !p.isActive ==> p.name in names
  {
    if |found| == 0 then []
    else (if found[0].isActive then [] else [found[0].name]) + InactiveNames(found[1..])
  }

  /** `products.find`: the first row with the given id. */
  function FirstWithId(found: seq<Product>, pid: ProductId): (r: Option<Product>)
    ensures r.Some? <==> exists p :: p in found && p.id == pid
    ensures r.Some? ==> r.value in found && r.value.id == pid
  {
    if |found| == 0 then None
    else if found[0].id == pid then Some(found[0])
    else FirstWithId(found[1..], pid)
  }

  /** A map built from the rows keyed by id: a later row overwrites an earlier one. */
  function LastWithId(found: seq<Product>, pid: ProductId): (r: Option<Product>)
    ensures r.Some? <==> exists p :: p in found && p.id == pid
    ensures r.Some? ==> r.value in found && r.value.id == pid
  {
    if |found| == 0 then None
    else if found[|found| - 1].id == pid then Some(found[|found| - 1])
    else LastWithId(found[..|found| - 1], pid)
  }

  // ---------------------------------------------------------------- stock

  /** Stock on hand; a product without an inventory row has none. */
  function Available(inv: map<ProductId, int>, pid: ProductId): int {
    if pid in inv then inv[pid] else 0
  }

  /** The error a cart line adds: one when it asks for more than is on hand, naming
      the product when its row was found. */
  function ShortageOf(item: CartLine, inv: map<ProductId, int>, found: seq<Product>): (r: seq<StockShortage>)
    ensures |r| <= 1
    ensures r != [] <==> Available(inv, item.productId) < item.quantity
    ensures r != [] ==> r[0].requested == item.quantity && r[0].available == Available(inv, item.productId)
    ensures r != [] ==> (r[0].product.Some? <==> FirstWithId(found, item.productId).Some?)
    ensures r != [] && r[0].product.Some? ==> r[0].product.value == FirstWithId(found, item.productId).value.name
  {
    var available := Available(inv, item.productId);
    if available < item.quantity then
      var name := match FirstWithId(found, item.productId)
                  case None => None
                  case Some(p) => Some(p.name);
      [StockShortage(name, item.quantity, available)]
    else []
  }

  /** The stock errors of a cart, one per line that asks for more than is on hand. */
  function Shortages(items: seq<CartLine>, inv: map<ProductId, int>, found: seq<Product>): (r: seq<StockShortage>)
    ensures |r| <= |items|
    ensures forall e :: e in r ==> e.available < e.requested
  {
    if |items| == 0 then []
    else Shortages(items[..|items| - 1], inv, found) + ShortageOf(items[|items| - 1], inv, found)
  }

  /** Every short line is reported, and every report is a short line's. */
  lemma ShortagesExactly(items: seq<CartLine>, inv: map<ProductId, int>, found: seq<Product>)
    ensures forall i :: 0 <= i < |items| && Available(inv, items[i].productId) < items[i].quantity ==>
      ShortageOf(items[i], inv, found)[0] in Shortages(items, inv, found)
    ensures forall e :: e in Shortages(items, inv, found) ==>
      exists i :: 0 <= i < |items| && ShortageOf(items[i], inv, found) == [e]
  {
    forall i | 0 <= i < |items| && Available(inv, items[i].productId) < items[i].quantity {
      ShortLineReported(items, inv, found, i);
    }
    forall e | e in Shortages(items, inv, found) {
      ReportOfShortLine(items, inv, found, e);
    }
  }

  lemma {:induction false} ShortLineReported(items: seq<CartLine>, inv: map<ProductId, int>, found: seq<Product>, i: int)
    requires 0 <= i < |items| && Available(inv, items[i].productId) < items[i].quantity
    ensures ShortageOf(items[i], inv, found)[0] in Shortages(items, inv, found)
    decreases |items|
  {
    var init := items[..|items| - 1];
    if i < |init| {
      assert init[i] == items[i];
      ShortLineReported(init, inv, found, i);
    }
  }

  lemma {:induction false} ReportOfShortLine(items: seq<CartLine>, inv: map<ProductId, int>, found: seq<Product>,
                                             e: StockShortage)
    requires e in Shortages(items, inv, found)
    ensures exists i :: 0 <= i < |items| && ShortageOf(items[i], inv, found) == [e]
    decreases |items|
  {
    var last := |items| - 1;
    var init := items[..last];
    if e in Shortages(init, inv, found) {
      ReportOfShortLine(init, inv, found, e);
      var i :| 0 <= i < |init| && ShortageOf(init[i], inv, found) == [e];
      assert init[i] == items[i];
    } else {
      assert ShortageOf(items[last], inv, found) == [e];
    }
  }

  /** How many lines of the cart ask for more than is on hand. */
  function ShortCount(items: seq<CartLine>, inv: map<ProductId, int>): (n: nat)
    ensures n <= |items|
  {
    if |items| == 0 then 0
    else ShortCount(items[..|items| - 1], inv)
         + (if Available(inv, items[|items| - 1].productId) < items[|items| - 1].quantity then 1 else 0)
  }

  /** There is one report per short line. */
  lemma {:induction false} ShortagesCount(items: seq<CartLine>, inv: map<ProductId, int>, found: seq<Product>)
    ensures |Shortages(items, inv, found)| == ShortCount(items, inv)
    decreases |items|
  {
    if |items| > 0 {
      ShortagesCount(items[..|items| - 1], inv, found);
    }
  }

  /** The reports come in line order: the report of a short line sits right after those
      of the short lines before it. */
  lemma {:induction false} ShortagesInLineOrder(items: seq<CartLine>, inv: map<ProductId, int>, found: seq<Product>,
                                                i: int)
    requires 0 <= i < |items| && Available(inv, items[i].productId) < items[i].quantity
    ensures ShortCount(items[..i], inv) < |Shortages(items, inv, found)|
    ensures Shortages(items, inv, found)[ShortCount(items[..i], inv)] == ShortageOf(items[i], inv, found)[0]
    decreases |items|
  {
    var last := |items| - 1;
    var init := items[..last];
    var prefix := Shortages(init, inv, found);
    assert Shortages(items, inv, found) == prefix + ShortageOf(items[last], inv, found);
    if i < last {
      assert init[i] == items[i];
      assert init[..i] == items[..i];
      ShortagesInLineOrder(init, inv, found, i);
    } else {
      assert items[..i] == init;
      ShortagesCount(init, inv, found);
    }
  }

  predicate InStock(items: seq<CartLine>, inv: map<ProductId, int>) {
    forall i :: 0 <= i < |items| ==> Available(inv, items[i].productId) >= items[i].quantity
  }

  lemma NoShortagesIff(items: seq<CartLine>, inv: map<ProductId, int>, found: seq<Product>)
    ensures Shortages(items, inv, found) == [] <==> InStock(items, inv)
  {
    var r := Shortages(items, inv, found);
    if r != [] {
      ReportOfShortLine(items, inv, found, r[0]);
    }
    if !InStock(items, inv) {
      var i :| 0 <= i < |items| && Available(inv, items[i].productId) < items[i].quantity;
      ShortLineReported(items, inv, found, i);
    }
  }

  lemma ShortagesStep(items: seq<CartLine>, inv: map<ProductId, int>, found: seq<Product>, i: int)
    requires 0 <= i < |items|
    ensures Shortages(items[..i + 1], inv, found) == Shortages(items[..i], inv, found) + ShortageOf(items[i], inv, found)
  {
    assert items[..i + 1][..i] == items[..i];
  }

  /** The stock check loop; it collects every shortage before deciding. */
  method CollectShortages(items: seq<CartLine>, inv: map<ProductId, int>, found: seq<Product>)
    returns (errors: seq<StockShortage>)
    ensures errors == Shortages(items, inv, found)
    ensures errors == [] <==> InStock(items, inv)
  {
    errors := [];
    var i := 0;
    while i < |items|
      invariant 0 <= i <= |items|
      invariant errors == Shortages(items[..i], inv, found)
    {
      ShortagesStep(items, inv, found, i);
      errors := errors + ShortageOf(items[i], inv, found);
      i := i + 1;
    }
    assert items[..i] == items;
    NoShortagesIff(items, inv, found);
  }

  // ---------------------------------------------------------------- pricing

  function LineOf(item: CartLine, found: seq<Product>): seq<Line> {
    match LastWithId(found, item.productId)
    case None => []
    case Some(p) => [Line(p.id, p.name, p.sku, p.price, item.quantity, p.price * item.quantity)]
  }

  /** The order lines: one per cart line whose product was found, priced at the product's price. */
  function Lines(items: seq<CartLine>, found: seq<Product>): (r: seq<Line>)
    ensures |r| <= |items|
    ensures forall l :: l in r ==> l.subtotal == l.productPrice * l.quantity
  {
    if |items| == 0 then []
    else Lines(items[..|items| - 1], found) + LineOf(items[|items| - 1], found)
  }

  function LinesTotal(lines: seq<Line>): Cents {
    if |lines| == 0 then 0 else LinesTotal(lines[..|lines| - 1]) + lines[|lines| - 1].subtotal
  }

  /** When every cart line's product is found, there is one order line per cart line,
      for the same product and quantity, at that product's price. */
  lemma {:induction false} LinesWhenAllFound(items: seq<CartLine>, found: seq<Product>)
    requires forall i :: 0 <= i < |items| ==> LastWithId(found, items[i].productId).Some?
    ensures |Lines(items, found)| == |items|
    ensures forall i :: 0 <= i < |items| ==>
      var l := Lines(items, found)[i];
      var p := LastWithId(found, items[i].productId).value;
      l.productId == items[i].productId && l.quantity == items[i].quantity
      && l.productPrice == p.price && l.productName == p.name && l.productSku == p.sku
    decreases |items|
  {
    if |items| > 0 {
      var init := items[..|items| - 1];
      assert forall i :: 0 <= i < |init| ==> init[i] == items[i];
      LinesWhenAllFound(init, found);
    }
  }

  lemma LinesStep(items: seq<CartLine>, found: seq<Product>, i: int)
    requires 0 <= i < |items|
    ensures Lines(items[..i + 1], found) == Lines(items[..i], found) + LineOf(items[i], found)
  {
    assert items[..i + 1][..i] == items[..i];
  }

  lemma LinesTotalSnoc(lines: seq<Line>, line: Line)
    ensures LinesTotal(lines + [line]) == LinesTotal(lines) + line.subtotal
  {
    assert (lines + [line])[..|lines|] == lines;
  }

  /** The pricing loop: builds the lines and accumulates their subtotal. */
  method BuildLines(items: seq<CartLine>, found: seq<Product>) returns (lines: seq<Line>, subtotal: Cents)
    ensures lines == Lines(items, found)
    ensures subtotal == LinesTotal(lines)
  {
    lines := [];
    subtotal := 0;
    var i := 0;
    while i < |items|
      invariant 0 <= i <= |items|
      invariant lines == Lines(items[..i], found)
      invariant subtotal == LinesTotal(lines)
    {
      var item := items[i];
      var product := LastWithId(found, item.productId);
      LinesStep(items, found, i);
      if product.Some? {
        var p := product.value;
        var line := Line(p.id, p.name, p.sku, p.price, item.quantity, p.price * item.quantity);
        LinesTotalSnoc(lines, line);
        lines := lines + [line];
        subtotal := subtotal + line.subtotal;
      }
      i := i + 1;
    }
    assert items[..i] == items;
  }

  // ---------------------------------------------------------------- shipping

  /** Active shipping rules for exactly this destination. */
  function MatchingRules(rules: seq<ShippingRule>, country: string, state: string, city: string): (r: seq<ShippingRule>)
    ensures forall x :: x in r <==>
      x in rules && x.isActive && x.country == country && x.state == state && x.city == city
  {
    if |rules| == 0 then []
    else
      var x := rules[0];
      (if x.isActive && x.country == country && x.state == state && x.city == city then [x] else [])
      + MatchingRules(rules[1..], country, state, city)
  }

  /** The rule the handler uses: the single matching rule, or none when the query
      fails or does not match exactly one row (the error is only logged). */
  function RuleFor(rules: seq<ShippingRule>, req: CheckoutRequest, failed: bool): (r: Option<ShippingRule>)
    ensures r.Some? <==> !failed && |MatchingRules(rules, req.country, req.state, req.city)| == 1
    ensures r.Some? ==>
      r.value in rules && r.value.isActive
      && r.value.country == req.country && r.value.state == req.state && r.value.city == req.city
  {
    if failed then None
    else match MaybeSingle(MatchingRules(rules, req.country, req.state, req.city))
         case Found(x) => Some(x)
         case _ => None
  }

  const ShippingPending: string := "Envío por confirmar"
  const ShippingFree: string := "Envío gratis"
  const ShippingCostPrefix: string := "Costo de envío: $"

  /** The shipping cost and message for the rule found: the message tells the three
      cases apart, and only a charging rule costs anything. */
  function Quote(rule: Option<ShippingRule>): (q: ShippingQuote)
    ensures q.message == ShippingPending <==> rule.None?
    ensures q.message == ShippingFree <==> rule.Some? && rule.value.isFree
    ensures StartsWith(q.message, ShippingCostPrefix) <==> rule.Some? && !rule.value.isFree
    ensures rule.Some? && !rule.value.isFree ==> q.message == ShippingCostPrefix + FormatCents(rule.value.baseCost)
    ensures q.cost == if rule.Some? && !rule.value.isFree then rule.value.baseCost else 0
  {
    assert !StartsWith(ShippingPending, ShippingCostPrefix) by {
      assert ShippingPending[..|ShippingCostPrefix|][0] == 'E';
    }
    assert |ShippingFree| < |ShippingCostPrefix|;
    assert ShippingPending[6] != ShippingFree[6];
    if rule.None? then ShippingQuote(0, ShippingPending)
    else if rule.value.isFree then ShippingQuote(0, ShippingFree)
    else
      var message := ShippingCostPrefix + FormatCents(rule.value.baseCost);
      assert message[..|ShippingCostPrefix|] == ShippingCostPrefix;
      ShippingQuote(rule.value.baseCost, message)
  }

  /** The shipping outcome has three cases, told apart by the message: no rule (nothing
      charged, cost to be confirmed), a free rule, or a rule charging its base cost. */
  lemma ShippingCases(rules: seq<ShippingRule>, req: CheckoutRequest, failed: bool)
    ensures var m := MatchingRules(rules, req.country, req.state, req.city);
      var q := Quote(RuleFor(rules, req, failed));
      && (q.message == ShippingPending <==> failed || |m| != 1)
      && (q.message == ShippingFree <==> !failed && |m| == 1 && m[0].isFree)
      && (StartsWith(q.message, ShippingCostPrefix) <==> !failed && |m| == 1 && !m[0].isFree)
      && q.cost == (if !failed && |m| == 1 && !m[0].isFree then m[0].baseCost else 0)
  {
    var m := MatchingRules(rules, req.country, req.state, req.city);
    if !failed && |m| == 1 {
      assert m[0] in m;
    }
  }

  /** The order notes: cédula, state, city, the address when given, then the shipping message. */
  function ShippingNotes(req: CheckoutRequest, message: string): (notes: string)
    ensures StartsWith(notes, "Cédula: " + req.cedula + "\nEstado: " + req.state + "\nCiudad: " + req.city)
    ensures |notes| > |message| && notes[|notes| - |message| - 1..] == "\n" + message
    ensures req.address == "" ==>
      notes == "Cédula: " + req.cedula + "\nEstado: " + req.state + "\nCiudad: " + req.city + "\n" + message
    ensures req.address != "" ==>
      notes == "Cédula: " + req.cedula + "\nEstado: " + req.state + "\nCiudad: " + req.city
               + "\nDirección: " + req.address + "\n" + message
  {
    var head := "Cédula: " + req.cedula + "\nEstado: " + req.state + "\nCiudad: " + req.city;
    var address := if req.address != "" then "\nDirección: " + req.address else "";
    assert (head + address + "\n" + message)[..|head|] == head;
    head + address + "\n" + message
  }

  // ---------------------------------------------------------------- decision

  /** The catalogue, stock and pricing stage, for the cart of a complete request. */
  function Evaluate(items: seq<CartLine>, req: CheckoutRequest, products: seq<Product>, inv: map<ProductId, int>,
                    rules: seq<ShippingRule>, caller: Option<UserId>, f: CreateFaults): (r: Reply<Draft>)
    ensures f.productsQuery ==> r == Fail(500, "Error validating products", NoDetails)
    ensures r.Ok? <==> !f.productsQuery && !f.inventoryQuery && CatalogueChecksPass(products, inv, items)
  {
    if f.productsQuery then Fail(500, "Error validating products", NoDetails)
    else Screen(items, Requested(products, ProductIds(items)), req, inv, rules, caller, f)
  }

  /** The checks on the product rows read (`found`) and the stock, then the pricing. */
  function Screen(items: seq<CartLine>, found: seq<Product>, req: CheckoutRequest, inv: map<ProductId, int>,
                  rules: seq<ShippingRule>, caller: Option<UserId>, f: CreateFaults): (r: Reply<Draft>)
    ensures r.Ok? <==>
      |found| == |items| && InactiveNames(found) == [] && !f.inventoryQuery && Shortages(items, inv, found) == []
    ensures r.Fail? <==> !r.Ok?
    ensures r.Fail? ==> r.status == (if |found| == |items| && InactiveNames(found) == [] && f.inventoryQuery then 500 else 400)
  {
    if |found| != |items| then Fail(400, "Some products do not exist", NoDetails)
    else if InactiveNames(found) != [] then
      Fail(400, "Some products are not available", ProductNames(InactiveNames(found)))
    else if f.inventoryQuery then Fail(500, "Error checking stock", NoDetails)
    else if Shortages(items, inv, found) != [] then
      Fail(400, "Insufficient stock", StockDetails(Shortages(items, inv, found)))
    else Ok(Priced(items, found, req, rules, caller, f.shippingQuery))
  }

  /** The steps of the screen in the handler's order, each failing with its own reply
      once the steps before it have passed. */
  lemma ScreenSteps(items: seq<CartLine>, found: seq<Product>, req: CheckoutRequest, inv: map<ProductId, int>,
                    rules: seq<ShippingRule>, caller: Option<UserId>, f: CreateFaults)
    ensures var r := Screen(items, found, req, inv, rules, caller, f);
      && (|found| != |items| ==> r == Fail(400, "Some products do not exist", NoDetails))
      && (|found| == |items| && InactiveNames(found) != [] ==>
            r == Fail(400, "Some products are not available", ProductNames(InactiveNames(found))))
      && (|found| == |items| && InactiveNames(found) == [] && f.inventoryQuery ==>
            r == Fail(500, "Error checking stock", NoDetails))
      && (|found| == |items| && InactiveNames(found) == [] && !f.inventoryQuery
          && Shortages(items, inv, found) != [] ==>
            r == Fail(400, "Insufficient stock", StockDetails(Shortages(items, inv, found))))
      && (r.Ok? ==> r.value == Priced(items, found, req, rules, caller, f.shippingQuery))
  {
  }

  /** The draft order of a cart that passed every check: its lines' sum, the shipping
      quoted for the destination, and the notes ending with the shipping message. */
  function Priced(items: seq<CartLine>, found: seq<Product>, req: CheckoutRequest,
                  rules: seq<ShippingRule>, caller: Option<UserId>, shippingFailed: bool): (d: Draft)
    ensures d.subtotal == LinesTotal(d.lines) && d.totalAmount == d.subtotal + d.shippingCost
    ensures d.shippingCost == Quote(RuleFor(rules, req, shippingFailed)).cost
    ensures var m := Quote(RuleFor(rules, req, shippingFailed)).message;
      |d.notes| > |m| && d.notes[|d.notes| - |m| - 1..] == "\n" + m
    ensures d.userId == caller && |d.lines| <= |items|
  {
    var lines := Lines(items, found);
    var subtotal := LinesTotal(lines);
    var quote := Quote(RuleFor(rules, req, shippingFailed));
    Draft(lines, subtotal, quote.cost, subtotal + quote.cost, ShippingNotes(req, quote.message), caller)
  }

  /** What the handler decides before writing anything: an early reply, or the draft order. */
  function Prepare(m: HttpMethod, req: CheckoutRequest, products: seq<Product>, inv: map<ProductId, int>,
                   rules: seq<ShippingRule>, caller: Option<UserId>, f: CreateFaults): (r: Reply<Draft>)
    ensures r.Preflight? <==> m == Options
    ensures m != Options && m != Post ==> r == Fail(405, "Method not allowed", NoDetails)
    ensures m == Post && CheckRequest(req).Some? ==> r == CheckRequest(req).value
    ensures r.Ok? ==> m == Post && RequestComplete(req)
  {
    match MethodGate<Draft>(m)
    case Some(early) => early
    case None =>
      match CheckRequest(req)
      case Some(rejection) => rejection
      case None => Evaluate(req.items.value, req, products, inv, rules, caller, f)
  }

  /** The decision, computed the way the handler does it (with its two loops). */
  method DecideOrder(m: HttpMethod, req: CheckoutRequest, products: seq<Product>, inv: map<ProductId, int>,
                     rules: seq<ShippingRule>, caller: Option<UserId>, f: CreateFaults)
    returns (plan: Reply<Draft>)
    ensures plan == Prepare(m, req, products, inv, rules, caller, f)
  {
    var gate := MethodGate<Draft>(m);
    if gate.Some? {
      return gate.value;
    }
    var rejection := CheckRequest(req);
    if rejection.Some? {
      return rejection.value;
    }
    plan := EvaluateCart(req.items.value, req, products, inv, rules, caller, f);
  }

  /** The catalogue, stock and pricing stage as the handler runs it. */
  method EvaluateCart(items: seq<CartLine>, req: CheckoutRequest, products: seq<Product>, inv: map<ProductId, int>,
                      rules: seq<ShippingRule>, caller: Option<UserId>, f: CreateFaults)
    returns (plan: Reply<Draft>)
    ensures plan == Evaluate(items, req, products, inv, rules, caller, f)
  {
    if f.productsQuery {
      return Fail(500, "Error validating products", NoDetails);
    }
    var found := Requested(products, ProductIds(items));
    if |found| != |items| {
      return Fail(400, "Some products do not exist", NoDetails);
    }
    var inactive := InactiveNames(found);
    if inactive != [] {
      return Fail(400, "Some products are not available", ProductNames(inactive));
    }
    if f.inventoryQuery {
      return Fail(500, "Error checking stock", NoDetails);
    }
    var shortages := CollectShortages(items, inv, found);
    if shortages != [] {
      return Fail(400, "Insufficient stock", StockDetails(shortages));
    }
    var d := PriceCart(items, found, req, rules, caller, f.shippingQuery);
    plan := Ok(d);
  }

  /** The pricing as the handler runs it. */
  method PriceCart(items: seq<CartLine>, found: seq<Product>, req: CheckoutRequest,
                   rules: seq<ShippingRule>, caller: Option<UserId>, shippingFailed: bool)
    returns (d: Draft)
    ensures d == Priced(items, found, req, rules, caller, shippingFailed)
  {
    var lines, subtotal := BuildLines(items, found);
    var quote := Quote(RuleFor(rules, req, shippingFailed));
    d := Draft(lines, subtotal, quote.cost, subtotal + quote.cost, ShippingNotes(req, quote.message), caller);
  }

  /** A cart line can be ordered when its product exists, is active and has the stock. */
  predicate Orderable(products: seq<Product>, inv: map<ProductId, int>, item: CartLine) {
    exists p :: (p in products && p.id == item.productId && p.isActive
                 && Available(inv, item.productId) >= item.quantity)
  }

  /** No product on two lines, and every line orderable. */
  predicate CartOrderable(products: seq<Product>, inv: map<ProductId, int>, items: seq<CartLine>) {
    Distinct(ProductIds(items)) && forall i :: 0 <= i < |items| ==> Orderable(products, inv, items[i])
  }

  /** The three catalogue checks the handler makes on the rows it read. */
  predicate CatalogueChecksPass(products: seq<Product>, inv: map<ProductId, int>, items: seq<CartLine>) {
    var found := Requested(products, ProductIds(items));
    |found| == |items| && InactiveNames(found) == [] && Shortages(items, inv, found) == []
  }

  predicate RequestComplete(req: CheckoutRequest) {
    !MissingCustomerField(req) && req.paymentProofUrl != "" && req.items.Some? && |req.items.value| > 0
  }

  // ---------------------------------------------------------------- existence check

  lemma {:induction false} DistinctCard(ids: seq<ProductId>)
    ensures |IdSet(ids)| <= |ids|
    ensures |IdSet(ids)| == |ids| <==> Distinct(ids)
    decreases |ids|
  {
    if |ids| > 0 {
      var init := ids[..|ids| - 1];
      var x := ids[|ids| - 1];
      DistinctCard(init);
      assert ids == init + [x];
      if x in init {
        assert IdSet(ids) == IdSet(init);
        var k :| 0 <= k < |init| && init[k] == x;
        assert ids[k] == ids[|ids| - 1];
      } else {
        assert |IdSet(ids)| == |IdSet(init)| + 1;
        DistinctSnoc(init, x);
      }
    }
  }

  /** A new last id keeps the ids distinct exactly when they were. */
  lemma DistinctSnoc(init: seq<ProductId>, x: ProductId)
    requires x !in init
    ensures Distinct(init + [x]) <==> Distinct(init)
  {
    var ids := init + [x];
    if Distinct(init) {
      forall i, j | 0 <= i < j < |ids| ensures ids[i] != ids[j] {
        if j < |init| {
          assert ids[i] == init[i] && ids[j] == init[j];
        } else {
          assert ids[i] == init[i] && init[i] in init;
        }
      }
    }
    if Distinct(ids) {
      forall i, j | 0 <= i < j < |init| ensures init[i] != init[j] {
        assert ids[i] == init[i] && ids[j] == init[j];
      }
    }
  }

  lemma {:induction false} RequestedCard(products: seq<Product>, ids: seq<ProductId>)
    requires UniqueIds(products)
    ensures |Requested(products, ids)| == |TableIds(products) * IdSet(ids)|
    decreases |products|
  {
    if |products| > 0 {
      UniqueTail(products);
      RequestedCard(products[1..], ids);
      CardStep(products[0].id, TableIds(products[1..]), IdSet(ids));
    }
  }

  lemma UniqueTail(products: seq<Product>)
    requires UniqueIds(products) && |products| > 0
    ensures UniqueIds(products[1..])
    ensures products[0].id !in TableIds(products[1..])
  {
    var rest := products[1..];
    forall i, j | 0 <= i < j < |rest| ensures rest[i].id != rest[j].id {
      assert rest[i] == products[i + 1] && rest[j] == products[j + 1];
    }
    forall q | q in rest ensures q.id != products[0].id {
      var k :| 0 <= k < |rest| && rest[k] == q;
      assert products[k + 1] == q;
    }
  }

  lemma CardStep(x: ProductId, t: set<ProductId>, s: set<ProductId>)
    requires x !in t
    ensures |({x} + t) * s| == if x in s then |t * s| + 1 else |t * s|
  {
    if x in s {
      assert ({x} + t) * s == (t * s) + {x};
    } else {
      assert ({x} + t) * s == t * s;
    }
  }

  lemma SubsetSmaller(a: set<ProductId>, b: set<ProductId>)
    requires a <= b
    ensures |a| <= |b|
    ensures a != b ==> |a| < |b|
    decreases |b|
  {
    if a != b {
      var x :| x in b && x !in a;
      var c := b - {x};
      assert b == c + {x};
      SubsetSmaller(a, c);
    }
  }

  /** The existence check compares row count with line count; on a table keyed by id
      it passes exactly when no product is on two lines and every product exists. */
  lemma ExistenceCheck(products: seq<Product>, items: seq<CartLine>)
    requires UniqueIds(products)
    ensures |Requested(products, ProductIds(items))| == |items| <==>
      Distinct(ProductIds(items)) && forall i :: 0 <= i < |items| ==> items[i].productId in TableIds(products)
  {
    var ids := ProductIds(items);
    var t := TableIds(products);
    var s := IdSet(ids);
    RequestedCard(products, ids);
    DistinctCard(ids);
    SubsetSmaller(t * s, s);
    CoveredIff(t, ids);
  }

  lemma CoveredIff(t: set<ProductId>, ids: seq<ProductId>)
    ensures t * IdSet(ids) == IdSet(ids) <==> forall i :: 0 <= i < |ids| ==> ids[i] in t
  {
    var s := IdSet(ids);
    if t * s == s {
      forall i | 0 <= i < |ids| ensures ids[i] in t {
        assert ids[i] in s;
      }
    } else {
      var x :| x in s && x !in t;
      assert x in ids;
    }
  }

  lemma SameIdSameRow(products: seq<Product>, p: Product, q: Product)
    requires UniqueIds(products) && p in products && q in products && p.id == q.id
    ensures p == q
  {
    var i :| 0 <= i < |products| && products[i] == p;
    var j :| 0 <= j < |products| && products[j] == q;
    assert !(i < j) && !(j < i);
  }

  /** Once the existence check has passed, every line's product is among the rows read. */
  lemma {:induction false} FoundAfterExistence(products: seq<Product>, items: seq<CartLine>)
    requires UniqueIds(products)
    requires |Requested(products, ProductIds(items))| == |items|
    ensures forall i :: 0 <= i < |items| ==>
      LastWithId(Requested(products, ProductIds(items)), items[i].productId).Some?
  {
    var found := Requested(products, ProductIds(items));
    ExistenceCheck(products, items);
    forall i | 0 <= i < |items| ensures LastWithId(found, items[i].productId).Some? {
      var p :| p in products && p.id == items[i].productId;
      assert ProductIds(items)[i] == p.id;
      assert p in found;
    }
  }

  lemma ChecksFromOrderable(products: seq<Product>, inv: map<ProductId, int>, items: seq<CartLine>)
    requires UniqueIds(products)
    requires CartOrderable(products, inv, items)
    ensures CatalogueChecksPass(products, inv, items)
  {
    var found := Requested(products, ProductIds(items));
    ExistenceCheck(products, items);
    forall i | 0 <= i < |items| ensures items[i].productId in TableIds(products) {
      var p :| p in products && p.id == items[i].productId && p.isActive
               && Available(inv, items[i].productId) >= items[i].quantity;
    }
    forall p | p in found ensures p.isActive {
      assert p.id in ProductIds(items);
      var i :| 0 <= i < |items| && ProductIds(items)[i] == p.id;
      var q :| q in products && q.id == items[i].productId && q.isActive
               && Available(inv, items[i].productId) >= items[i].quantity;
      SameIdSameRow(products, p, q);
    }
    NoShortagesIff(items, inv, found);
  }

  lemma OrderableFromChecks(products: seq<Product>, inv: map<ProductId, int>, items: seq<CartLine>)
    requires UniqueIds(products)
    requires CatalogueChecksPass(products, inv, items)
    ensures CartOrderable(products, inv, items)
  {
    var found := Requested(products, ProductIds(items));
    ExistenceCheck(products, items);
    NoShortagesIff(items, inv, found);
    forall i | 0 <= i < |items| ensures Orderable(products, inv, items[i]) {
      assert items[i].productId in TableIds(products);
      var p :| p in products && p.id == items[i].productId;
      assert ProductIds(items)[i] == p.id;
      assert p in found;
    }
  }

  /** On a table keyed by id, the handler accepts a request exactly when it is a POST
      with every required field, the product and stock queries succeed, no product is on
      two lines, and every line is for an existing, active product with enough stock. */
  lemma AcceptedIff(m: HttpMethod, req: CheckoutRequest, products: seq<Product>,
                    inv: map<ProductId, int>, rules: seq<ShippingRule>,
                    caller: Option<UserId>, f: CreateFaults)
    requires UniqueIds(products)
    ensures Prepare(m, req, products, inv, rules, caller, f).Ok? <==>
      m == Post && RequestComplete(req) && !f.productsQuery && !f.inventoryQuery
      && CartOrderable(products, inv, req.items.value)
  {
    if m == Post && RequestComplete(req) && !f.productsQuery && !f.inventoryQuery {
      var items := req.items.value;
      if CartOrderable(products, inv, items) {
        ChecksFromOrderable(products, inv, items);
      } else if CatalogueChecksPass(products, inv, items) {
        OrderableFromChecks(products, inv, items);
      }
    }
  }

  /** A draft priced line by line from the catalogue: one line per cart line, each at
      its active product's price, the total being the lines' sum plus shipping. */
  predicate PricedFromCatalogue(d: Draft, items: seq<CartLine>, products: seq<Product>) {
    && |d.lines| == |items|
    && d.subtotal == LinesTotal(d.lines)
    && d.totalAmount == d.subtotal + d.shippingCost
    && forall i :: 0 <= i < |items| ==>
         d.lines[i].productId == items[i].productId && d.lines[i].quantity == items[i].quantity
         && d.lines[i].subtotal == d.lines[i].productPrice * d.lines[i].quantity
         && exists p :: (p in products && p.id == items[i].productId && p.isActive
                         && p.price == d.lines[i].productPrice && p.name == d.lines[i].productName)
  }

  /** On a table keyed by id, an accepted order is priced from the catalogue and
      carries the caller's identity. */
  lemma AcceptedPricing(m: HttpMethod, req: CheckoutRequest, products: seq<Product>,
                        inv: map<ProductId, int>, rules: seq<ShippingRule>,
                        caller: Option<UserId>, f: CreateFaults)
    requires UniqueIds(products)
    requires Prepare(m, req, products, inv, rules, caller, f).Ok?
    ensures PricedFromCatalogue(Prepare(m, req, products, inv, rules, caller, f).value, req.items.value, products)
    ensures Prepare(m, req, products, inv, rules, caller, f).value.userId == caller
  {
    PreparedDraft(m, req, products, inv, rules, caller, f);
    PricedFromRows(products, req.items.value, req, rules, caller, f.shippingQuery);
  }

  /** An accepted request passed every check on the rows read, and its draft is the
      priced cart. */
  lemma PreparedDraft(m: HttpMethod, req: CheckoutRequest, products: seq<Product>,
                      inv: map<ProductId, int>, rules: seq<ShippingRule>,
                      caller: Option<UserId>, f: CreateFaults)
    requires Prepare(m, req, products, inv, rules, caller, f).Ok?
    ensures req.items.Some?
    ensures var found := Requested(products, ProductIds(req.items.value));
      && |found| == |req.items.value| && InactiveNames(found) == []
      && Prepare(m, req, products, inv, rules, caller, f)
         == Ok(Priced(req.items.value, found, req, rules, caller, f.shippingQuery))
  {
  }

  lemma PricedFromRows(products: seq<Product>, items: seq<CartLine>, req: CheckoutRequest,
                       rules: seq<ShippingRule>, caller: Option<UserId>, shippingFailed: bool)
    requires UniqueIds(products)
    requires |Requested(products, ProductIds(items))| == |items|
    requires InactiveNames(Requested(products, ProductIds(items))) == []
    ensures PricedFromCatalogue(Priced(items, Requested(products, ProductIds(items)), req, rules, caller, shippingFailed),
                                items, products)
  {
    var found := Requested(products, ProductIds(items));
    FoundAfterExistence(products, items);
    LinesWhenAllFound(items, found);
    var d := Priced(items, found, req, rules, caller, shippingFailed);
    forall i | 0 <= i < |items|
      ensures d.lines[i].subtotal == d.lines[i].productPrice * d.lines[i].quantity
      ensures exists p :: (p in products && p.id == items[i].productId && p.isActive
                           && p.price == d.lines[i].productPrice && p.name == d.lines[i].productName)
    {
      assert d.lines[i] in d.lines;
      var p := LastWithId(found, items[i].productId).value;
      assert p in found && p in products && p.isActive;
    }
  }

  /** The caller's identity only fills in `user_id`: it never changes whether or how
      an order is accepted or rejected. */
  lemma CallerOnlyFillsUserId(m: HttpMethod, req: CheckoutRequest, products: seq<Product>,
                              inv: map<ProductId, int>, rules: seq<ShippingRule>,
                              c1: Option<UserId>, c2: Option<UserId>, f: CreateFaults)
    ensures var r1 := Prepare(m, req, products, inv, rules, c1, f);
      var r2 := Prepare(m, req, products, inv, rules, c2, f);
      && (r1.Ok? <==> r2.Ok?)
      && (!r1.Ok? ==> r1 == r2)
      && (r1.Ok? ==> r1.value.(userId := c2) == r2.value)
  {
    if m == Post && CheckRequest(req).None? && !f.productsQuery {
      var items := req.items.value;
      var found := Requested(products, ProductIds(items));
      assert Prepare(m, req, products, inv, rules, c1, f) == Screen(items, found, req, inv, rules, c1, f);
      assert Prepare(m, req, products, inv, rules, c2, f) == Screen(items, found, req, inv, rules, c2, f);
      ScreenIgnoresCaller(items, found, req, inv, rules, c1, c2, f);
    }
  }

  lemma ScreenIgnoresCaller(items: seq<CartLine>, found: seq<Product>, req: CheckoutRequest,
                            inv: map<ProductId, int>, rules: seq<ShippingRule>,
                            c1: Option<UserId>, c2: Option<UserId>, f: CreateFaults)
    ensures var r1 := Screen(items, found, req, inv, rules, c1, f);
      var r2 := Screen(items, found, req, inv, rules, c2, f);
      && (r1.Ok? <==> r2.Ok?)
      && (!r1.Ok? ==> r1 == r2)
      && (r1.Ok? ==> r1.value.(userId := c2) == r2.value)
  {
  }

  // ---------------------------------------------------------------- writing

  /** The order row inserted: a pending transfer order under the generated id and code,
      for the draft's total, with the customer's fields and the proof URL. */
  function NewOrder(req: CheckoutRequest, d: Draft, gen: NewOrderValues): (o: Order)
    ensures o.id == gen.orderId && o.trackingCode == gen.trackingCode && o.createdAt == gen.createdAt
    ensures o.status == Pending && o.paymentMethod == "transfer" && o.totalAmount == d.totalAmount
    ensures o.userId == d.userId && o.notes == d.notes && o.paymentProofUrl == Some(req.paymentProofUrl)
    ensures o.customerName == req.customerName && o.customerEmail == req.customerEmail
    ensures o.customerPhone.None? <==> req.customerPhone == ""
    ensures o.customerPhone.Some? ==> o.customerPhone.value == req.customerPhone
  {
    Order(gen.orderId, gen.trackingCode, d.userId, req.customerName, req.customerEmail,
          if req.customerPhone == "" then None else Some(req.customerPhone),
          "transfer", Some(req.paymentProofUrl), d.totalAmount, Pending, d.notes, gen.createdAt)
  }

  function Stamp(lines: seq<Line>, orderId: OrderId): (r: seq<OrderItem>)
    ensures |r| == |lines|
    ensures forall i :: 0 <= i < |lines| ==>
      r[i].orderId == orderId && r[i].productId == lines[i].productId
      && r[i].productName == lines[i].productName && r[i].productSku == lines[i].productSku
      && r[i].productPrice == lines[i].productPrice && r[i].quantity == lines[i].quantity
      && r[i].subtotal == lines[i].subtotal
  {
    if |lines| == 0 then []
    else
      var l := lines[0];
      [OrderItem(orderId, l.productId, l.productName, l.productSku, l.productPrice, l.quantity, l.subtotal)]
      + Stamp(lines[1..], orderId)
  }

  /** The reply and the two tables after the writes. */
  datatype Outcome = Outcome(reply: Reply<Created>, orders: seq<Order>, orderItems: seq<OrderItem>)

  /** The writes that follow the decision: the order row, then its items; when the
      items cannot be inserted the order row is deleted again. */
  function Commit(plan: Reply<Draft>, req: CheckoutRequest, gen: NewOrderValues, f: CreateFaults,
                  orders: seq<Order>, orderItems: seq<OrderItem>): (out: Outcome)
    ensures out.reply.Ok? <==> plan.Ok? && !f.orderInsert && !f.itemsInsert
    ensures !out.reply.Ok? ==> out.orderItems == orderItems
    ensures !plan.Ok? || f.orderInsert ==> out.orders == orders
    ensures plan.Ok? && !f.orderInsert && f.itemsInsert ==>
      && out.reply == Fail(500, "Error creating order items", NoDetails)
      && out.orders == (if f.compensationDelete then orders + [NewOrder(req, plan.value, gen)]
                        else DeleteOrder(orders + [NewOrder(req, plan.value, gen)], gen.orderId))
    ensures out.reply.Ok? ==>
      && out.orders == orders + [NewOrder(req, plan.value, gen)]
      && out.orderItems == orderItems + Stamp(plan.value.lines, gen.orderId)
      && out.reply.value == Created(gen.trackingCode, gen.orderId, plan.value.subtotal,
                                    plan.value.shippingCost, plan.value.totalAmount)
  {
    match plan
    case Preflight => Outcome(Preflight, orders, orderItems)
    case Fail(status, error, details) => Outcome(Fail(status, error, details), orders, orderItems)
    case Ok(d) =>
      var order := NewOrder(req, d, gen);
      if f.orderInsert then Outcome(Fail(500, "Error creating order", NoDetails), orders, orderItems)
      else if f.itemsInsert then
        Outcome(Fail(500, "Error creating order items", NoDetails),
                if f.compensationDelete then orders + [order] else DeleteOrder(orders + [order], gen.orderId),
                orderItems)
      else
        Outcome(Ok(Created(gen.trackingCode, gen.orderId, d.subtotal, d.shippingCost, d.totalAmount)),
                orders + [order], orderItems + Stamp(d.lines, gen.orderId))
  }

  /** The handler.  It never touches the catalogue, the stock or the bucket. */
  method CreateOrderHandler(db: Backend, m: HttpMethod, req: CheckoutRequest, authHeader: Option<string>,
                            sessions: map<string, UserId>, gen: NewOrderValues, f: CreateFaults)
    returns (r: Reply<Created>)
    modifies db
    ensures db.products == old(db.products) && db.inventory == old(db.inventory)
    ensures db.shippingRules == old(db.shippingRules) && db.proofs == old(db.proofs)
    ensures Outcome(r, db.orders, db.orderItems)
      == Commit(Prepare(m, req, old(db.products), old(db.inventory), old(db.shippingRules),
                        ResolveCaller(authHeader, sessions), f),
                req, gen, f, old(db.orders), old(db.orderItems))
  {
    var plan := DecideOrder(m, req, db.products, db.inventory, db.shippingRules,
                            ResolveCaller(authHeader, sessions), f);
    r := WriteOrder(db, plan, req, gen, f);
  }

  /** The writes, as the handler makes them. */
  method WriteOrder(db: Backend, plan: Reply<Draft>, req: CheckoutRequest, gen: NewOrderValues, f: CreateFaults)
    returns (r: Reply<Created>)
    modifies db
    ensures db.products == old(db.products) && db.inventory == old(db.inventory)
    ensures db.shippingRules == old(db.shippingRules) && db.proofs == old(db.proofs)
    ensures Outcome(r, db.orders, db.orderItems) == Commit(plan, req, gen, f, old(db.orders), old(db.orderItems))
  {
    match plan
    case Preflight =>
      r := Preflight;
    case Fail(status, error, details) =>
      r := Fail(status, error, details);
    case Ok(d) =>
      if f.orderInsert {
        return Fail(500, "Error creating order", NoDetails);
      }
      var order := NewOrder(req, d, gen);
      db.orders := db.orders + [order];
      if f.itemsInsert {
        if !f.compensationDelete {
          db.orders := DeleteOrder(db.orders, gen.orderId);
        }
        return Fail(500, "Error creating order items", NoDetails);
      }
      db.orderItems := db.orderItems + Stamp(d.lines, gen.orderId);
      r := Ok(Created(gen.trackingCode, gen.orderId, d.subtotal, d.shippingCost, d.totalAmount));
  }

  /** An order is written with its items or not at all: the items table changes only on
      success, and on any failure the orders table is as before, provided the new id
      was fresh and the compensating delete went through. */
  lemma AllOrNothing(plan: Reply<Draft>, req: CheckoutRequest, gen: NewOrderValues, f: CreateFaults,
                     orders: seq<Order>, orderItems: seq<OrderItem>)
    requires forall o :: o in orders ==> o.id != gen.orderId
    ensures var out := Commit(plan, req, gen, f, orders, orderItems);
      && (out.reply.Ok? <==> plan.Ok? && !f.orderInsert && !f.itemsInsert)
      && (!out.reply.Ok? ==> out.orderItems == orderItems)
      && (!out.reply.Ok? && !f.compensationDelete ==> out.orders == orders)
      && (out.reply.Ok? ==>
            |out.orders| == |orders| + 1 && out.orders[|orders|].id == gen.orderId
            && out.orders[|orders|].status == Pending
            && out.orders[|orders|].totalAmount == out.reply.value.totalAmount
            && out.orderItems[..|orderItems|] == orderItems
            && |out.orderItems| == |orderItems| + |plan.value.lines|
            && forall x :: x in out.orderItems[|orderItems|..] ==> x.orderId == gen.orderId)
  {
    if plan.Ok? && !f.orderInsert {
      var order := NewOrder(req, plan.value, gen);
      if f.itemsInsert && !f.compensationDelete {
        DeleteAppendedOrder(orders, order);
      }
      if !f.itemsInsert {
        var added := Stamp(plan.value.lines, gen.orderId);
        assert (orderItems + added)[|orderItems|..] == added;
        forall x | x in added ensures x.orderId == gen.orderId {
          var k :| 0 <= k < |added| && added[k] == x;
        }
      }
    }
  }
}

=== FILE: image_url.dfy ===
/** The image URL builders: a public storage URL gets resize parameters appended, any
    other URL is used as it is, and a `srcset` lists one resized URL per width. */
module ImageUrl {
  import opened Text
  import opened Records

  /** A requested size; `quality` is left out of the query when absent or zero. */
  datatype ImageSize = ImageSize(width: nat, height: nat, quality: Option<nat>)

  const StorageMarker: string := "supabase.co/storage/v1/object/public/"

  /** `isSupabaseStorageUrl` */
  function IsStorageUrl(url: string): (r: bool)
    ensures r <==> exists i :: OccursAt(url, StorageMarker, i)
  {
    ContainsIffOccurs(url, StorageMarker);
    Contains(url, StorageMarker)
  }

  /** The quality the query carries: none for an absent or zero quality. */
  function QualityOf(size: ImageSize): nat {
    if size.quality.Some? then size.quality.value else 0
  }

  function QualityParam(size: ImageSize): string {
    if QualityOf(size) != 0 then "&quality=" + NatToString(QualityOf(size)) else ""
  }

  /** The query string the builder appends, parameters in the order they are added:
      width, height, resize, then the quality when there is one. */
  function Query(size: ImageSize): string {
    "width=" + NatToString(size.width) + "&" + AfterWidth(size)
  }

  function AfterWidth(size: ImageSize): string {
    "height=" + NatToString(size.height) + "&" + AfterHeight(size)
  }

  function AfterHeight(size: ImageSize): string {
    "resize=cover" + QualityParam(size)
  }

  /** `getOptimizedImageUrl` */
  function OptimizedUrl(url: string, size: ImageSize): (r: string)
    ensures url == "" ==> r == ""
    ensures url != "" && !IsStorageUrl(url) ==> r == url
    ensures url != "" && IsStorageUrl(url) ==> r == url + "?" + Query(size)
  {
    if url == "" then ""
    else if IsStorageUrl(url) then url + "?" + Query(size)
    else url
  }

  /** Cutting at the first separator: two strings that agree once each is cut at its
      first `c` agree piece by piece. */
  lemma CutAtFirst(a: string, x: string, b: string, y: string, c: char)
    requires Free(a, c) && Free(b, c)
    requires a + [c] + x == b + [c] + y
    ensures a == b && x == y
  {
    SplitAppend(a, c, x);
    SplitAppend(b, c, y);
    SplitFree(a, c);
    SplitFree(b, c);
    var parts := Split(a + [c] + x, c);
    assert parts == [a] + Split(x, c) && parts == [b] + Split(y, c);
    assert parts[1..] == Split(x, c) && parts[1..] == Split(y, c);
    JoinSplit(x, c);
    JoinSplit(y, c);
  }

  lemma DigitsFree(n: nat, c: char)
    requires !IsDigit(c)
    ensures Free(NatToString(n), c)
  {
  }

  /** A number followed by `&` and more: the number and the rest can be read back. */
  lemma NumberThenRest(key: string, m: nat, x: string, n: nat, y: string)
    requires key + NatToString(m) + "&" + x == key + NatToString(n) + "&" + y
    ensures m == n && x == y
  {
    var a, b := NatToString(m), NatToString(n);
    assert a + ['&'] + x == (key + a + "&" + x)[|key|..];
    assert b + ['&'] + y == (key + b + "&" + y)[|key|..];
    DigitsFree(m, '&');
    DigitsFree(n, '&');
    CutAtFirst(a, x, b, y, '&');
    NatToStringInjective(m, n);
  }

  lemma QualityParamInjective(s1: ImageSize, s2: ImageSize)
    requires QualityParam(s1) == QualityParam(s2)
    ensures QualityOf(s1) == QualityOf(s2)
  {
    var q1, q2 := QualityParam(s1), QualityParam(s2);
    if QualityOf(s1) != 0 && QualityOf(s2) != 0 {
      assert q1[9..] == NatToString(QualityOf(s1));
      assert q2[9..] == NatToString(QualityOf(s2));
      NatToStringInjective(QualityOf(s1), QualityOf(s2));
    }
  }

  /** The query determines the size it was built from: width, height and quality. */
  lemma QueryInjective(s1: ImageSize, s2: ImageSize)
    requires Query(s1) == Query(s2)
    ensures s1.width == s2.width && s1.height == s2.height && QualityOf(s1) == QualityOf(s2)
  {
    NumberThenRest("width=", s1.width, AfterWidth(s1), s2.width, AfterWidth(s2));
    NumberThenRest("height=", s1.height, AfterHeight(s1), s2.height, AfterHeight(s2));
    assert QualityParam(s1) == AfterHeight(s1)[12..];
    assert QualityParam(s2) == AfterHeight(s2)[12..];
    QualityParamInjective(s1, s2);
  }

  /** For a storage URL, different sizes (up to an absent or zero quality) give different
      URLs, and the original URL is the part before the "?". */
  lemma OptimizedUrlKeepsSize(url: string, s1: ImageSize, s2: ImageSize)
    requires url != "" && IsStorageUrl(url)
    requires OptimizedUrl(url, s1) == OptimizedUrl(url, s2)
    ensures s1.width == s2.width && s1.height == s2.height && QualityOf(s1) == QualityOf(s2)
    ensures OptimizedUrl(url, s1)[..|url|] == url
  {
    assert Query(s1) == OptimizedUrl(url, s1)[|url| + 1..];
    assert Query(s2) == OptimizedUrl(url, s2)[|url| + 1..];
    QueryInjective(s1, s2);
  }

  /** One `srcset` entry: the resized URL and its width descriptor. */
  function Entry(url: string, size: ImageSize): string {
    OptimizedUrl(url, size) + " " + NatToString(size.width) + "w"
  }

  function Entries(url: string, sizes: seq<ImageSize>): (r: seq<string>)
    ensures |r| == |sizes|
    ensures forall i :: 0 <= i < |sizes| ==> r[i] == Entry(url, sizes[i])
  {
    if |sizes| == 0 then [] else [Entry(url, sizes[0])] + Entries(url, sizes[1..])
  }

  const EntrySeparator: string := ", "

  /** `generateSrcSet` */
  function SrcSet(url: string, sizes: seq<ImageSize>): (r: string)
    ensures url == "" ==> r == ""
    ensures url != "" && !IsStorageUrl(url) ==> r == url
  {
    if url == "" then ""
    else if IsStorageUrl(url) then Join(Entries(url, sizes), EntrySeparator)
    else url
  }

  lemma {:induction false} JoinSnoc(parts: seq<string>, last: string, sep: string)
    requires |parts| > 0
    ensures Join(parts + [last], sep) == Join(parts, sep) + sep + last
  {
    if |parts| == 1 {
      assert (parts + [last])[1..] == [last];
    } else {
      assert (parts + [last])[1..] == parts[1..] + [last];
      JoinSnoc(parts[1..], last, sep);
    }
  }

  lemma EntriesSnoc(url: string, sizes: seq<ImageSize>, size: ImageSize)
    ensures Entries(url, sizes + [size]) == Entries(url, sizes) + [Entry(url, size)]
  {
  }

  /** For a storage URL the `srcset` holds one entry per size, in order: a single size
      gives its entry alone, and each further size adds ", " and its entry at the end. */
  lemma SrcSetEntries(url: string, sizes: seq<ImageSize>, size: ImageSize)
    requires url != "" && IsStorageUrl(url)
    ensures SrcSet(url, [size]) == Entry(url, size)
    ensures |sizes| > 0 ==> SrcSet(url, sizes + [size]) == SrcSet(url, sizes) + EntrySeparator + Entry(url, size)
  {
    EntriesSnoc(url, sizes, size);
    if |sizes| > 0 {
      JoinSnoc(Entries(url, sizes), Entry(url, size), EntrySeparator);
    }
  }
}

=== FILE: lifecycle.dfy ===
/** How the edge functions fit together over the life of one order: created, tracked,
    given a proof, cancelled. */
module Lifecycle {
  import opened Text
  import opened Records
  import opened CreateOrder
  import opened CancelOrder
  import opened UploadProof
  import opened TrackOrder

  /** No backend call fails. */
  const NoCreateFaults := CreateFaults(false, false, false, false, false, false)
  const NoCancelFaults := CancelFaults(false, false, RestoreFaults({}, {}), false, false, false)
  const NoUploadFaults := UploadFaults(false, false, false, false)
  const NoTrackFaults := TrackFaults(false, false)

  /** Taking the last two "/"-separated pieces of `prefix/folder/rest` gives back
      `folder/rest`. */
  lemma LastTwoPieces(prefix: string, folder: string, rest: string)
    requires Free(folder, '/') && Free(rest, '/')
    ensures ProofPath(prefix + ['/'] + (folder + ['/'] + rest)) == folder + ['/'] + rest
  {
    SplitAppend(prefix, '/', folder + ['/'] + rest);
    SplitAppend(folder, '/', rest);
    SplitFree(folder, '/');
    SplitFree(rest, '/');
    var parts := Split(prefix, '/') + [folder, rest];
    assert Split(prefix + ['/'] + (folder + ['/'] + rest), '/') == parts;
    assert LastTwo(parts) == [folder, rest];
    assert [folder, rest][1..] == [rest];
    assert Join([folder, rest], "/") == folder + "/" + rest;
  }

  /** The path cancel-order takes from the public URL is the path upload-payment-proof
      wrote, whatever the project URL, as long as the tracking code and the extension
      hold no "/". */
  lemma ProofPathRoundTrip(projectUrl: string, code: string, ext: string)
    requires Free(code, '/') && Free(ext, '/')
    ensures ProofPath(PublicUrl(projectUrl, ProofObjectPath(code, ext))) == ProofObjectPath(code, ext)
  {
    var prefix := projectUrl + "/storage/v1/object/public/" + ProofBucket;
    var rest := code + "." + ext;
    var folder := ProofFolder;
    assert Free(rest, '/') by {
      assert forall i :: 0 <= i < |rest| ==> rest[i] in code || rest[i] == '.' || rest[i] in ext;
    }
    assert ProofObjectPath(code, ext) == folder + ['/'] + rest;
    assert PublicUrl(projectUrl, ProofObjectPath(code, ext)) == prefix + ['/'] + (folder + ['/'] + rest);
    LastTwoPieces(prefix, folder, rest);
  }

  /** Cancelling an order whose proof was uploaded removes that very object from the
      bucket. */
  lemma CancelRemovesUploadedProof(o: Order, req: UploadRequest, projectUrl: string,
                                   orders: seq<Order>, t: Tables)
    requires Free(o.trackingCode, '/') && Free(FileExtension(req.fileName), '/')
    requires Uploading(Ok(o), req, NoUploadFaults, projectUrl, orders, t.proofs).reply.Ok?
    ensures var up := Uploading(Ok(o), req, NoUploadFaults, projectUrl, orders, t.proofs);
      var path := ProofObjectPath(o.trackingCode, FileExtension(req.fileName));
      && path in up.proofs
      && path !in Cancellation(Ok(o.(paymentProofUrl := Some(up.reply.value))), o.id, NoCancelFaults,
                               t.(proofs := up.proofs)).tables.proofs
  {
    var ext := FileExtension(req.fileName);
    var path := ProofObjectPath(o.trackingCode, ext);
    var up := Uploading(Ok(o), req, NoUploadFaults, projectUrl, orders, t.proofs);
    SuccessSetsOnlyProofUrl(Ok(o), req, NoUploadFaults, projectUrl, orders, t.proofs);
    ProofPathRoundTrip(projectUrl, o.trackingCode, ext);
    var url := up.reply.value;
    assert url == PublicUrl(projectUrl, path) && ProofPath(url) == path;
    assert |url| > 0;
    CancelRemovesProofObject(o.(paymentProofUrl := Some(url)), o.id, NoCancelFaults, t.(proofs := up.proofs), url);
  }

  /** A file name with "/" after its last "." breaks the round trip: "a.png/x" gets the
      extension "png/x", the proof is stored at "transferencias/C.png/x", and cancel-order
      cuts "C.png/x" from its URL, so it removes an object that does not exist and the
      stored proof stays in the bucket. */
  lemma SlashedNameStrandsProof(projectUrl: string)
    ensures FileExtension("a.png/x") == "png/x"
    ensures var path := ProofObjectPath("C", FileExtension("a.png/x"));
      && path == "transferencias/C.png/x"
      && ProofPath(PublicUrl(projectUrl, path)) == "C.png/x"
      && ProofPath(PublicUrl(projectUrl, path)) != path
  {
    SlashedExtension();
    SlashedPath(projectUrl);
  }

  lemma SlashedExtension()
    ensures FileExtension("a.png/x") == "png/x"
  {
    assert "a" + "." + "png/x" == "a.png/x";
    ExtensionAfterLastDot("a", "png/x");
    assert ToLower("png/x") == "png/x";
  }

  lemma SlashedPath(projectUrl: string)
    ensures ProofObjectPath("C", "png/x") == "transferencias/C.png/x"
    ensures ProofPath(PublicUrl(projectUrl, "transferencias/C.png/x")) == "C.png/x"
  {
    var prefix := projectUrl + "/storage/v1/object/public/" + ProofBucket + "/" + ProofFolder;
    assert PublicUrl(projectUrl, "transferencias/C.png/x") == prefix + ['/'] + ("C.png" + ['/'] + "x");
    LastTwoPieces(prefix, "C.png", "x");
  }

  /** A create with no failures appends the order row and its item snapshots. */
  lemma CommitAppends(plan: Reply<Draft>, req: CheckoutRequest, gen: NewOrderValues,
                      orders: seq<Order>, orderItems: seq<OrderItem>)
    requires plan.Ok?
    ensures var c := Commit(plan, req, gen, NoCreateFaults, orders, orderItems);
      && c.reply.Ok?
      && c.orders == orders + [NewOrder(req, plan.value, gen)]
      && c.orderItems == orderItems + Stamp(plan.value.lines, gen.orderId)
  {
  }

  /** The items of a newly created order are exactly its snapshots, when no older row
      carries its id. */
  lemma NewOrderItems(orderItems: seq<OrderItem>, lines: seq<Line>, id: OrderId)
    requires forall x :: x in orderItems ==> x.orderId != id
    ensures ItemsOfOrder(orderItems + Stamp(lines, id), id) == Stamp(lines, id)
  {
    var stamped := Stamp(lines, id);
    ItemsOfOrderAppend(orderItems, stamped, id);
    ItemsOfOrderNone(orderItems, id);
    ItemsOfOrderAll(stamped, id);
  }

  /** create-order never takes stock and cancel-order gives back what the order held, so
      creating an order and cancelling it leaves more stock than there was: every
      product with an inventory row gains the quantity the order held of it. */
  lemma CreateThenCancelAddsStock(plan: Reply<Draft>, req: CheckoutRequest, gen: NewOrderValues,
                                  db: Tables, created: Outcome, after: CancelOutcome, p: ProductId)
    requires plan.Ok?
    requires forall x :: x in db.orderItems ==> x.orderId != gen.orderId
    requires p in db.inventory
    requires created == Commit(plan, req, gen, NoCreateFaults, db.orders, db.orderItems)
    requires after == Cancellation(Ok(NewOrder(req, plan.value, gen)), gen.orderId, NoCancelFaults,
                                   db.(orders := created.orders, orderItems := created.orderItems))
    ensures created.reply.Ok? && after.reply.Ok?
    ensures p in after.tables.inventory
    ensures after.tables.inventory[p] == db.inventory[p] + SumQty(Stamp(plan.value.lines, gen.orderId), p)
  {
    CommitAppends(plan, req, gen, db.orders, db.orderItems);
    NewOrderItems(db.orderItems, plan.value.lines, gen.orderId);
    CancelSuccess(Ok(NewOrder(req, plan.value, gen)), gen.orderId, NoCancelFaults,
                  db.(orders := created.orders, orderItems := created.orderItems));
    CancelRestoresQuantities(Ok(NewOrder(req, plan.value, gen)), gen.orderId, NoCancelFaults,
                             db.(orders := created.orders, orderItems := created.orderItems), p);
  }

  /** A single-line order of `n > 0` units: after create and cancel the product has `n`
      more units than before either. */
  lemma CreateThenCancelInflates(plan: Reply<Draft>, req: CheckoutRequest, gen: NewOrderValues,
                                 db: Tables, created: Outcome, after: CancelOutcome, l: Line)
    requires plan.Ok? && plan.value.lines == [l] && l.quantity > 0
    requires forall x :: x in db.orderItems ==> x.orderId != gen.orderId
    requires l.productId in db.inventory
    requires created == Commit(plan, req, gen, NoCreateFaults, db.orders, db.orderItems)
    requires after == Cancellation(Ok(NewOrder(req, plan.value, gen)), gen.orderId, NoCancelFaults,
                                   db.(orders := created.orders, orderItems := created.orderItems))
    ensures l.productId in after.tables.inventory
    ensures after.tables.inventory[l.productId] == db.inventory[l.productId] + l.quantity
  {
    CreateThenCancelAddsStock(plan, req, gen, db, created, after, l.productId);
    var stamped := Stamp(plan.value.lines, gen.orderId);
    assert stamped[..0] == [];
    assert SumQty(stamped, l.productId) == l.quantity;
  }

  /** The code of a newly created order finds that order alone, when no older order
      has the code. */
  lemma NewOrderFoundByCode(orders: seq<Order>, order: Order)
    requires forall o :: o in orders ==> o.trackingCode != order.trackingCode
    ensures OrdersWithCode(orders + [order], order.trackingCode) == [order]
  {
    OrdersWithCodeAppend(orders, [order], order.trackingCode);
    NoOrderWithCode(orders, order.trackingCode);
  }

  /** Right after a successful create, the tracking page finds the order by its code,
      typed in any letter case and with any white space around it, and shows it pending,
      at the total charged, with exactly the item snapshots taken at creation. */
  lemma TrackAfterCreate(plan: Reply<Draft>, req: CheckoutRequest, gen: NewOrderValues,
                         orders: seq<Order>, orderItems: seq<OrderItem>, created: Outcome,
                         w1: string, typed: string, w2: string, r: Reply<Tracking>)
    requires plan.Ok?
    requires LookupKey(gen.trackingCode) == gen.trackingCode && !AllSpace(gen.trackingCode)
    requires forall o :: o in orders ==> o.trackingCode != gen.trackingCode
    requires forall x :: x in orderItems ==> x.orderId != gen.orderId
    requires AllSpace(w1) && AllSpace(w2) && ToLower(typed) == ToLower(gen.trackingCode)
    requires created == Commit(plan, req, gen, NoCreateFaults, orders, orderItems)
    requires r == Track(Post, Str(w1 + typed + w2), created.orders, created.orderItems, NoTrackFaults)
    ensures created.reply.Ok? && r.Ok?
    ensures r.value.trackingCode == gen.trackingCode && r.value.status == Pending
    ensures r.value.totalAmount == created.reply.value.totalAmount
    ensures |r.value.items| == |plan.value.lines|
    ensures forall i :: 0 <= i < |plan.value.lines| ==>
      var l := plan.value.lines[i];
      r.value.items[i] == TrackedItem(l.productName, l.quantity, l.productPrice)
  {
    var order := NewOrder(req, plan.value, gen);
    var stamped := Stamp(plan.value.lines, gen.orderId);
    CommitAppends(plan, req, gen, orders, orderItems);
    assert created.orders == orders + [order];
    assert created.orderItems == orderItems + stamped;
    NewOrderFoundByCode(orders, order);
    assert OrdersWithCode(created.orders, gen.trackingCode) == [order];
    NewOrderItems(orderItems, plan.value.lines, gen.orderId);
    assert ItemsOfOrder(created.orderItems, order.id) == stamped;
    CodeReadLoosely(w1, typed, w2, gen.trackingCode, created.orders, created.orderItems, NoTrackFaults);
    assert r == Track(Post, Str(gen.trackingCode), created.orders, created.orderItems, NoTrackFaults);
    FindsTheOrder(gen.trackingCode, order, created.orders, created.orderItems);
    assert r.value.items == Project(stamped);
    ShownSnapshots(plan.value.lines, gen.orderId);
  }

  /** The tracking page shows each stamped row as its line's name, quantity and price. */
  lemma ShownSnapshots(lines: seq<Line>, id: OrderId)
    ensures |Project(Stamp(lines, id))| == |lines|
    ensures forall i :: 0 <= i < |lines| ==>
      Project(Stamp(lines, id))[i] == TrackedItem(lines[i].productName, lines[i].quantity, lines[i].productPrice)
  {
  }
}

=== FILE: product_detail.dfy ===
/** The product detail modal: the stock badge, the quantity stepper bounded by the
    stock, and the add-to-cart button.  The modal stays mounted while products come
    and go, so its quantity is kept from one product to the next. */
module ProductDetail {
  import opened Records
  import opened Cart
  import opened Storefront

  /** The most units the stepper offers, whatever the stock. */
  const StepperCap: int := 99

  /** `inStock`: there is an inventory row (`stock` is its quantity) with units left. */
  predicate InStock(stock: Option<int>) {
    stock.Some? && stock.value > 0
  }

  /** `stockCount`: the row's quantity, or 0 without a row. */
  function StockCount(stock: Option<int>): (r: int)
    ensures stock.None? ==> r == 0
    ensures stock.Some? ==> r == stock.value
    ensures InStock(stock) <==> r > 0
  {
    if stock.None? then 0 else stock.value
  }

  /** `maxQuantity`: the stock, capped at 99. */
  function MaxQuantity(stock: Option<int>): (r: int)
    ensures r <= StepperCap && r <= StockCount(stock)
    ensures r == StepperCap || r == StockCount(stock)
    ensures InStock(stock) ==> 1 <= r
  {
    if StockCount(stock) <= StepperCap then StockCount(stock) else StepperCap
  }

  /** The quantity the plus button sets: one more, but never past `maxQuantity`. */
  function Raised(quantity: int, max: int): (r: int)
    ensures r <= max && r <= quantity + 1
    ensures r == max || r == quantity + 1
  {
    if max <= quantity + 1 then max else quantity + 1
  }

  /** Starting from a quantity the stepper allows, both buttons keep it between 1 and
      `maxQuantity`; and minus undoes plus below the bound. */
  lemma StepperBounds(stock: Option<int>, quantity: int)
    requires InStock(stock) && 1 <= quantity <= MaxQuantity(stock)
    ensures 1 <= Decremented(quantity) <= MaxQuantity(stock)
    ensures 1 <= Raised(quantity, MaxQuantity(stock)) <= MaxQuantity(stock)
    ensures quantity < MaxQuantity(stock) ==> Decremented(Raised(quantity, MaxQuantity(stock))) == quantity
  {
  }

  /** `handleAddToCart`: the line handed to the store, only when in stock. */
  function Added(product: Product, stock: Option<int>, quantity: int): (r: Option<CartItem>)
    ensures r.Some? <==> InStock(stock)
    ensures r.Some? ==> r.value.product == product && r.value.quantity == quantity
  {
    if InStock(stock) then Some(CartItem(product, quantity)) else None
  }

  /** The stepper bounds one addition, not what the cart holds: with the stock already
      in the cart the modal still adds more, past the stock. */
  lemma CartCanExceedStock(cart: seq<CartItem>, product: Product, stock: int)
    requires UniqueLines(cart) && stock > 0 && QuantityOf(cart, product.id) == stock
    ensures Added(product, Some(stock), 1) == Some(CartItem(product, 1))
    ensures QuantityOf(WithAdded(cart, product, 1), product.id) == stock + 1
  {
    AddedQuantities(cart, product, 1, product.id);
  }

  class ProductModal {
    /** The selected product (`None`: the modal renders nothing) and its inventory
        quantity (`None`: no inventory row). */
    var product: Option<Product>
    var stock: Option<int>
    var quantity: int

    predicate Valid()
      reads this
    {
      quantity >= 1
    }

    constructor ()
      ensures Valid() && product == None && stock == None && quantity == 1
    {
      product := None;
      stock := None;
      quantity := 1;
    }

    /** Selecting a product shows it; the chosen quantity is not reset. */
    method Show(p: Product, inventory: Option<int>)
      requires Valid()
      modifies this
      ensures Valid()
      ensures product == Some(p) && stock == inventory && quantity == old(quantity)
    {
      product := Some(p);
      stock := inventory;
    }

    method Close()
      requires Valid()
      modifies this
      ensures Valid()
      ensures product == None && stock == old(stock) && quantity == old(quantity)
    {
      product := None;
    }

    /** The minus button; the stepper is only shown for a product in stock. */
    method Decrease()
      requires Valid() && product.Some? && InStock(stock)
      modifies this
      ensures Valid()
      ensures quantity == Decremented(old(quantity))
      ensures quantity <= MaxQuantity(stock) <== old(quantity) <= MaxQuantity(stock)
      ensures product == old(product) && stock == old(stock)
    {
      quantity := Decremented(quantity);
    }

    /** The plus button. */
    method Increase()
      requires Valid() && product.Some? && InStock(stock)
      modifies this
      ensures Valid()
      ensures quantity == Raised(old(quantity), MaxQuantity(stock))
      ensures quantity <= MaxQuantity(stock)
      ensures product == old(product) && stock == old(stock)
    {
      quantity := Raised(quantity, MaxQuantity(stock));
    }

    /** The add button: hands the line to the store and closes the modal, only when
        the product is in stock; `line` is what `onAddToCart` receives. */
    method AddToCart() returns (line: Option<CartItem>)
      requires Valid() && product.Some?
      modifies this
      ensures Valid()
      ensures line == Added(old(product).value, stock, quantity)
      ensures product == (if line.Some? then None else old(product))
      ensures stock == old(stock) && quantity == old(quantity)
    {
      line := Added(product.value, stock, quantity);
      if line.Some? {
        product := None;
      }
    }
  }

  /** The quantity chosen for one product is carried to the next: chosen up to 5 for a
      product with 10 in stock, then added for a product with 2 in stock, it is added
      as 5. */
  method QuantityCarriesOver(a: Product, b: Product) returns (line: Option<CartItem>)
    ensures line == Some(CartItem(b, 5))
    ensures 5 > MaxQuantity(Some(2))
  {
    var modal := new ProductModal();
    modal.Show(a, Some(10));
    modal.Increase();
    modal.Increase();
    modal.Increase();
    modal.Increase();
    modal.Close();
    modal.Show(b, Some(2));
    line := modal.AddToCart();
  }
}

=== FILE: records.dfy ===
/** The rows of the storefront's backend tables, the replies the edge functions
    send, and the backend itself as a mutable store.  Money is kept in integer
    cents; an empty string stands for a missing (falsy) text field. */
module Records {
  import opened Text

  type ProductId = string
  type OrderId = string
  type UserId = string
  /** An amount of money in cents. */
  type Cents = int

  datatype Option<+T> = None | Some(value: T)

  /** A row of `products`. */
  datatype Product = Product(
    id: ProductId,
    name: string,
    description: string,
    price: Cents,
    sku: string,
    categoryId: string,
    isActive: bool)

  /** A row of `shipping_rules`. */
  datatype ShippingRule = ShippingRule(
    country: string,
    state: string,
    city: string,
    isActive: bool,
    isFree: bool,
    baseCost: Cents)

  datatype Status = Pending | Confirmed | Completed | Cancelled

  /** A row of `orders`. */
  datatype Order = Order(
    id: OrderId,
    trackingCode: string,
    userId: Option<UserId>,
    customerName: string,
    customerEmail: string,
    customerPhone: Option<string>,
    paymentMethod: string,
    paymentProofUrl: Option<string>,
    totalAmount: Cents,
    status: Status,
    notes: string,
    createdAt: nat)

  /** A row of `order_items`: a snapshot of the product taken when the order was placed. */
  datatype OrderItem = OrderItem(
    orderId: OrderId,
    productId: ProductId,
    productName: string,
    productSku: string,
    productPrice: Cents,
    quantity: int,
    subtotal: Cents)

  /** An object of the `transfer-proofs` storage bucket. */
  datatype StoredFile = StoredFile(data: string, contentType: string)

  datatype HttpMethod = Options | Get | Post | OtherMethod(name: string)

  /** One entry of the "Insufficient stock" details. */
  datatype StockShortage = StockShortage(product: Option<string>, requested: int, available: int)

  datatype ErrorDetails =
    | NoDetails
    | ProductNames(names: seq<string>)
    | StockDetails(shortages: seq<StockShortage>)

  /** What an edge function answers: the CORS preflight, a 200 with its payload,
      or an error status with the `error` text (and details where the handler adds them). */
  datatype Reply<+T> =
    | Preflight
    | Ok(value: T)
    | Fail(status: nat, error: string, details: ErrorDetails)

  /** The method gate shared by the edge functions: OPTIONS is answered with the
      preflight, anything but POST with 405; `None` lets a POST through. */
  function MethodGate<T>(m: HttpMethod): (r: Option<Reply<T>>)
    ensures r == None <==> m == Post
    ensures m == Options ==> r == Some(Preflight)
    ensures m != Options && m != Post ==> r == Some(Fail(405, "Method not allowed", NoDetails))
  {
    if m == Options then Some(Preflight)
    else if m != Post then Some(Fail(405, "Method not allowed", NoDetails))
    else None
  }

  /** The outcome of a `.maybeSingle()` query: more than one matching row is an error. */
  datatype Lookup<+T> = LookupError | NotFound | Found(row: T)

  function MaybeSingle<T>(rows: seq<T>): (r: Lookup<T>)
    ensures r.NotFound? <==> |rows| == 0
    ensures r.Found? <==> |rows| == 1
    ensures r.Found? ==> r.row == rows[0]
  {
    if |rows| == 0 then NotFound else if |rows| == 1 then Found(rows[0]) else LookupError
  }

  /** `orders` rows whose id is `id`, in table order. */
  function OrdersWithId(orders: seq<Order>, id: OrderId): (r: seq<Order>)
    ensures forall o :: o in r <==> o in orders && o.id == id
    ensures |r| <= |orders|
  {
    if |orders| == 0 then []
    else (if orders[0].id == id then [orders[0]] else []) + OrdersWithId(orders[1..], id)
  }

  lemma NoOrderWithId(orders: seq<Order>, id: OrderId)
    requires forall o :: o in orders ==> o.id != id
    ensures OrdersWithId(orders, id) == []
  {
  }

  /** `orders` after `.delete().eq("id", id)`. */
  function DeleteOrder(orders: seq<Order>, id: OrderId): (r: seq<Order>)
    ensures forall o :: o in r <==> o in orders && o.id != id
    ensures |r| <= |orders|
  {
    if |orders| == 0 then []
    else (if orders[0].id != id then [orders[0]] else []) + DeleteOrder(orders[1..], id)
  }

  lemma {:induction false} DeleteAbsentOrder(orders: seq<Order>, id: OrderId)
    requires forall o :: o in orders ==> o.id != id
    ensures DeleteOrder(orders, id) == orders
  {
    if |orders| > 0 {
      DeleteAbsentOrder(orders[1..], id);
      assert [orders[0]] + orders[1..] == orders;
    }
  }

  /** Deleting a row that was just appended under a fresh id restores the table. */
  lemma {:induction false} DeleteAppendedOrder(orders: seq<Order>, o: Order)
    requires forall x :: x in orders ==> x.id != o.id
    ensures DeleteOrder(orders + [o], o.id) == orders
    decreases |orders|
  {
    if |orders| == 0 {
      assert orders + [o] == [o];
    } else {
      assert (orders + [o])[1..] == orders[1..] + [o];
      DeleteAppendedOrder(orders[1..], o);
      assert [orders[0]] + orders[1..] == orders;
    }
  }

  /** `order_items` rows of order `id`, in table (creation) order. */
  function ItemsOfOrder(items: seq<OrderItem>, id: OrderId): (r: seq<OrderItem>)
    ensures forall x :: x in r <==> x in items && x.orderId == id
    ensures |r| <= |items|
  {
    if |items| == 0 then []
    else (if items[0].orderId == id then [items[0]] else []) + ItemsOfOrder(items[1..], id)
  }

  lemma {:induction false} ItemsOfOrderAppend(a: seq<OrderItem>, b: seq<OrderItem>, id: OrderId)
    ensures ItemsOfOrder(a + b, id) == ItemsOfOrder(a, id) + ItemsOfOrder(b, id)
  {
    if |a| > 0 {
      assert (a + b)[0] == a[0];
      assert (a + b)[1..] == a[1..] + b;
      ItemsOfOrderAppend(a[1..], b, id);
    } else {
      assert a + b == b;
    }
  }

  lemma {:induction false} ItemsOfOrderAll(items: seq<OrderItem>, id: OrderId)
    requires forall x :: x in items ==> x.orderId == id
    ensures ItemsOfOrder(items, id) == items
  {
    if |items| > 0 {
      assert items[0] in items;
      ItemsOfOrderAll(items[1..], id);
      assert [items[0]] + items[1..] == items;
    }
  }

  lemma {:induction false} ItemsOfOrderNone(items: seq<OrderItem>, id: OrderId)
    requires forall x :: x in items ==> x.orderId != id
    ensures ItemsOfOrder(items, id) == []
  {
    if |items| > 0 {
      assert items[0] in items;
      ItemsOfOrderNone(items[1..], id);
    }
  }

  /** `order_items` after `.delete().eq("order_id", id)`. */
  function DeleteItemsOf(items: seq<OrderItem>, id: OrderId): (r: seq<OrderItem>)
    ensures forall x :: x in r <==> x in items && x.orderId != id
    ensures |r| <= |items|
  {
    if |items| == 0 then []
    else (if items[0].orderId != id then [items[0]] else []) + DeleteItemsOf(items[1..], id)
  }

  const BearerPrefix: string := "Bearer "

  /** The caller's identity as the handlers resolve it: an Authorization header that
      starts with "Bearer " carries a token, and the token names a user when the
      identity provider (`sessions`) knows it.  Anything else is an anonymous caller. */
  function ResolveCaller(authHeader: Option<string>, sessions: map<string, UserId>): (r: Option<UserId>)
    ensures r.Some? <==>
      authHeader.Some? && StartsWith(authHeader.value, BearerPrefix)
      && authHeader.value[|BearerPrefix|..] in sessions
    ensures r.Some? ==> r.value == sessions[authHeader.value[|BearerPrefix|..]]
  {
    if authHeader.Some? && StartsWith(authHeader.value, BearerPrefix) then
      var token := authHeader.value[|BearerPrefix|..];
      if token in sessions then Some(sessions[token]) else None
    else None
  }

  const ProofBucket: string := "transfer-proofs"

  /** `getPublicUrl(path)` on the proof bucket of the project at `projectUrl`. */
  function PublicUrl(projectUrl: string, path: string): (url: string)
    ensures |url| > |projectUrl| + |path| && url[..|projectUrl|] == projectUrl
    ensures url[|url| - |path| - 1..] == "/" + path
  {
    projectUrl + "/storage/v1/object/public/" + ProofBucket + "/" + path
  }

  /** The backend the edge functions talk to: its tables and the proof bucket. */
  class Backend {
    var products: seq<Product>
    var inventory: map<ProductId, int>
    var shippingRules: seq<ShippingRule>
    var orders: seq<Order>
    var orderItems: seq<OrderItem>
    var proofs: map<string, StoredFile>
    const projectUrl: string

    constructor (projectUrl: string, products: seq<Product>, inventory: map<ProductId, int>,
                 shippingRules: seq<ShippingRule>)
      ensures this.projectUrl == projectUrl && this.products == products
      ensures this.inventory == inventory && this.shippingRules == shippingRules
      ensures orders == [] && orderItems == [] && proofs == map[]
    {
      this.projectUrl := projectUrl;
      this.products := products;
      this.inventory := inventory;
      this.shippingRules := shippingRules;
      orders := [];
      orderItems := [];
      proofs := map[];
    }
  }
}

=== FILE: storefront.dfy ===
/** The storefront page: the cart it keeps, the product listing with its category and
    search filters, and the pagination of that listing. */
module Storefront {
  import opened Text
  import opened Records
  import opened Cart

  // ---------------------------------------------------------------- the cart

  /** No two lines of the cart are for the same product. */
  predicate UniqueLines(cart: seq<CartItem>) {
    forall i, j :: 0 <= i < j < |cart| ==> cart[i].product.id != cart[j].product.id
  }

  predicate HasLine(cart: seq<CartItem>, id: ProductId) {
    exists x :: x in cart && x.product.id == id
  }

  /** How many units of product `id` the cart holds, over all its lines. */
  function QuantityOf(cart: seq<CartItem>, id: ProductId): int
  {
    if |cart| == 0 then 0
    else (if cart[0].product.id == id then cart[0].quantity else 0) + QuantityOf(cart[1..], id)
  }

  /** `totalCartItems`: the number of units in the cart. */
  function TotalItems(cart: seq<CartItem>): (n: int)
    ensures |cart| == 0 ==> n == 0
    ensures (forall i :: 0 <= i < |cart| ==> cart[i].quantity >= 1) ==> n >= |cart|
  {
    if |cart| == 0 then 0 else cart[0].quantity + TotalItems(cart[1..])
  }

  /** The lines with every line of product `id` given `delta` more units. */
  function Bumped(cart: seq<CartItem>, id: ProductId, delta: int): (r: seq<CartItem>)
    ensures |r| == |cart|
    ensures forall i :: 0 <= i < |cart| ==>
      r[i] == if cart[i].product.id == id then cart[i].(quantity := cart[i].quantity + delta) else cart[i]
  {
    if |cart| == 0 then []
    else [if cart[0].product.id == id then cart[0].(quantity := cart[0].quantity + delta) else cart[0]]
         + Bumped(cart[1..], id, delta)
  }

  /** `addToCart`: more units on the product's line when it has one, otherwise a new
      line at the end. */
  function WithAdded(cart: seq<CartItem>, product: Product, quantity: int): (r: seq<CartItem>)
    ensures HasLine(r, product.id)
    ensures |r| == |cart| + (if HasLine(cart, product.id) then 0 else 1)
    ensures forall i :: 0 <= i < |cart| && cart[i].product.id != product.id ==> r[i] == cart[i]
    ensures !HasLine(cart, product.id) ==> r == cart + [CartItem(product, quantity)]
  {
    if HasLine(cart, product.id) then
      var bumped := Bumped(cart, product.id, quantity);
      assert HasLine(bumped, product.id) by {
        var x :| x in cart && x.product.id == product.id;
        var i :| 0 <= i < |cart| && cart[i] == x;
        assert bumped[i] in bumped;
      }
      bumped
    else
      var extended := cart + [CartItem(product, quantity)];
      assert extended[|cart|] in extended;
      extended
  }

  /** `updateQuantity`: every line of product `id` gets the new quantity. */
  function WithQuantity(cart: seq<CartItem>, id: ProductId, quantity: int): (r: seq<CartItem>)
    ensures |r| == |cart|
    ensures forall i :: 0 <= i < |cart| ==>
      r[i] == if cart[i].product.id == id then cart[i].(quantity := quantity) else cart[i]
  {
    if |cart| == 0 then []
    else [if cart[0].product.id == id then cart[0].(quantity := quantity) else cart[0]]
         + WithQuantity(cart[1..], id, quantity)
  }

  /** `removeItem`: the lines of other products, in their order. */
  function Without(cart: seq<CartItem>, id: ProductId): (r: seq<CartItem>)
    ensures forall x :: x in r <==> x in cart && x.product.id != id
    ensures |r| <= |cart|
  {
    if |cart| == 0 then []
    else (if cart[0].product.id != id then [cart[0]] else []) + Without(cart[1..], id)
  }

  lemma {:induction false} BumpedQuantities(cart: seq<CartItem>, id: ProductId, delta: int, other: ProductId)
    requires UniqueLines(cart) && HasLine(cart, id)
    ensures QuantityOf(Bumped(cart, id, delta), other)
      == QuantityOf(cart, other) + (if other == id then delta else 0)
    ensures TotalItems(Bumped(cart, id, delta)) == TotalItems(cart) + delta
  {
    var r := Bumped(cart, id, delta);
    assert r[1..] == Bumped(cart[1..], id, delta);
    if cart[0].product.id == id {
      NoLineAfter(cart, id);
      Unbumped(cart[1..], id, delta);
      NoQuantity(cart[1..], id);
    } else {
      assert HasLine(cart[1..], id) by {
        var x :| x in cart && x.product.id == id;
        assert x != cart[0];
        assert x in cart[1..];
      }
      UniqueTail(cart);
      BumpedQuantities(cart[1..], id, delta, other);
    }
  }

  lemma UniqueTail(cart: seq<CartItem>)
    requires UniqueLines(cart) && |cart| > 0
    ensures UniqueLines(cart[1..])
  {
    forall i, j | 0 <= i < j < |cart[1..]|
      ensures cart[1..][i].product.id != cart[1..][j].product.id
    {
      assert cart[1..][i] == cart[i + 1] && cart[1..][j] == cart[j + 1];
    }
  }

  /** In a cart with unique lines, no line after the first is for the first line's product. */
  lemma NoLineAfter(cart: seq<CartItem>, id: ProductId)
    requires UniqueLines(cart) && |cart| > 0 && cart[0].product.id == id
    ensures !HasLine(cart[1..], id)
  {
    forall i | 0 <= i < |cart[1..]|
      ensures cart[1..][i].product.id != id
    {
      assert cart[1..][i] == cart[i + 1];
    }
  }

  lemma {:induction false} Unbumped(cart: seq<CartItem>, id: ProductId, delta: int)
    requires !HasLine(cart, id)
    ensures Bumped(cart, id, delta) == cart
  {
    if |cart| > 0 {
      assert cart[0] in cart;
      Unbumped(cart[1..], id, delta);
      assert [cart[0]] + cart[1..] == cart;
    }
  }

  lemma {:induction false} NoQuantity(cart: seq<CartItem>, id: ProductId)
    requires !HasLine(cart, id)
    ensures QuantityOf(cart, id) == 0
  {
    if |cart| > 0 {
      assert cart[0] in cart;
      NoQuantity(cart[1..], id);
    }
  }

  lemma {:induction false} QuantityOfAppend(a: seq<CartItem>, b: seq<CartItem>, id: ProductId)
    ensures QuantityOf(a + b, id) == QuantityOf(a, id) + QuantityOf(b, id)
    ensures TotalItems(a + b) == TotalItems(a) + TotalItems(b)
  {
    if |a| > 0 {
      assert (a + b)[0] == a[0];
      assert (a + b)[1..] == a[1..] + b;
      QuantityOfAppend(a[1..], b, id);
    } else {
      assert a + b == b;
    }
  }

  lemma {:induction false} WithoutAppend(a: seq<CartItem>, b: seq<CartItem>, id: ProductId)
    ensures Without(a + b, id) == Without(a, id) + Without(b, id)
  {
    if |a| > 0 {
      assert (a + b)[0] == a[0];
      assert (a + b)[1..] == a[1..] + b;
      WithoutAppend(a[1..], b, id);
    } else {
      assert a + b == b;
    }
  }

  lemma {:induction false} WithoutBumped(cart: seq<CartItem>, id: ProductId, delta: int)
    ensures Without(Bumped(cart, id, delta), id) == Without(cart, id)
  {
    if |cart| > 0 {
      assert Bumped(cart, id, delta)[1..] == Bumped(cart[1..], id, delta);
      WithoutBumped(cart[1..], id, delta);
    }
  }

  /** Adding `quantity` units of a product gives that product exactly `quantity` more
      units and leaves every other product's count alone; the lines stay one per
      product. */
  lemma AddedQuantities(cart: seq<CartItem>, product: Product, quantity: int, other: ProductId)
    requires UniqueLines(cart)
    ensures UniqueLines(WithAdded(cart, product, quantity))
    ensures QuantityOf(WithAdded(cart, product, quantity), other)
      == QuantityOf(cart, other) + (if other == product.id then quantity else 0)
    ensures TotalItems(WithAdded(cart, product, quantity)) == TotalItems(cart) + quantity
  {
    var line := CartItem(product, quantity);
    if HasLine(cart, product.id) {
      BumpedQuantities(cart, product.id, quantity, other);
    } else {
      QuantityOfAppend(cart, [line], other);
      forall i | 0 <= i < |cart|
        ensures cart[i].product.id != product.id
      {
        assert cart[i] in cart;
      }
    }
  }

  /** Removing a product's line after adding to it is removing it from the cart as it
      was: adding never touches the other lines. */
  lemma RemoveUndoesAdd(cart: seq<CartItem>, product: Product, quantity: int)
    ensures Without(WithAdded(cart, product, quantity), product.id) == Without(cart, product.id)
  {
    if HasLine(cart, product.id) {
      WithoutBumped(cart, product.id, quantity);
    } else {
      WithoutAppend(cart, [CartItem(product, quantity)], product.id);
    }
  }

  lemma {:induction false} WithoutQuantities(cart: seq<CartItem>, id: ProductId, other: ProductId)
    ensures QuantityOf(Without(cart, id), other) == if other == id then 0 else QuantityOf(cart, other)
    ensures TotalItems(Without(cart, id)) == TotalItems(cart) - QuantityOf(cart, id)
  {
    if |cart| > 0 {
      WithoutQuantities(cart[1..], id, other);
      var head := if cart[0].product.id != id then [cart[0]] else [];
      QuantityOfAppend(head, Without(cart[1..], id), other);
    }
  }

  /** Removing a product drops all its units and no others; the remaining lines keep
      their order and stay one per product. */
  lemma RemovedQuantities(cart: seq<CartItem>, id: ProductId, other: ProductId)
    requires UniqueLines(cart)
    ensures UniqueLines(Without(cart, id))
    ensures !HasLine(Without(cart, id), id)
    ensures QuantityOf(Without(cart, id), other) == if other == id then 0 else QuantityOf(cart, other)
    ensures TotalItems(Without(cart, id)) == TotalItems(cart) - QuantityOf(cart, id)
  {
    WithoutQuantities(cart, id, other);
    WithoutUnique(cart, id);
  }

  lemma {:induction false} WithoutUnique(cart: seq<CartItem>, id: ProductId)
    requires UniqueLines(cart)
    ensures UniqueLines(Without(cart, id))
  {
    if |cart| > 0 {
      UniqueTail(cart);
      WithoutUnique(cart[1..], id);
      var rest := Without(cart[1..], id);
      if cart[0].product.id != id {
        forall j | 0 <= j < |rest|
          ensures rest[j].product.id != cart[0].product.id
        {
          assert rest[j] in cart[1..];
          var k :| 0 <= k < |cart[1..]| && cart[1..][k] == rest[j];
          assert cart[k + 1] == rest[j];
        }
        assert Without(cart, id) == [cart[0]] + rest;
      }
    }
  }

  /** Setting a product's quantity changes that product's count to the new quantity and
      no other count; the lines keep their products and order. */
  lemma {:induction false} UpdatedQuantities(cart: seq<CartItem>, id: ProductId, quantity: int, other: ProductId)
    requires UniqueLines(cart)
    ensures UniqueLines(WithQuantity(cart, id, quantity))
    ensures QuantityOf(WithQuantity(cart, id, quantity), other)
      == if other != id then QuantityOf(cart, other) else if HasLine(cart, id) then quantity else 0
  {
    var r := WithQuantity(cart, id, quantity);
    assert forall i :: 0 <= i < |cart| ==> r[i].product == cart[i].product;
    if |cart| > 0 {
      UniqueTail(cart);
      UpdatedQuantities(cart[1..], id, quantity, other);
      assert r[1..] == WithQuantity(cart[1..], id, quantity);
      if cart[0].product.id == id {
        NoLineAfter(cart, id);
        NoQuantity(WithQuantity(cart[1..], id, quantity), id) by {
          forall x | x in WithQuantity(cart[1..], id, quantity)
            ensures x.product.id != id
          {
            var k :| 0 <= k < |cart[1..]| && WithQuantity(cart[1..], id, quantity)[k] == x;
            assert cart[1..][k] in cart[1..];
          }
        }
      } else {
        assert HasLine(cart, id) <==> HasLine(cart[1..], id) by {
          if HasLine(cart, id) {
            var x :| x in cart && x.product.id == id;
            assert x in cart[1..];
          }
        }
      }
    }
  }

  // ---------------------------------------------------------------- the listing

  /** The category filter is on when a non-empty category is selected. */
  predicate InCategory(p: Product, category: Option<string>) {
    category.None? || category.value == "" || p.categoryId == category.value
  }

  /** The search matches when it is empty or, ignoring case, occurs in the name or the
      description. */
  predicate MatchesSearch(p: Product, query: string) {
    query == "" || Contains(ToLower(p.name), ToLower(query)) || Contains(ToLower(p.description), ToLower(query))
  }

  /** `filteredProducts`, in the order the products were loaded. */
  function Listed(products: seq<Product>, category: Option<string>, query: string): (r: seq<Product>)
    ensures forall p :: p in r <==> p in products && InCategory(p, category) && MatchesSearch(p, query)
    ensures |r| <= |products|
  {
    if |products| == 0 then []
    else
      var p := products[0];
      (if InCategory(p, category) && MatchesSearch(p, query) then [p] else []) + Listed(products[1..], category, query)
  }

  /** With no category and no search, every product is listed, in order. */
  lemma {:induction false} NoFilterListsAll(products: seq<Product>)
    ensures Listed(products, None, "") == products
  {
    if |products| > 0 {
      NoFilterListsAll(products[1..]);
      assert [products[0]] + products[1..] == products;
    }
  }

  /** Searches that differ only in letter case list the same products. */
  lemma {:induction false} SearchIgnoresCase(products: seq<Product>, category: Option<string>, q1: string, q2: string)
    requires ToLower(q1) == ToLower(q2)
    ensures Listed(products, category, q1) == Listed(products, category, q2)
  {
    assert |q1| == |ToLower(q1)|;
    if |products| > 0 {
      SearchIgnoresCase(products[1..], category, q1, q2);
    }
  }

  // ---------------------------------------------------------------- pagination

  const ProductsPerPage: nat := 10

  /** `Math.ceil(n / 10)` */
  function TotalPages(n: nat): (r: nat)
    ensures r * ProductsPerPage >= n
    ensures r > 0 ==> (r - 1) * ProductsPerPage < n
  {
    (n + ProductsPerPage - 1) / ProductsPerPage
  }

  /** JavaScript's `Array.prototype.slice(start, end)`: negative positions count from the
      end, and both positions are clamped to the sequence. */
  function Slice<T>(s: seq<T>, start: int, end: int): (r: seq<T>)
    ensures |r| <= |s|
    ensures 0 <= start <= end <= |s| ==> r == s[start..end]
    ensures 0 <= start ==> forall k :: 0 <= k < |r| ==> start + k < |s| && r[k] == s[start + k]
    ensures start <= end ==> |r| <= end - start
  {
    var from := if start < 0 then (if |s| + start < 0 then 0 else |s| + start) else (if start > |s| then |s| else start);
    var to := if end < 0 then (if |s| + end < 0 then 0 else |s| + end) else (if end > |s| then |s| else end);
    if to <= from then [] else s[from..to]
  }

  /** `currentProducts`: the products shown on page `page`. */
  function PageOf(listed: seq<Product>, page: int): (r: seq<Product>)
    ensures |r| <= ProductsPerPage
    ensures 1 <= page ==> forall k :: 0 <= k < |r| ==>
      (page - 1) * ProductsPerPage + k < |listed| && r[k] == listed[(page - 1) * ProductsPerPage + k]
    ensures 1 <= page && page * ProductsPerPage <= |listed| ==> |r| == ProductsPerPage
  {
    Slice(listed, (page - 1) * ProductsPerPage, (page - 1) * ProductsPerPage + ProductsPerPage)
  }

  /** Every listed product appears on exactly the page its position says, at the place
      its position says, and that page is one of the pages counted. */
  lemma EveryProductOnItsPage(listed: seq<Product>, i: int)
    requires 0 <= i < |listed|
    ensures 1 <= i / ProductsPerPage + 1 <= TotalPages(|listed|)
    ensures var page := PageOf(listed, i / ProductsPerPage + 1);
      i % ProductsPerPage < |page| && page[i % ProductsPerPage] == listed[i]
  {
    var start := i / ProductsPerPage * ProductsPerPage;
    assert start <= i < start + ProductsPerPage;
  }

  /** A page within the count shows between one and ten products; any later page shows
      none. */
  lemma PageSizes(listed: seq<Product>, page: int)
    requires page >= 1
    ensures page <= TotalPages(|listed|) ==> 1 <= |PageOf(listed, page)| <= ProductsPerPage
    ensures page > TotalPages(|listed|) ==> PageOf(listed, page) == []
  {
  }

  /** The page numbers shown in the pager: at most seven consecutive pages around the
      current one. */
  function PageWindow(total: nat, current: int): (r: seq<int>)
    ensures |r| == if total < 7 then total else 7
    ensures forall i :: 0 < i < |r| ==> r[i] == r[i - 1] + 1
    ensures forall i :: 0 <= i < |r| ==> 1 <= r[i] <= total
    ensures 1 <= current <= total ==> current in r
  {
    var n := if total < 7 then total else 7;
    var first := if total <= 7 then 1
                 else if current <= 4 then 1
                 else if current >= total - 3 then total - 6
                 else current - 3;
    var r := seq(n, i => first + i);
    assert 1 <= current <= total ==> r[current - first] == current;
    r
  }

  /** The page the "previous" button asks for. */
  function PreviousPage(current: int): (r: int)
    ensures r >= 1
    ensures current > 1 ==> r == current - 1
    ensures current <= 1 ==> r == 1
  {
    if 1 >= current - 1 then 1 else current - 1
  }

  /** The page the "next" button asks for. */
  function NextPage(total: nat, current: int): (r: int)
    ensures r <= total
    ensures current < total ==> r == current + 1
    ensures current >= total ==> r == total
  {
    if total <= current + 1 then total else current + 1
  }

  /** From a page within the count, both buttons lead to a page within the count, one
      step away or staying put at either end. */
  lemma StepsStayInRange(total: nat, current: int)
    requires 1 <= current <= total
    ensures 1 <= PreviousPage(current) <= total && 1 <= NextPage(total, current) <= total
    ensures PreviousPage(current) == if current == 1 then 1 else current - 1
    ensures NextPage(total, current) == if current == total then total else current + 1
  {
  }

  // ---------------------------------------------------------------- the page state

  /** The storefront's state: the cart and the listing controls. */
  class StorefrontPage {
    var cartItems: seq<CartItem>
    var currentPage: int
    var selectedCategory: Option<string>
    var searchQuery: string

    /** The cart keeps one line per product and the page is never below one. */
    predicate Valid()
      reads this
    {
      UniqueLines(cartItems) && currentPage >= 1
    }

    constructor ()
      ensures Valid()
      ensures cartItems == [] && currentPage == 1 && selectedCategory == None && searchQuery == ""
    {
      cartItems := [];
      currentPage := 1;
      selectedCategory := None;
      searchQuery := "";
    }

    /** `totalCartItems` */
    function CartCount(): (n: int)
      reads this
      ensures cartItems == [] ==> n == 0
      ensures (forall i :: 0 <= i < |cartItems| ==> cartItems[i].quantity >= 1) ==> n >= |cartItems|
      ensures n == TotalItems(cartItems)
    {
      TotalItems(cartItems)
    }

    /** The products the page shows, out of the loaded `products`. */
    function Shown(products: seq<Product>): (r: seq<Product>)
      reads this
      ensures |r| <= ProductsPerPage
      ensures currentPage >= 1 ==>
        forall p :: p in r ==> p in products && InCategory(p, selectedCategory) && MatchesSearch(p, searchQuery)
    {
      PageOf(Listed(products, selectedCategory, searchQuery), currentPage)
    }

    method AddToCart(product: Product, quantity: int)
      requires Valid()
      modifies this
      ensures Valid()
      ensures cartItems == WithAdded(old(cartItems), product, quantity)
      ensures currentPage == old(currentPage) && selectedCategory == old(selectedCategory)
      ensures searchQuery == old(searchQuery)
    {
      AddedQuantities(cartItems, product, quantity, product.id);
      cartItems := WithAdded(cartItems, product, quantity);
    }

    method UpdateQuantity(id: ProductId, quantity: int)
      requires Valid()
      modifies this
      ensures Valid()
      ensures cartItems == WithQuantity(old(cartItems), id, quantity)
      ensures currentPage == old(currentPage) && selectedCategory == old(selectedCategory)
      ensures searchQuery == old(searchQuery)
    {
      UpdatedQuantities(cartItems, id, quantity, id);
      cartItems := WithQuantity(cartItems, id, quantity);
    }

    method RemoveItem(id: ProductId)
      requires Valid()
      modifies this
      ensures Valid()
      ensures cartItems == Without(old(cartItems), id)
      ensures currentPage == old(currentPage) && selectedCategory == old(selectedCategory)
      ensures searchQuery == old(searchQuery)
    {
      RemovedQuantities(cartItems, id, id);
      cartItems := Without(cartItems, id);
    }

    /** `handleCheckoutSuccess`: the order went through, so the cart is emptied. */
    method CheckoutSucceeded()
      requires Valid()
      modifies this
      ensures Valid()
      ensures cartItems == [] && CartCount() == 0
      ensures currentPage == old(currentPage) && selectedCategory == old(selectedCategory)
      ensures searchQuery == old(searchQuery)
    {
      cartItems := [];
    }

    method ChangeCategory(category: Option<string>)
      requires Valid()
      modifies this
      ensures Valid()
      ensures selectedCategory == category && currentPage == 1
      ensures cartItems == old(cartItems) && searchQuery == old(searchQuery)
    {
      selectedCategory := category;
      currentPage := 1;
    }

    method ChangeSearch(query: string)
      requires Valid()
      modifies this
      ensures Valid()
      ensures searchQuery == query && currentPage == 1
      ensures cartItems == old(cartItems) && selectedCategory == old(selectedCategory)
    {
      searchQuery := query;
      currentPage := 1;
    }

    /** `handlePageChange`, from a pager button: the number of a window page, or the page
        the previous or next button asks for.  The pager only exists with two or more
        pages. */
    method ChangePage(page: int)
      requires Valid() && page >= 1
      modifies this
      ensures Valid()
      ensures currentPage == page
      ensures cartItems == old(cartItems) && selectedCategory == old(selectedCategory)
      ensures searchQuery == old(searchQuery)
    {
      currentPage := page;
    }
  }
}

=== FILE: text.dfy ===
/** String operations the storefront relies on, written as JavaScript performs them
    on the strings that occur here: ASCII case mapping, `trim`, `includes`,
    `startsWith`, `split`/`join` on one separator character, and the decimal
    rendering of numbers. */
module Text {

  // ---------------------------------------------------------------------------
  // Case mapping (ASCII letters; other characters are left as they are)

  predicate IsUpperLetter(c: char) { 'A' <= c <= 'Z' }
  predicate IsLowerLetter(c: char) { 'a' <= c <= 'z' }

  function LowerChar(c: char): (r: char)
    ensures !IsUpperLetter(r)
    ensures if IsUpperLetter(c) then IsLowerLetter(r) else r == c
  {
    if IsUpperLetter(c) then (c as int + 32) as char else c
  }

  function UpperChar(c: char): (r: char)
    ensures !IsLowerLetter(r)
    ensures IsLowerLetter(c) || r == c
  {
    if IsLowerLetter(c) then (c as int - 32) as char else c
  }

  /** `s.toLowerCase()` */
  function ToLower(s: string): (r: string)
    ensures |r| == |s|
    ensures forall i :: 0 <= i < |s| ==> r[i] == LowerChar(s[i])
  {
    if s == [] then [] else [LowerChar(s[0])] + ToLower(s[1..])
  }

  /** `s.toUpperCase()` */
  function ToUpper(s: string): (r: string)
    ensures |r| == |s|
    ensures forall i :: 0 <= i < |s| ==> r[i] == UpperChar(s[i])
  {
    if s == [] then [] else [UpperChar(s[0])] + ToUpper(s[1..])
  }

  /** Upper-casing forgets any earlier lower-casing, and is idempotent. */
  lemma UpperOfLower(s: string)
    ensures ToUpper(ToLower(s)) == ToUpper(s)
    ensures ToUpper(ToUpper(s)) == ToUpper(s)
  {
    forall i | 0 <= i < |s|
      ensures UpperChar(LowerChar(s[i])) == UpperChar(s[i])
    {
    }
  }

  /** Two strings that differ only in letter case upper-case to the same string. */
  lemma UpperIgnoresCase(s: string, t: string)
    requires ToLower(s) == ToLower(t)
    ensures ToUpper(s) == ToUpper(t)
  {
    UpperOfLower(s);
    UpperOfLower(t);
  }

  // ---------------------------------------------------------------------------
  // Whitespace and trim

  /** The white-space characters `trim` removes that can appear in a typed code. */
  predicate IsSpace(c: char) {
    c == ' ' || c == '\t' || c == '\n' || c == '\r' || c == '\U{000B}' || c == '\U{000C}'
    || c == '\U{00A0}' || c == '\U{FEFF}'
  }

  predicate AllSpace(s: string) { forall i :: 0 <= i < |s| ==> IsSpace(s[i]) }

  function TrimStart(s: string): (r: string)
    ensures |r| <= |s| && r == s[|s| - |r|..]
    ensures r == [] || !IsSpace(r[0])
    ensures AllSpace(s[..|s| - |r|])
  {
    if |s| > 0 && IsSpace(s[0]) then TrimStart(s[1..]) else s
  }

  function TrimEnd(s: string): (r: string)
    ensures |r| <= |s| && r == s[..|r|]
    ensures r == [] || !IsSpace(r[|r| - 1])
    ensures AllSpace(s[|r|..])
  {
    if |s| > 0 && IsSpace(s[|s| - 1]) then
      var init := s[..|s| - 1];
      var r := TrimEnd(init);
      assert init[..|r|] == s[..|r|];
      assert s[|r|..] == init[|r|..] + [s[|s| - 1]];
      r
    else s
  }

  /** `s.trim()`: `s` without the white space at either end. */
  function Trim(s: string): (r: string)
    ensures |r| <= |s|
    ensures r == [] || (!IsSpace(r[0]) && !IsSpace(r[|r| - 1]))
    ensures r == [] <==> AllSpace(s)
  {
    var t := TrimStart(s);
    TrimmedEmptyIsSpace(s);
    TrimEnd(t)
  }

  lemma {:induction false} TrimmedEmptyIsSpace(s: string)
    ensures TrimEnd(TrimStart(s)) == [] <==> AllSpace(s)
  {
    var t := TrimStart(s);
    assert s[..|s| - |t|] + t == s;
    if TrimEnd(t) == [] {
      assert t[0..] == t;
      assert AllSpace(t);
    }
  }

  lemma {:induction false} TrimStartSkipsSpace(w: string, s: string)
    requires AllSpace(w)
    ensures TrimStart(w + s) == TrimStart(s)
  {
    if w != [] {
      assert (w + s)[1..] == w[1..] + s;
      TrimStartSkipsSpace(w[1..], s);
    } else {
      assert w + s == s;
    }
  }

  lemma {:induction false} TrimEndSkipsSpace(s: string, w: string)
    requires AllSpace(w)
    ensures TrimEnd(s + w) == TrimEnd(s)
  {
    if w != [] {
      assert (s + w)[..|s + w| - 1] == s + w[..|w| - 1];
      TrimEndSkipsSpace(s, w[..|w| - 1]);
    } else {
      assert s + w == s;
    }
  }

  lemma TrimStartOfNonSpace(s: string)
    requires s == [] || !IsSpace(s[0])
    ensures TrimStart(s) == s
  {
  }

  lemma {:induction false} TrimEndKeepsNonSpaceStart(s: string)
    requires s == [] || !IsSpace(s[0])
    ensures TrimEnd(s) == [] || !IsSpace(TrimEnd(s)[0])
  {
  }

  /** Leading white space, and white space behind the first non-space character,
      leave the same string once both ends are trimmed. */
  lemma {:induction false} TrimStartPadded(w1: string, s: string, w2: string)
    requires AllSpace(w1)
    ensures TrimStart(w1 + s + w2) == TrimStart(TrimStart(s) + w2)
  {
    SkipSpaceBefore(w1, s, w2);
    TrimStartOfAppend(s, w2);
  }

  /** Trimming the front of `s + w` can start by trimming the front of `s`. */
  lemma {:induction false} TrimStartOfAppend(s: string, w: string)
    ensures TrimStart(s + w) == TrimStart(TrimStart(s) + w)
  {
    if |s| > 0 && IsSpace(s[0]) {
      assert (s + w)[0] == s[0];
      assert (s + w)[1..] == s[1..] + w;
      TrimStartOfAppend(s[1..], w);
    }
  }

  lemma SkipSpaceBefore(w: string, a: string, b: string)
    requires AllSpace(w)
    ensures TrimStart(w + a + b) == TrimStart(a + b)
  {
    assert w + a + b == w + (a + b);
    TrimStartSkipsSpace(w, a + b);
  }

  /** White space around a string does not change what `trim` returns. */
  lemma {:induction false} TrimIgnoresPadding(w1: string, s: string, w2: string)
    requires AllSpace(w1) && AllSpace(w2)
    ensures Trim(w1 + s + w2) == Trim(s)
  {
    TrimStartPadded(w1, s, w2);
    var t := TrimStart(s);
    if t == [] {
      assert t + w2 == w2 + [];
      TrimStartSkipsSpace(w2, []);
    } else {
      TrimStartOfNonSpace(t + w2);
      TrimEndSkipsSpace(t, w2);
    }
  }

  /** Trimming commutes with case mapping: white space is not a letter. */
  lemma {:induction false} TrimStartToLower(s: string)
    ensures TrimStart(ToLower(s)) == ToLower(TrimStart(s))
  {
    if |s| > 0 {
      assert ToLower(s)[1..] == ToLower(s[1..]);
      assert IsSpace(ToLower(s)[0]) <==> IsSpace(s[0]);
      if IsSpace(s[0]) { TrimStartToLower(s[1..]); }
    }
  }

  lemma {:induction false} TrimEndToLower(s: string)
    ensures TrimEnd(ToLower(s)) == ToLower(TrimEnd(s))
  {
    if |s| > 0 {
      assert ToLower(s)[..|s| - 1] == ToLower(s[..|s| - 1]);
      assert IsSpace(ToLower(s)[|s| - 1]) <==> IsSpace(s[|s| - 1]);
      if IsSpace(s[|s| - 1]) { TrimEndToLower(s[..|s| - 1]); }
    }
  }

  lemma TrimToLower(s: string)
    ensures Trim(ToLower(s)) == ToLower(Trim(s))
  {
    TrimStartToLower(s);
    TrimEndToLower(TrimStart(s));
  }

  // ---------------------------------------------------------------------------
  // Prefixes and substrings

  /** `s.startsWith(p)` */
  predicate StartsWith(s: string, p: string) { |p| <= |s| && s[..|p|] == p }

  /** `sub` occurs in `s` starting at position `i`. */
  predicate OccursAt(s: string, sub: string, i: int) {
    0 <= i && i + |sub| <= |s| && s[i..i + |sub|] == sub
  }

  /** `s.includes(sub)`, scanning from the left as the search does. */
  function Contains(s: string, sub: string): (r: bool)
    decreases |s|
  {
    StartsWith(s, sub) || (|s| > 0 && Contains(s[1..], sub))
  }

  /** The scan finds `sub` exactly when it occurs at some position. */
  lemma {:induction false} ContainsIffOccurs(s: string, sub: string)
    ensures Contains(s, sub) <==> exists i :: OccursAt(s, sub, i)
    decreases |s|
  {
    if StartsWith(s, sub) {
      assert OccursAt(s, sub, 0);
    } else if |s| > 0 {
      ContainsIffOccurs(s[1..], sub);
      if exists i :: OccursAt(s[1..], sub, i) {
        var i :| OccursAt(s[1..], sub, i);
        assert s[1..][i..i + |sub|] == s[i + 1..i + 1 + |sub|];
        assert OccursAt(s, sub, i + 1);
      }
      if exists i :: OccursAt(s, sub, i) {
        var i :| OccursAt(s, sub, i);
        assert i != 0;
        assert s[1..][i - 1..i - 1 + |sub|] == s[i..i + |sub|];
        assert OccursAt(s[1..], sub, i - 1);
      }
    } else {
      assert forall i :: !OccursAt(s, sub, i);
    }
  }

  lemma ContainsAtPosition(s: string, sub: string, i: int)
    requires OccursAt(s, sub, i)
    ensures Contains(s, sub)
  {
    ContainsIffOccurs(s, sub);
  }

  // ---------------------------------------------------------------------------
  // split / join on one character

  predicate Free(s: string, c: char) { forall i :: 0 <= i < |s| ==> s[i] != c }

  /** `s.split(c)`: the pieces between occurrences of `c`; never empty. */
  function Split(s: string, c: char): (parts: seq<string>)
    ensures |parts| >= 1
    ensures forall k :: 0 <= k < |parts| ==> Free(parts[k], c)
  {
    if |s| == 0 then [""]
    else if s[0] == c then [""] + Split(s[1..], c)
    else
      var rest := Split(s[1..], c);
      [[s[0]] + rest[0]] + rest[1..]
  }

  /** `parts.join(sep)` */
  function Join(parts: seq<string>, sep: string): string
  {
    if |parts| == 0 then ""
    else if |parts| == 1 then parts[0]
    else parts[0] + sep + Join(parts[1..], sep)
  }

  /** Joining the pieces with the separator gives back the original string. */
  lemma {:induction false} JoinSplit(s: string, c: char)
    ensures Join(Split(s, c), [c]) == s
  {
    if |s| > 0 {
      JoinSplit(s[1..], c);
      var rest := Split(s[1..], c);
      if s[0] == c {
        assert Split(s, c)[1..] == rest;
      } else {
        var parts := [[s[0]] + rest[0]] + rest[1..];
        if |rest| > 1 {
          assert parts[1..] == rest[1..];
          assert Join(rest, [c]) == rest[0] + [c] + Join(rest[1..], [c]);
        }
      }
    }
  }

  lemma {:induction false} SplitFree(s: string, c: char)
    requires Free(s, c)
    ensures Split(s, c) == [s]
  {
    if |s| > 0 {
      SplitFree(s[1..], c);
      assert [s[0]] + s[1..] == s;
    }
  }

  /** Splitting at one occurrence of the separator splits the pieces apart. */
  lemma {:induction false} SplitAppend(a: string, c: char, b: string)
    ensures Split(a + [c] + b, c) == Split(a, c) + Split(b, c)
  {
    var s := a + [c] + b;
    if |a| == 0 {
      assert s == [c] + b;
      assert s[1..] == b;
    } else {
      assert s[0] == a[0];
      assert s[1..] == a[1..] + [c] + b;
      SplitAppend(a[1..], c, b);
      var rest := Split(a[1..], c);
      var tail := rest + Split(b, c);
      assert Split(s[1..], c) == tail;
      if a[0] == c {
        assert Split(s, c) == [""] + tail;
        assert Split(a, c) == [""] + rest;
      } else {
        assert tail[0] == rest[0];
        assert tail[1..] == rest[1..] + Split(b, c);
        assert Split(s, c) == [[a[0]] + rest[0]] + tail[1..];
        assert Split(a, c) == [[a[0]] + rest[0]] + rest[1..];
      }
    }
  }

  // ---------------------------------------------------------------------------
  // Decimal rendering of numbers

  function DigitChar(d: nat): (c: char)
    requires d < 10
    ensures '0' <= c <= '9' && c as int - '0' as int == d
  {
    ('0' as int + d) as char
  }

  predicate IsDigit(c: char) { '0' <= c <= '9' }

  /** `n.toString()` for a non-negative integer. */
  function NatToString(n: nat): (s: string)
    ensures |s| >= 1
    ensures forall i :: 0 <= i < |s| ==> IsDigit(s[i])
    ensures n < 10 <==> |s| == 1
    decreases n
  {
    if n < 10 then [DigitChar(n)] else NatToString(n / 10) + [DigitChar(n % 10)]
  }

  /** Reading a string of decimal digits. */
  function ParseDigits(s: string): nat
    requires forall i :: 0 <= i < |s| ==> IsDigit(s[i])
  {
    if |s| == 0 then 0
    else
      assert IsDigit(s[|s| - 1]);
      ParseDigits(s[..|s| - 1]) * 10 + (s[|s| - 1] as int - '0' as int)
  }

  /** The decimal rendering of a number reads back as that number. */
  lemma {:induction false} ParseNatToString(n: nat)
    ensures ParseDigits(NatToString(n)) == n
    decreases n
  {
    if n >= 10 {
      var s := NatToString(n);
      assert s[..|s| - 1] == NatToString(n / 10);
      ParseNatToString(n / 10);
    }
  }

  /** Different numbers render differently. */
  lemma NatToStringInjective(m: nat, n: nat)
    requires NatToString(m) == NatToString(n)
    ensures m == n
  {
    ParseNatToString(m);
    ParseNatToString(n);
  }

  /** `body` is digits, a point and two digits, read as `a / 100` units and `a % 100`
      hundredths. */
  predicate ReadsAsCents(body: string, a: nat) {
    && |body| >= 4 && body[|body| - 3] == '.'
    && (forall i :: 0 <= i < |body| && i != |body| - 3 ==> IsDigit(body[i]))
    && ParseDigits(body[..|body| - 3]) == a / 100
    && ParseDigits(body[|body| - 2..]) == a % 100
  }

  /** The two digits of the hundredths of `a` read back as `a % 100`. */
  lemma HundredthsDigits(a: nat)
    ensures ParseDigits([DigitChar(a % 100 / 10), DigitChar(a % 10)]) == a % 100
  {
    var hundredths := [DigitChar(a % 100 / 10), DigitChar(a % 10)];
    assert hundredths[..1] == [DigitChar(a % 100 / 10)];
    assert [DigitChar(a % 100 / 10)][..0] == [];
    assert ParseDigits([DigitChar(a % 100 / 10)]) == a % 100 / 10;
    assert ParseDigits(hundredths) == ParseDigits(hundredths[..1]) * 10 + a % 10;
  }

  /** An amount of cents, not negative, written as units, a point and two digits. */
  function CentsText(a: nat): (body: string)
    ensures ReadsAsCents(body, a)
  {
    var whole := NatToString(a / 100);
    var hundredths := [DigitChar(a % 100 / 10), DigitChar(a % 10)];
    var body := whole + "." + hundredths;
    assert body[..|body| - 3] == whole;
    assert body[|body| - 2..] == hundredths;
    ParseNatToString(a / 100);
    HundredthsDigits(a);
    body
  }

  /** `(c / 100).toFixed(2)` for an amount in cents: a minus sign for a negative amount,
      then the whole units, a point and the two digits of the hundredths. */
  function FormatCents(c: int): (s: string)
    ensures |s| >= 4
    ensures (c >= 0) <==> (s[0] != '-')
    ensures c >= 0 ==> ReadsAsCents(s, c)
    ensures c < 0 ==> ReadsAsCents(s[1..], -c)
  {
    if c < 0 then
      var body := CentsText(-c);
      assert ("-" + body)[1..] == body;
      "-" + body
    else
      var body := CentsText(c);
      assert IsDigit(body[0]);
      body
  }
}

=== FILE: track_order.dfy ===
/** The `track-order` edge function: finds an order by its tracking code, read
    without regard to surrounding white space or letter case, and shows its status,
    total and item snapshots.  It only reads. */
module TrackOrder {
  import opened Text
  import opened Records

  /** The `tracking_code` field of the body, as JSON gives it. */
  datatype TrackingField = Absent | NonString | Str(s: string)

  /** One item as shown to the customer. */
  datatype TrackedItem = TrackedItem(name: string, quantity: int, price: Cents)

  /** The successful reply. */
  datatype Tracking = Tracking(
    trackingCode: string,
    status: Status,
    createdAt: nat,
    totalAmount: Cents,
    items: seq<TrackedItem>)

  /** Which queries fail. */
  datatype TrackFaults = TrackFaults(orderQuery: bool, itemsQuery: bool)

  /** The key the code is looked up by: trimmed, then upper-cased. */
  function LookupKey(code: string): (key: string)
    ensures |key| <= |code|
    ensures key == [] <==> AllSpace(code)
    ensures ToUpper(key) == key
  {
    UpperOfLower(Trim(code));
    ToUpper(Trim(code))
  }

  /** `orders` rows with the given tracking code, in table order. */
  function OrdersWithCode(orders: seq<Order>, code: string): (r: seq<Order>)
    ensures forall o :: o in r <==> o in orders && o.trackingCode == code
  {
    if |orders| == 0 then []
    else (if orders[0].trackingCode == code then [orders[0]] else []) + OrdersWithCode(orders[1..], code)
  }

  lemma {:induction false} NoOrderWithCode(orders: seq<Order>, code: string)
    requires forall o :: o in orders ==> o.trackingCode != code
    ensures OrdersWithCode(orders, code) == []
  {
    if |orders| > 0 {
      assert orders[0] in orders;
      NoOrderWithCode(orders[1..], code);
    }
  }

  lemma {:induction false} OrdersWithCodeAppend(a: seq<Order>, b: seq<Order>, code: string)
    ensures OrdersWithCode(a + b, code) == OrdersWithCode(a, code) + OrdersWithCode(b, code)
  {
    if |a| > 0 {
      assert (a + b)[0] == a[0];
      assert (a + b)[1..] == a[1..] + b;
      OrdersWithCodeAppend(a[1..], b, code);
    } else {
      assert a + b == b;
    }
  }

  /** The item rows as shown: `product_name` becomes the name, `product_price` the price. */
  function Project(rows: seq<OrderItem>): (r: seq<TrackedItem>)
    ensures |r| == |rows|
    ensures forall i :: 0 <= i < |rows| ==>
      r[i] == TrackedItem(rows[i].productName, rows[i].quantity, rows[i].productPrice)
  {
    if |rows| == 0 then [] else [TrackedItem(rows[0].productName, rows[0].quantity, rows[0].productPrice)] + Project(rows[1..])
  }

  /** The lookup once the code has passed the check: the one order with that key and
      its item rows.  The rows are kept in table order; the handler asks the database to
      sort them by creation time, which the model does not carry for item rows. */
  function FindByKey(key: string, orders: seq<Order>, orderItems: seq<OrderItem>, f: TrackFaults): (r: Reply<Tracking>)
    ensures r.Ok? <==> !f.orderQuery && |OrdersWithCode(orders, key)| == 1 && !f.itemsQuery
    ensures !f.orderQuery && OrdersWithCode(orders, key) == [] ==> r == Fail(404, "Order not found", NoDetails)
    ensures r.Ok? ==> r.value.trackingCode == key
    ensures r.Ok? ==>
      exists o :: (o in orders && o.trackingCode == key
                   && r.value.status == o.status && r.value.totalAmount == o.totalAmount
                   && r.value.createdAt == o.createdAt && r.value.items == Project(ItemsOfOrder(orderItems, o.id)))
  {
    if f.orderQuery then Fail(500, "Error fetching order", NoDetails)
    else
      var rows := OrdersWithCode(orders, key);
      match MaybeSingle(rows)
      case LookupError => Fail(500, "Error fetching order", NoDetails)
      case NotFound => Fail(404, "Order not found", NoDetails)
      case Found(o) =>
        assert o in rows by { assert o == rows[0]; }
        if f.itemsQuery then Fail(500, "Error fetching order items", NoDetails)
        else Ok(Tracking(o.trackingCode, o.status, o.createdAt, o.totalAmount,
                         Project(ItemsOfOrder(orderItems, o.id))))
  }

  /** The handler: a code that is missing, not text or blank is refused. */
  function Track(m: HttpMethod, code: TrackingField, orders: seq<Order>, orderItems: seq<OrderItem>,
                 f: TrackFaults): (r: Reply<Tracking>)
    ensures r.Preflight? <==> m == Options
    ensures m != Options && m != Post ==> r == Fail(405, "Method not allowed", NoDetails)
    ensures m == Post && (!code.Str? || AllSpace(code.s)) ==> r == Fail(400, "tracking_code is required", NoDetails)
    ensures r.Ok? ==> m == Post && code.Str? && r.value.trackingCode == LookupKey(code.s)
  {
    match MethodGate<Tracking>(m)
    case Some(early) => early
    case None =>
      if !code.Str? || code.s == "" || Trim(code.s) == "" then Fail(400, "tracking_code is required", NoDetails)
      else FindByKey(LookupKey(code.s), orders, orderItems, f)
  }

  /** Tracking is POST-only: GET and every other method but OPTIONS get 405. */
  lemma OnlyPostTracks(m: HttpMethod, code: TrackingField, orders: seq<Order>, orderItems: seq<OrderItem>,
                       f: TrackFaults)
    requires m != Post && m != Options
    ensures Track(m, code, orders, orderItems, f) == Fail(405, "Method not allowed", NoDetails)
  {
  }

  /** A missing, non-text or blank code is refused with 400 before any lookup. */
  lemma BlankCodeRefused(code: TrackingField, orders: seq<Order>, orderItems: seq<OrderItem>, f: TrackFaults)
    requires !code.Str? || AllSpace(code.s)
    ensures Track(Post, code, orders, orderItems, f) == Fail(400, "tracking_code is required", NoDetails)
  {
  }

  /** Letter case and surrounding white space do not change the lookup key, nor
      whether the code is blank. */
  lemma {:induction false} LookupKeyLoose(w1: string, s: string, w2: string, t: string)
    requires AllSpace(w1) && AllSpace(w2)
    requires ToLower(s) == ToLower(t)
    ensures LookupKey(w1 + s + w2) == LookupKey(t)
    ensures AllSpace(w1 + s + w2) <==> AllSpace(t)
  {
    TrimIgnoresPadding(w1, s, w2);
    TrimToLower(s);
    TrimToLower(t);
    UpperIgnoresCase(Trim(s), Trim(t));
    assert |Trim(s)| == |Trim(t)|;
  }

  /** A code typed with other letter case or with white space around it finds the
      same order, and gets the same reply, as the code itself. */
  lemma CodeReadLoosely(w1: string, s: string, w2: string, t: string,
                        orders: seq<Order>, orderItems: seq<OrderItem>, f: TrackFaults)
    requires AllSpace(w1) && AllSpace(w2)
    requires ToLower(s) == ToLower(t)
    ensures Track(Post, Str(w1 + s + w2), orders, orderItems, f) == Track(Post, Str(t), orders, orderItems, f)
  {
    LookupKeyLoose(w1, s, w2, t);
  }

  /** An order is found when its code is the lookup key of the code typed and no other
      order has that code; the reply shows its own status, total and items. */
  lemma FindsTheOrder(code: string, o: Order, orders: seq<Order>, orderItems: seq<OrderItem>)
    requires !AllSpace(code)
    requires OrdersWithCode(orders, LookupKey(code)) == [o]
    ensures var r := Track(Post, Str(code), orders, orderItems, TrackFaults(false, false));
      && r.Ok?
      && r.value.trackingCode == o.trackingCode && r.value.status == o.status
      && r.value.totalAmount == o.totalAmount && r.value.createdAt == o.createdAt
      && r.value.items == Project(ItemsOfOrder(orderItems, o.id))
  {
  }

  /** A code that no order has gives 404. */
  lemma UnknownCodeNotFound(code: string, orders: seq<Order>, orderItems: seq<OrderItem>, f: TrackFaults)
    requires !AllSpace(code) && !f.orderQuery
    requires forall o :: o in orders ==> o.trackingCode != LookupKey(code)
    ensures Track(Post, Str(code), orders, orderItems, f) == Fail(404, "Order not found", NoDetails)
  {
    NoOrderWithCode(orders, LookupKey(code));
  }
}

=== FILE: upload_proof.dfy ===
/** The `upload-payment-proof` edge function: stores the proof image of an order in
    the bucket under a path derived from the order's tracking code and the file's
    extension, and records the image's public URL on the order. */
module UploadProof {
  import opened Text
  import opened Records

  /** The request body; an empty string is a missing field.  `fileData` is the
      base64 text of the image, kept opaque. */
  datatype UploadRequest = UploadRequest(orderId: OrderId, fileName: string, fileData: string)

  /** Which steps fail (`true`: the step fails). */
  datatype UploadFaults = UploadFaults(
    orderQuery: bool,
    decode: bool,
    upload: bool,
    update: bool)

  const DefaultExtension: string := "jpg"
  const ProofFolder: string := "transferencias"

  /** `name.split(".").pop().toLowerCase() || "jpg"`: the text after the last ".",
      lower-cased, or the whole name when it has no "."; "jpg" when that is empty. */
  function FileExtension(name: string): (ext: string)
    ensures ext != []
    ensures Free(ext, '.')
    ensures forall i :: 0 <= i < |ext| ==> !IsUpperLetter(ext[i])
  {
    var parts := Split(name, '.');
    var last := ToLower(parts[|parts| - 1]);
    LowerKeepsFree(parts[|parts| - 1], '.');
    if last == "" then DefaultExtension else last
  }

  lemma LowerKeepsFree(s: string, c: char)
    requires Free(s, c) && !IsLowerLetter(c)
    ensures Free(ToLower(s), c)
  {
  }

  /** A name `base.ext` has extension `ext` (lower-cased), whatever `base` is. */
  lemma ExtensionAfterLastDot(base: string, ext: string)
    requires Free(ext, '.') && ext != []
    ensures FileExtension(base + "." + ext) == ToLower(ext)
  {
    SplitAppend(base, '.', ext);
    SplitFree(ext, '.');
  }

  /** A name without "." is its own extension (lower-cased). */
  lemma ExtensionOfUndotted(name: string)
    requires Free(name, '.') && name != []
    ensures FileExtension(name) == ToLower(name)
  {
    SplitFree(name, '.');
  }

  /** A name ending in "." gets the default extension. */
  lemma ExtensionOfTrailingDot(base: string)
    ensures FileExtension(base + ".") == DefaultExtension
  {
    SplitAppend(base, '.', "");
    assert base + "." + "" == base + ".";
  }

  /** The object path of an order's proof: one per tracking code and extension. */
  function ProofObjectPath(trackingCode: string, ext: string): (path: string)
    ensures |path| == |ProofFolder| + |trackingCode| + |ext| + 2
    ensures path[..|ProofFolder| + 1] == ProofFolder + "/"
    ensures path[|ProofFolder| + 1..|path| - |ext| - 1] == trackingCode
    ensures path[|path| - |ext| - 1..] == "." + ext
  {
    var path := ProofFolder + "/" + trackingCode + "." + ext;
    assert path == (ProofFolder + "/") + trackingCode + ("." + ext);
    path
  }

  /** Two different tracking codes never share a path for the same extension, and
      one order always writes the same path for the same extension. */
  lemma ProofObjectPathInjective(c1: string, c2: string, ext: string)
    requires Free(ext, '.')
    requires ProofObjectPath(c1, ext) == ProofObjectPath(c2, ext)
    ensures c1 == c2
  {
    var p1 := ProofObjectPath(c1, ext);
    var n := |ProofFolder + "/"|;
    assert |c1| == |c2|;
    assert c1 == p1[n..n + |c1|];
    assert c2 == ProofObjectPath(c2, ext)[n..n + |c2|];
  }

  /** The order row sent to the update: every row with id `id` gets the URL. */
  function SetProofUrl(orders: seq<Order>, id: OrderId, url: string): (r: seq<Order>)
    ensures |r| == |orders|
    ensures forall i :: 0 <= i < |orders| ==>
      r[i] == if orders[i].id == id then orders[i].(paymentProofUrl := Some(url)) else orders[i]
  {
    if |orders| == 0 then []
    else [if orders[0].id == id then orders[0].(paymentProofUrl := Some(url)) else orders[0]]
         + SetProofUrl(orders[1..], id, url)
  }

  /** The guards, in order; `Ok(order)` is the order the proof is for. */
  function UploadScreen(m: HttpMethod, req: UploadRequest, orders: seq<Order>, orderQueryFails: bool): (r: Reply<Order>)
    ensures r.Preflight? <==> m == Options
    ensures m != Options && m != Post ==> r == Fail(405, "Method not allowed", NoDetails)
    ensures r.Ok? <==>
      m == Post && req.orderId != "" && req.fileData != "" && req.fileName != "" && !orderQueryFails
      && |OrdersWithId(orders, req.orderId)| == 1
    ensures r.Ok? ==> r.value in orders && r.value.id == req.orderId
    ensures m == Post && req.orderId != "" && req.fileData != "" && req.fileName != ""
            && (orderQueryFails || |OrdersWithId(orders, req.orderId)| > 1) ==>
      r == Fail(500, "Error fetching order", NoDetails)
    ensures m == Post && req.orderId != "" && req.fileData != "" && req.fileName != ""
            && !orderQueryFails && OrdersWithId(orders, req.orderId) == [] ==>
      r == Fail(404, "Order not found", NoDetails)
  {
    match MethodGate<Order>(m)
    case Some(early) => early
    case None =>
      if req.orderId == "" || req.fileData == "" || req.fileName == "" then
        Fail(400, "Missing order_id, file_data, or file_name", NoDetails)
      else if orderQueryFails then Fail(500, "Error fetching order", NoDetails)
      else match MaybeSingle(OrdersWithId(orders, req.orderId))
        case LookupError => Fail(500, "Error fetching order", NoDetails)
        case NotFound => Fail(404, "Order not found", NoDetails)
        case Found(o) => Ok(o)
  }

  /** Any of the three fields missing is refused with 400, before the order is looked up. */
  lemma MissingFieldRefused(req: UploadRequest, orders: seq<Order>, orderQueryFails: bool)
    requires req.orderId == "" || req.fileData == "" || req.fileName == ""
    ensures UploadScreen(Post, req, orders, orderQueryFails)
      == Fail(400, "Missing order_id, file_data, or file_name", NoDetails)
  {
  }

  datatype UploadOutcome = UploadOutcome(reply: Reply<string>, orders: seq<Order>, proofs: map<string, StoredFile>)

  /** What follows the guards: decode, upload (overwriting), then record the public URL. */
  function Uploading(screen: Reply<Order>, req: UploadRequest, f: UploadFaults, projectUrl: string,
                     orders: seq<Order>, proofs: map<string, StoredFile>): (out: UploadOutcome)
    ensures !screen.Ok? ==> out.orders == orders && out.proofs == proofs && !out.reply.Ok?
    ensures out.reply.Ok? <==> screen.Ok? && !f.decode && !f.upload && !f.update
    ensures out.reply.Fail? ==> out.orders == orders
    ensures screen.Ok? && !f.decode && !f.upload ==>
      out.proofs.Keys == proofs.Keys + {ProofObjectPath(screen.value.trackingCode, FileExtension(req.fileName))}
  {
    match screen
    case Preflight => UploadOutcome(Preflight, orders, proofs)
    case Fail(status, error, details) => UploadOutcome(Fail(status, error, details), orders, proofs)
    case Ok(o) =>
      var ext := FileExtension(req.fileName);
      var path := ProofObjectPath(o.trackingCode, ext);
      if f.decode then UploadOutcome(Fail(500, "Internal server error", NoDetails), orders, proofs)
      else if f.upload then UploadOutcome(Fail(500, "Error uploading file", NoDetails), orders, proofs)
      else
        var stored := proofs[path := StoredFile(req.fileData, "image/" + ext)];
        var url := PublicUrl(projectUrl, path);
        if f.update then UploadOutcome(Fail(500, "Error updating order", NoDetails), orders, stored)
        else UploadOutcome(Ok(url), SetProofUrl(orders, req.orderId, url), stored)
  }

  method UploadProofHandler(db: Backend, m: HttpMethod, req: UploadRequest, f: UploadFaults)
    returns (r: Reply<string>)
    modifies db
    ensures db.products == old(db.products) && db.inventory == old(db.inventory)
    ensures db.shippingRules == old(db.shippingRules) && db.orderItems == old(db.orderItems)
    ensures UploadOutcome(r, db.orders, db.proofs)
      == Uploading(UploadScreen(m, req, old(db.orders), f.orderQuery), req, f, db.projectUrl,
                   old(db.orders), old(db.proofs))
  {
    var screen := UploadScreen(m, req, db.orders, f.orderQuery);
    if !screen.Ok? {
      r := if screen.Preflight? then Preflight else Fail(screen.status, screen.error, screen.details);
      return;
    }
    var order := screen.value;
    var ext := FileExtension(req.fileName);
    var path := ProofObjectPath(order.trackingCode, ext);
    if f.decode {
      return Fail(500, "Internal server error", NoDetails);
    }
    if f.upload {
      return Fail(500, "Error uploading file", NoDetails);
    }
    db.proofs := db.proofs[path := StoredFile(req.fileData, "image/" + ext)];
    var url := PublicUrl(db.projectUrl, path);
    if f.update {
      return Fail(500, "Error updating order", NoDetails);
    }
    db.orders := SetProofUrl(db.orders, req.orderId, url);
    r := Ok(url);
  }

  // ---------------------------------------------------------------- properties

  /** No storage write and no order change happen before an order has been found:
      missing fields give 400, an unknown order 404. */
  lemma NothingWrittenForUnknownOrder(m: HttpMethod, req: UploadRequest, orders: seq<Order>, f: UploadFaults,
                                      projectUrl: string, proofs: map<string, StoredFile>)
    requires m == Post && req.orderId != "" && req.fileData != "" && req.fileName != "" && !f.orderQuery
    requires forall o :: o in orders ==> o.id != req.orderId
    ensures var out := Uploading(UploadScreen(m, req, orders, f.orderQuery), req, f, projectUrl, orders, proofs);
      out == UploadOutcome(Fail(404, "Order not found", NoDetails), orders, proofs)
  {
    NoOrderWithId(orders, req.orderId);
  }

  /** A failed upload leaves the order and the bucket as they were; a failed update
      leaves the order as it was with the image already stored. */
  lemma FailedUploadKeepsOrder(screen: Reply<Order>, req: UploadRequest, f: UploadFaults, projectUrl: string,
                               orders: seq<Order>, proofs: map<string, StoredFile>)
    ensures var out := Uploading(screen, req, f, projectUrl, orders, proofs);
      !out.reply.Ok? ==> out.orders == orders
    ensures var out := Uploading(screen, req, f, projectUrl, orders, proofs);
      !out.reply.Ok? && (f.decode || f.upload || !screen.Ok?) ==> out.proofs == proofs
  {
  }

  /** On success the order row's `payment_proof_url` becomes the public URL of the
      object just stored, and nothing else about any order changes. */
  lemma SuccessSetsOnlyProofUrl(screen: Reply<Order>, req: UploadRequest, f: UploadFaults, projectUrl: string,
                                orders: seq<Order>, proofs: map<string, StoredFile>)
    requires Uploading(screen, req, f, projectUrl, orders, proofs).reply.Ok?
    ensures var out := Uploading(screen, req, f, projectUrl, orders, proofs);
      var path := ProofObjectPath(screen.value.trackingCode, FileExtension(req.fileName));
      && out.reply.value == PublicUrl(projectUrl, path)
      && path in out.proofs && out.proofs[path].data == req.fileData
      && out.proofs[path].contentType == "image/" + FileExtension(req.fileName)
      && |out.orders| == |orders|
      && forall i :: 0 <= i < |orders| ==>
           out.orders[i].(paymentProofUrl := orders[i].paymentProofUrl) == orders[i]
           && (orders[i].id == req.orderId ==> out.orders[i].paymentProofUrl == Some(out.reply.value))
           && (orders[i].id != req.orderId ==> out.orders[i] == orders[i])
  {
  }

  /** Uploading again for the same order with the same extension overwrites the same
      object: the bucket keeps one object there, holding the latest file. */
  lemma ReuploadOverwrites(o: Order, req1: UploadRequest, req2: UploadRequest, projectUrl: string,
                           orders: seq<Order>, proofs: map<string, StoredFile>)
    requires req1.orderId == req2.orderId
    requires FileExtension(req1.fileName) == FileExtension(req2.fileName)
    ensures var ok := UploadFaults(false, false, false, false);
      var first := Uploading(Ok(o), req1, ok, projectUrl, orders, proofs);
      var second := Uploading(Ok(o), req2, ok, projectUrl, first.orders, first.proofs);
      var path := ProofObjectPath(o.trackingCode, FileExtension(req2.fileName));
      && second.proofs == proofs[path := StoredFile(req2.fileData, "image/" + FileExtension(req2.fileName))]
      && second.proofs.Keys == proofs.Keys + {path}
      && second.reply == first.reply
  {
  }
}

=== FILE: venezuela.dfy ===
/** The Venezuelan states and cities the checkout form offers, and the lookups the
    form makes in them. */
module Venezuela {
  import opened Records

  datatype State = State(code: string, name: string)
  datatype City = City(name: string, stateCode: string)

  // The state table is written in blocks, grouped by initial letter, so that facts about
  // it can be proved block by block.
  const StatesA: seq<State> :=
    [State("AMZ", "Amazonas"), State("ANZ", "Anzoátegui"), State("APU", "Apure"), State("ARA", "Aragua")]
  const StatesB: seq<State> :=
    [State("BAR", "Barinas"), State("BOL", "Bolívar"), State("CAR", "Carabobo"), State("COJ", "Cojedes")]
  const StatesC: seq<State> :=
    [State("DAM", "Delta Amacuro"), State("FAL", "Falcón"), State("GUA", "Guárico"), State("LAR", "Lara")]
  const StatesD: seq<State> :=
    [State("MER", "Mérida"), State("MIR", "Miranda"), State("MON", "Monagas"), State("NES", "Nueva Esparta")]
  const StatesE: seq<State> :=
    [State("POR", "Portuguesa"), State("SUC", "Sucre"), State("TAC", "Táchira"), State("TRU", "Trujillo")]
  const StatesF: seq<State> :=
    [State("VAR", "Vargas"), State("YAR", "Yaracuy"), State("ZUL", "Zulia")]
  const StatesG: seq<State> :=
    [State("DC", "Distrito Capital")]

  /** `states`, in the order the form lists them. */
  const States: seq<State> := StatesA + StatesB + StatesC + StatesD + StatesE + StatesF + StatesG

  const CitiesA: seq<City> :=
    [City("Coro", "FAL"), City("Punto Fijo", "FAL"), City("Tucacas", "FAL"), City("Chichiriviche", "FAL")]
  const CitiesB: seq<City> :=
    [City("Caracas", "MIR"), City("Los Teques", "MIR"), City("Guarenas", "MIR"), City("Guatire", "MIR")]
  const CitiesC: seq<City> :=
    [City("Petare", "MIR"), City("Baruta", "MIR"), City("Chacao", "MIR"), City("Maracaibo", "ZUL")]
  const CitiesD: seq<City> :=
    [City("Cabimas", "ZUL"), City("Ciudad Ojeda", "ZUL"), City("Valencia", "CAR"), City("Puerto Cabello", "CAR")]
  const CitiesE: seq<City> :=
    [City("Maracay", "ARA"), City("Barquisimeto", "LAR"), City("Puerto La Cruz", "ANZ"), City("Barcelona", "ANZ")]
  const CitiesF: seq<City> :=
    [City("Maturín", "MON"), City("Ciudad Bolívar", "BOL"), City("Puerto Ordaz", "BOL"), City("San Cristóbal", "TAC")]
  const CitiesG: seq<City> :=
    [City("Mérida", "MER"), City("Porlamar", "NES"), City("Cumaná", "SUC")]

  /** `cities`, in table order. */
  const Cities: seq<City> := CitiesA + CitiesB + CitiesC + CitiesD + CitiesE + CitiesF + CitiesG

  // ---------------------------------------------------------------- lookups

  /** The cities among `cities` whose state code is `code`, in table order. */
  function CitiesWithCode(cities: seq<City>, code: string): (r: seq<City>)
    ensures forall c :: c in r <==> c in cities && c.stateCode == code
    ensures |r| <= |cities|
  {
    if |cities| == 0 then []
    else (if cities[0].stateCode == code then [cities[0]] else []) + CitiesWithCode(cities[1..], code)
  }

  /** `getCitiesByState` */
  function CitiesByState(code: string): (r: seq<City>)
    ensures forall c :: c in r <==> c in Cities && c.stateCode == code
  {
    CitiesWithCode(Cities, code)
  }

  /** `states.find(s => s.code === code)?.name` */
  function NameOfCode(states: seq<State>, code: string): (r: Option<string>)
    ensures r.Some? <==> exists s :: s in states && s.code == code
    ensures r.Some? ==> State(code, r.value) in states
  {
    if |states| == 0 then None
    else if states[0].code == code then Some(states[0].name)
    else NameOfCode(states[1..], code)
  }

  /** `states.find(s => s.name === name)?.code` */
  function CodeOfName(states: seq<State>, name: string): (r: Option<string>)
    ensures r.Some? <==> exists s :: s in states && s.name == name
    ensures r.Some? ==> State(r.value, name) in states
  {
    if |states| == 0 then None
    else if states[0].name == name then Some(states[0].code)
    else CodeOfName(states[1..], name)
  }

  // ---------------------------------------------------------------- uniqueness

  /** No two states share a code, and no two share a name. */
  predicate Unique(states: seq<State>) {
    forall i, j :: 0 <= i < j < |states| ==>
      states[i].code != states[j].code && states[i].name != states[j].name
  }

  /** No state of `a` shares its code or its name with a state of `b`. */
  predicate Apart(a: seq<State>, b: seq<State>) {
    forall x, y :: x in a && y in b ==> x.code != y.code && x.name != y.name
  }

  /** Every code and every name of `states` starts with a letter in `lo..hi`. */
  predicate Within(states: seq<State>, lo: char, hi: char) {
    forall s :: s in states ==>
      |s.code| > 0 && |s.name| > 0 && lo <= s.code[0] <= hi && lo <= s.name[0] <= hi
  }

  lemma UniqueJoin(a: seq<State>, b: seq<State>)
    requires Unique(a) && Unique(b) && Apart(a, b)
    ensures Unique(a + b)
  {
    forall i, j | 0 <= i < j < |a + b|
      ensures (a + b)[i].code != (a + b)[j].code && (a + b)[i].name != (a + b)[j].name
    {
      if j < |a| {
      } else if i >= |a| {
        assert (a + b)[i] == b[i - |a|] && (a + b)[j] == b[j - |a|];
      } else {
        assert (a + b)[i] in a && (a + b)[j] in b;
      }
    }
  }

  lemma ApartByLetter(a: seq<State>, b: seq<State>, lo1: char, hi1: char, lo2: char, hi2: char)
    requires Within(a, lo1, hi1) && Within(b, lo2, hi2) && (hi1 < lo2 || hi2 < lo1)
    ensures Apart(a, b)
  {
    forall x, y | x in a && y in b
      ensures x.code != y.code && x.name != y.name
    {
      assert x.code[0] != y.code[0] && x.name[0] != y.name[0];
    }
  }

  /** Appending a block of later initial letters keeps the table unique. */
  lemma Extend(p: seq<State>, b: seq<State>, lo: char, mid1: char, mid2: char, hi: char)
    requires Unique(p) && Within(p, lo, mid1)
    requires Unique(b) && Within(b, mid2, hi)
    requires lo <= mid1 < mid2 <= hi
    ensures Unique(p + b) && Within(p + b, lo, hi)
  {
    ApartByLetter(p, b, lo, mid1, mid2, hi);
    UniqueJoin(p, b);
  }

  lemma ApartJoin(a: seq<State>, b: seq<State>, c: seq<State>)
    requires Apart(a, c) && Apart(b, c)
    ensures Apart(a + b, c)
  {
  }

  lemma BlockA() ensures Unique(StatesA) && Within(StatesA, 'A', 'A') {}
  lemma BlockB() ensures Unique(StatesB) && Within(StatesB, 'B', 'C') {}
  lemma BlockC() ensures Unique(StatesC) && Within(StatesC, 'D', 'L') {}
  lemma BlockD() ensures Unique(StatesD) && Within(StatesD, 'M', 'N') {}
  lemma BlockE() ensures Unique(StatesE) && Within(StatesE, 'P', 'T') {}
  lemma BlockF() ensures Unique(StatesF) && Within(StatesF, 'V', 'Z') {}
  lemma BlockG() ensures Unique(StatesG) && Within(StatesG, 'D', 'D') && Apart(StatesC, StatesG) {}

  /** The first 23 states, whose initial letters run from A to Z block by block. */
  lemma FirstBlocksUnique()
    ensures Unique(StatesA + StatesB) && Within(StatesA + StatesB, 'A', 'C')
    ensures Unique(StatesA + StatesB + StatesC) && Within(StatesA + StatesB + StatesC, 'A', 'L')
  {
    BlockA(); BlockB(); BlockC();
    Extend(StatesA, StatesB, 'A', 'A', 'B', 'C');
    Extend(StatesA + StatesB, StatesC, 'A', 'C', 'D', 'L');
  }

  lemma LastBlocksUnique()
    ensures Unique(StatesD + StatesE + StatesF) && Within(StatesD + StatesE + StatesF, 'M', 'Z')
  {
    BlockD(); BlockE(); BlockF();
    Extend(StatesD, StatesE, 'M', 'N', 'P', 'T');
    Extend(StatesD + StatesE, StatesF, 'M', 'T', 'V', 'Z');
  }

  lemma StatesSplit()
    ensures States == (StatesA + StatesB + StatesC) + (StatesD + StatesE + StatesF) + StatesG
  {
  }

  /** The front and back blocks are apart from Distrito Capital. */
  lemma CapitalApart()
    ensures Apart(StatesA + StatesB + StatesC, StatesG)
    ensures Apart(StatesD + StatesE + StatesF, StatesG)
    ensures Unique(StatesG)
  {
    FirstBlocksUnique();
    LastBlocksUnique();
    BlockG();
    ApartByLetter(StatesA + StatesB, StatesG, 'A', 'C', 'D', 'D');
    ApartJoin(StatesA + StatesB, StatesC, StatesG);
    ApartByLetter(StatesD + StatesE + StatesF, StatesG, 'M', 'Z', 'D', 'D');
  }

  /** The codes of `States` are unique, and so are its names. */
  lemma StatesUnique()
    ensures Unique(States)
  {
    var front := StatesA + StatesB + StatesC;
    var back := StatesD + StatesE + StatesF;
    FirstBlocksUnique();
    LastBlocksUnique();
    Extend(front, back, 'A', 'L', 'M', 'Z');
    CapitalApart();
    ApartJoin(front, back, StatesG);
    StatesSplit();
    UniqueJoin(front + back, StatesG);
  }

  // ---------------------------------------------------------------- the lookups

  /** In a table whose codes and names are each unique, the name found for a code leads
      back to that code, and the code found for a name leads back to that name. */
  lemma {:induction false} CodeNameRoundTrip(states: seq<State>, s: State)
    requires Unique(states)
    requires s in states
    ensures NameOfCode(states, s.code) == Some(s.name)
    ensures CodeOfName(states, s.name) == Some(s.code)
  {
    if states[0] != s {
      var k :| 0 <= k < |states| && states[k] == s;
      assert states[0].code != s.code && states[0].name != s.name;
      assert s in states[1..];
      assert Unique(states[1..]) by {
        forall i, j | 0 <= i < j < |states[1..]|
          ensures states[1..][i].code != states[1..][j].code && states[1..][i].name != states[1..][j].name
        {
          assert states[1..][i] == states[i + 1] && states[1..][j] == states[j + 1];
        }
      }
      CodeNameRoundTrip(states[1..], s);
    }
  }

  /** Every state of the form: looking up its code gives its name, and looking up that
      name gives the code back. */
  lemma StateLookupRoundTrip(s: State)
    requires s in States
    ensures NameOfCode(States, s.code) == Some(s.name)
    ensures CodeOfName(States, s.name) == Some(s.code)
  {
    StatesUnique();
    CodeNameRoundTrip(States, s);
  }

  /** Every state of the form has a name, so a known code never yields an empty state. */
  lemma StateNamed(s: State)
    requires s in States
    ensures s.name != ""
  {
    assert s in StatesA + StatesB + StatesC || s in StatesD + StatesE + StatesF || s in StatesG by {
      StatesSplit();
    }
  }

  /** The states that have cities listed. */
  lemma StatesWithCities()
    ensures State("FAL", "Falcón") in States && State("MIR", "Miranda") in States
    ensures State("ZUL", "Zulia") in States && State("CAR", "Carabobo") in States
    ensures State("ARA", "Aragua") in States && State("LAR", "Lara") in States
    ensures State("ANZ", "Anzoátegui") in States && State("MON", "Monagas") in States
    ensures State("BOL", "Bolívar") in States && State("TAC", "Táchira") in States
    ensures State("MER", "Mérida") in States && State("NES", "Nueva Esparta") in States
    ensures State("SUC", "Sucre") in States
  {
  }

  lemma {:induction false} CitiesWithCodeAppend(a: seq<City>, b: seq<City>, code: string)
    ensures CitiesWithCode(a + b, code) == CitiesWithCode(a, code) + CitiesWithCode(b, code)
  {
    if |a| > 0 {
      assert (a + b)[0] == a[0];
      assert (a + b)[1..] == a[1..] + b;
      CitiesWithCodeAppend(a[1..], b, code);
    } else {
      assert a + b == b;
    }
  }

  lemma {:induction false} NoCityWithCode(cities: seq<City>, code: string)
    requires forall c :: c in cities ==> c.stateCode != code
    ensures CitiesWithCode(cities, code) == []
  {
    if |cities| > 0 {
      assert cities[0] in cities;
      NoCityWithCode(cities[1..], code);
    }
  }

  lemma {:induction false} AllCitiesWithCode(cities: seq<City>, code: string)
    requires forall c :: c in cities ==> c.stateCode == code
    ensures CitiesWithCode(cities, code) == cities
  {
    if |cities| > 0 {
      assert cities[0] in cities;
      AllCitiesWithCode(cities[1..], code);
      assert [cities[0]] + cities[1..] == cities;
    }
  }

  /** `code` is the code of a state of the form. */
  predicate Listed(code: string) {
    exists s :: s in States && s.code == code
  }

  /** The state codes the cities table uses. */
  const CityStateCodes: set<string> :=
    {"FAL", "MIR", "ZUL", "CAR", "ARA", "LAR", "ANZ", "MON", "BOL", "TAC", "MER", "NES", "SUC"}

  /** Every state code the cities table uses is a code of the form's states. */
  lemma CityStatesListed()
    ensures forall code :: code in CityStateCodes ==> Listed(code)
  {
    StatesWithCities();
    forall code | code in CityStateCodes ensures Listed(code) {
      var names := map["FAL" := "Falcón", "MIR" := "Miranda", "ZUL" := "Zulia", "CAR" := "Carabobo",
                       "ARA" := "Aragua", "LAR" := "Lara", "ANZ" := "Anzoátegui", "MON" := "Monagas",
                       "BOL" := "Bolívar", "TAC" := "Táchira", "MER" := "Mérida", "NES" := "Nueva Esparta",
                       "SUC" := "Sucre"];
      assert State(code, names[code]) in States;
    }
  }

  /** Amazonas and Distrito Capital are not among them. */
  lemma CityStatesOmit()
    ensures "AMZ" !in CityStateCodes && "DC" !in CityStateCodes
  {
    assert "AMZ"[0] == 'A' && "AMZ"[1] == 'M';
    assert |"DC"| == 2;
  }

  /** What the rows of a block of cities can tell a lookup: their state is one the
      cities table uses, and it is Falcón exactly in the first block. */
  predicate CityRowsFit(cities: seq<City>, falcon: bool) {
    forall c :: c in cities ==> c.stateCode in CityStateCodes && (c.stateCode == "FAL" <==> falcon)
  }

  lemma CityBlockA() ensures CityRowsFit(CitiesA, true) {}
  lemma CityBlockB() ensures CityRowsFit(CitiesB, false) {}
  lemma CityBlockC() ensures CityRowsFit(CitiesC, false) {}
  lemma CityBlockD() ensures CityRowsFit(CitiesD, false) {}
  lemma CityBlockE() ensures CityRowsFit(CitiesE, false) {}
  lemma CityBlockF() ensures CityRowsFit(CitiesF, false) {}
  lemma CityBlockG() ensures CityRowsFit(CitiesG, false) {}

  lemma CityRowsJoin(a: seq<City>, b: seq<City>, falcon: bool)
    requires CityRowsFit(a, falcon) && CityRowsFit(b, falcon)
    ensures CityRowsFit(a + b, falcon)
  {
  }

  /** The rows after the Falcón block. */
  const CitiesAfterFalcon: seq<City> := CitiesB + CitiesC + CitiesD + CitiesE + CitiesF + CitiesG

  lemma AfterFalconFit()
    ensures CityRowsFit(CitiesAfterFalcon, false)
  {
    CityBlockB(); CityBlockC(); CityBlockD(); CityBlockE(); CityBlockF(); CityBlockG();
    CityRowsJoin(CitiesB, CitiesC, false);
    CityRowsJoin(CitiesB + CitiesC, CitiesD, false);
    CityRowsJoin(CitiesB + CitiesC + CitiesD, CitiesE, false);
    CityRowsJoin(CitiesB + CitiesC + CitiesD + CitiesE, CitiesF, false);
    CityRowsJoin(CitiesB + CitiesC + CitiesD + CitiesE + CitiesF, CitiesG, false);
  }

  lemma CitiesSplit()
    ensures Cities == CitiesA + CitiesAfterFalcon
  {
  }

  /** Every city's state code is the code of a state of the form. */
  lemma CitiesHaveStates(c: City)
    requires c in Cities
    ensures NameOfCode(States, c.stateCode).Some?
  {
    CitiesSplit();
    CityBlockA();
    AfterFalconFit();
    CityStatesListed();
  }

  /** Amazonas and Distrito Capital have no cities listed, so choosing either leaves the
      city list empty. */
  lemma NoCitiesListed()
    ensures CitiesByState("AMZ") == [] && CitiesByState("DC") == []
  {
    CitiesSplit();
    CityBlockA();
    AfterFalconFit();
    CityStatesOmit();
    NoCityWithCode(Cities, "AMZ");
    NoCityWithCode(Cities, "DC");
  }

  /** When the matching rows come first, the lookup returns exactly them. */
  lemma MatchingPrefix(a: seq<City>, rest: seq<City>, code: string)
    requires forall c :: c in a ==> c.stateCode == code
    requires forall c :: c in rest ==> c.stateCode != code
    ensures CitiesWithCode(a + rest, code) == a
  {
    CitiesWithCodeAppend(a, rest, code);
    AllCitiesWithCode(a, code);
    NoCityWithCode(rest, code);
  }

  /** Falcón's cities are the first four rows, in table order. */
  lemma FalconCities()
    ensures CitiesByState("FAL") == CitiesA
  {
    CitiesSplit();
    CityBlockA();
    AfterFalconFit();
    MatchingPrefix(CitiesA, CitiesAfterFalcon, "FAL");
  }
}
